=== FILE: README.md ===
# SmilePay checkout — a Dafny model of the payment core

This project models the payment core of a small Next.js checkout for the
ZB SmilePay gateway (Zimbabwe). It covers:

- **The SmilePay client helpers**: client construction and its base URL, the credentials guard of `makeRequest`, currency codes, order references, the gateway-status and payment-method mappings, and the webhook signature check.
- **The transaction ledger**:
  - the in-memory database: records in insertion order, lookup by order reference, create, update (with its one-time `paid_at` stamp), filtered newest-first listings, the webhook log, statistics and seed data;
  - the Postgres `update`: its SET list, its `$n` placeholder numbering, its `paid_at` handling, and the statements the database would reject;
  - the listing queries, with their placeholders.
- **Five API route handlers**:
  - standard-checkout initiation, with its sandbox fallback;
  - EcoCash express checkout;
  - card express checkout;
  - the gateway webhook;
  - the status simulator.
- **The browser-side validators**:
  - the customer-details form;
  - the card form (card-number formatting, the month check, the padded month, and the sandbox "paid" shortcut);
  - the EcoCash form (its phone pattern and the status polling);
  - the result page's choice of the status to show.

How the model represents things:

- **Ledger.** The ledger is one immutable value (`MockStore.Store`). It holds:
  - records keyed by id, plus their insertion order (the iteration order of a JavaScript `Map`);
  - merchants, the payment-method catalogue, and the webhook log.
- **Handlers.** A handler is a pure function. It takes:
  - the ledger and the request body, with absent keys as `None`;
  - the configured gateway client, and the reply the gateway would give (`GatewayReply`: a thrown request, or a reply with its optional fields);
  - the clock readings and random draws of the request (`Draws`, `Clocks`).

  It returns the new ledger, the JSON answer with its HTTP status, and the gateway request object it built.
- **JavaScript semantics.** Truthiness (`||`, `!x`), `parseInt`, `padStart`, the `\s` class and ASCII `toUpperCase` are written out.
- **Numbers.** Amounts are `real`. A form's `parseFloat` result is a `JsNumber` that may be NaN, which `JSON.stringify` sends as `null`.

Which database each handler uses follows the imports:

- The initiate, webhook and simulate handlers import `lib/db`, which is the Postgres implementation. They write records through `PostgresStore.UpdatePg` and log entries through `PostgresStore.InsertLogPg`.
- The two express handlers import the in-memory database. They write through `MockStore.Update`.

The two stores differ in three ways, and lemmas state each:

- Postgres stamps `paid_at` on every write of PAID; the in-memory store stamps it only once.
- Postgres leaves `updated_at` alone unless the patch assigns it; the in-memory store always refreshes it.
- A log entry's id is `wh_<ms>`. A second entry in the same millisecond replaces the first in the in-memory `Map`, while the Postgres `INSERT` refuses it. The webhook and simulate handlers then answer 500, after their status update has already been written.

Where the code and its own comments or pages disagree, the model follows the code:

- **Signature check.** The webhook signature check passes when no secret is configured. When a secret is configured, it compares the header with the secret itself, not an HMAC of the payload.
- **Two databases.** The express handlers write to the in-memory database, while the webhook and status endpoints read Postgres. A record created by an express handler is therefore never found by the callback that settles it. The model gives every handler a ledger of the same shape and states no property that chains an express handler into the webhook.
- **Phone patterns.** The EcoCash form accepts a bare nine-digit subscriber number (`771234567`), and the EcoCash handler refuses it. `EcocashForm.BareNumberRefusedByHandler` shows this.
- **Card expiry year.** The card form accepts a one-digit expiry year, and the handler refuses it. `CardForm.OneDigitYearRefusedByHandler` shows this.
- **Sandbox "paid".** The card form shows PAID on any success without a challenge page, while the ledger still holds PENDING. `CardForm.FormShowsPaidWhileLedgerPending` shows this.

## Model

| member | source | states |
|---|---|---|
| SmilePayClient.NewClient | lib/smilepay/client.ts:41-47 | without a config object construction fails; otherwise the sandbox URL unless `production` is asked for, the credentials copied, an absent or empty webhook secret stored as empty |
| SmilePayClient.MakeRequest | lib/smilepay/client.ts:54-58 | without both API key and secret the call throws and nothing is sent; otherwise the URL is base URL plus endpoint and the gateway's reply is passed through |
| SmilePayClient.ParseCurrency | lib/smilepay/client.ts:22-25 | a currency name is recognised exactly when it names USD or ZWG, and parsing returns that code |
| SmilePayClient.FormatCurrencyCode | lib/smilepay/client.ts:171-173 | ZWG becomes "924"; every other name that is not an inherited member (USD included) becomes "840"; each known code becomes its ISO numeric value |
| SmilePayClient.RandomPart | lib/smilepay/client.ts:177 | the random text's characters 2 to 7: at most six characters |
| SmilePayClient.GenerateOrderReference | lib/smilepay/client.ts:175-179 | `ORD-` prefix, upper case throughout, length fixed by the base-36 clock and the random part |
| SmilePayClient.ToUpperInjectiveOnDigits | lib/smilepay/client.ts:178 | upper-casing loses nothing on base-36 digit strings |
| SmilePayClient.SameReferenceSameWidth | lib/smilepay/client.ts:175-179 | two equal references have clock parts of the same width |
| SmilePayClient.DistinctClocksDistinctReferences | lib/smilepay/client.ts:175-179 | references generated at different milliseconds differ, whatever the random draws |
| SmilePayClient.MapStatus | lib/smilepay/client.ts:181-196 | PAID exactly for SUCCESS/PAID/COMPLETED, FAILED exactly for FAILED/ERROR, CANCELLED exactly for CANCELLED/CANCELED, in any letter case |
| SmilePayClient.UnknownStatusIsPending | lib/smilepay/client.ts:193-194 | an absent or unlisted gateway status maps to PENDING |
| SmilePayClient.MapStatusIgnoresCase | lib/smilepay/client.ts:182 | the mapping depends only on the upper-cased status |
| SmilePayClient.MapStatusFixesOwnNames | lib/smilepay/client.ts:181-196 | the ledger's own status names map back to themselves |
| SmilePayClient.MapPaymentMethod | lib/smilepay/client.ts:27-33 | every ledger payment method maps to a gateway method, never ONEMONEY |
| SmilePayClient.MapPaymentMethodInjective | lib/smilepay/client.ts:27-33 | distinct ledger methods are sent under distinct gateway names |
| SmilePayClient.ValidateWebhookSignature | lib/smilepay/client.ts:202-206 | with no secret every signature passes; with one, exactly the signature equal to the secret passes |
| SmilePayClient.SignatureIgnoresPayload | lib/smilepay/client.ts:202-206 | the verdict does not depend on the payload |
| Text.StripSpacesIdempotent | components/checkout/customer-form.tsx:45 | removing whitespace twice is removing it once |
| Text.FromToRadix | lib/smilepay/client.ts:176 | reading back a number written in radix 2 to 36 gives the number |
| Text.ToRadixInjective | lib/smilepay/client.ts:176 | distinct numbers are written differently in a given radix |
| SmilePayClient.ToUpperIdempotent | lib/smilepay/client.ts:178 | upper-casing twice is upper-casing once |
| Text.IsSpace | components/checkout/ecocash-form.tsx:41 | the characters of the `\s` class |
| Text.IsBlank | components/checkout/customer-form.tsx:36 | `trim()` leaves nothing: every character is whitespace |
| Text.StripSpaces | app/api/payments/express/card/route.ts:29 | no whitespace is left, no character is added, and a string without whitespace is returned as it is |
| Text.StripSpacesAppend | app/api/payments/express/card/route.ts:29 | stripping works piece by piece: with the row above, each character is kept exactly when it is not whitespace, in its order |
| Phone.LooseNumberShape | components/checkout/ecocash-form.tsx:42 | a number the browser pattern accepts is 9 to 12 ASCII digits ending in a subscriber number |
| Phone.LooseIsPrefixedOrBare | app/api/payments/express/ecocash/route.ts:19-20 | the browser pattern accepts exactly the server's prefixed numbers plus bare subscriber numbers, which the server never accepts |
| Phone.BareNumberSplitsThePatterns | app/api/payments/express/ecocash/route.ts:19 | "771234567" passes the browser pattern and fails the server's |
| Phone.Subscriber | app/api/payments/express/ecocash/route.ts:19 | the `7[0-9]{8}` part both patterns share |
| Phone.PrefixedNumber | app/api/payments/express/ecocash/route.ts:19-20 | the handler's pattern: `263` or `0`, then a subscriber number |
| Phone.LooseNumber | components/checkout/ecocash-form.tsx:42 | the browser's pattern: the prefix is optional |
| Domain.ParseStatus | app/api/payments/simulate/route.ts:22-27 | a status string is accepted exactly when it is one of the four status names, and parses to that status |
| Domain.ApplyPatch | lib/db/mock-db.ts:201 | the spread `{ ...t, ...p }`: the patch's keys in order, a later key overriding an earlier one |
| Domain.ApplyEntry | lib/db/mock-db.ts:201 | spreading one patch key sets that column and leaves every other column as it was |
| Domain.ApplyPatchOverlay | lib/db/mock-db.ts:201 | after a spread every column holds the patch's last value for it, or its old value when the patch omits it |
| Domain.ApplyPatchFrame | lib/db/mock-db.ts:201 | a column the patch omits is unchanged |
| Domain.ApplyPatchSets | lib/db/mock-db.ts:201 | a column the patch carries takes the patch's last value |
| Domain.LastValueCarries | lib/db/mock-db.ts:201 | a patch has a last value for a column exactly when it carries that column |
| Domain.GetExtensional | lib/db/types.ts:39-57 | two records that agree on every column are equal |
| MockStore.RecordsCover | lib/db/mock-db.ts:147 | the listed records are exactly the stored ones, one per id, in insertion order |
| MockStore.RecordsDistinct | lib/db/mock-db.ts:147 | in a well-formed store no record is listed twice |
| MockStore.DefaultMerchant | app/api/payments/initiate/route.ts:31-32 | the first merchant, and one exists exactly when any merchant is stored |
| MockStore.FirstWithReference | lib/db/mock-db.ts:105-110 | the first position holding the reference, none before it, or none at all |
| MockStore.FindByOrderReference | lib/db/mock-db.ts:105-110 | a found record has the reference and is stored; nothing found means no stored record has it; the found one is the earliest inserted |
| MockStore.FindByOrderReferenceComplete | lib/db/mock-db.ts:105-110 | a lookup succeeds exactly when some stored record has the reference |
| MockStore.FindAfterRowChange | lib/db/mock-db.ts:205 | rewriting a record without changing its reference leaves every lookup finding the same position |
| MockStore.OrNull | lib/db/mock-db.ts:189-190 | an absent or empty URL is stored as null, any other kept |
| MockStore.Create | lib/db/mock-db.ts:164-197 | the new record: given id, PENDING, the request's fields, cancel and failure URLs as given, an empty one stored as null, no reference/URL/paid time, both times `now`; it is the only change, appended last when the id is new |
| MockStore.InsertAppendsRecord | lib/db/mock-db.ts:195 | storing under a new id appends the record to the listing and keeps the rest |
| MockStore.Update | lib/db/mock-db.ts:198-207 | an unknown id changes nothing and returns null; otherwise only that record changes, `updated_at` is now, and `paid_at` is stamped with now exactly on the first PAID; otherwise `paid_at` is the patch's last value for it, or the old one |
| MockStore.UpdateOverlay | lib/db/mock-db.ts:201 | every column but the two timestamps holds the patch's last value or the old one |
| MockStore.UpdateFrame | lib/db/mock-db.ts:205 | every other record is untouched |
| MockStore.UpdateStatus | lib/db/mock-db.ts:198-207 | a status-only patch sets the status, refreshes `updated_at`, stamps `paid_at` only on the first PAID |
| MockStore.PaidAtIsStampedOnce | lib/db/mock-db.ts:202-204 | once a record has a paid time, no sequence of updates that leave `paid_at` out of the patch changes it |
| MockStore.UpdateByOrderReference | lib/db/mock-db.ts:208-215 | an unknown reference changes nothing; otherwise the result is exactly `update` applied to the record the lookup finds |
| MockStore.FindAll | lib/db/mock-db.ts:139-163 | newest first, exactly the stored records that pass every given filter (a permutation of them) |
| MockStore.FindByMerchant | lib/db/mock-db.ts:111-138 | newest first, and a permutation of that merchant's records that pass every given filter, each as often as it is stored |
| MockStore.LogIdInjective | lib/db/mock-db.ts:253 | log entries written at different milliseconds get different ids |
| MockStore.LogSlot | lib/db/mock-db.ts:260 | the position of the first entry stored under an id, or the end exactly when no entry has that id |
| MockStore.Describes | lib/db/mock-db.ts:252-259 | the entry `webhookLogs.create` builds: id `wh_<ms>`, the given fields, a zero status code as null, created at that millisecond |
| MockStore.LogEntry | lib/db/mock-db.ts:252-259 | the entry built from the input is the one described |
| MockStore.CreateLog | lib/db/mock-db.ts:246-262 | the entry under `wh_<ms>` is the one described; it is appended, or replaces an entry of the same millisecond in place, and nothing else changes |
| MockStore.CreateLogAppendsWhenFresh | lib/db/mock-db.ts:260 | with no entry of that millisecond the new entry is added at the end and the earlier ones stay |
| MockStore.SameMillisecondLogsCollide | lib/db/mock-db.ts:253-260 | a second entry in the same millisecond overwrites the first and the log does not grow |
| MockStore.FindLogsByTransactionId | lib/db/mock-db.ts:263-267 | newest first, and each entry of that transaction exactly as often as the log holds it, nothing else |
| MockStore.FindActive | lib/db/mock-db.ts:232-234 | the active catalogue entries, each as often as the catalogue holds it, in catalogue order |
| MockStore.StatusCountsPartition | lib/db/mock-db.ts:287-291 | every record is counted under exactly one of the four statuses |
| MockStore.SumPaidIgnoresOthers | lib/db/mock-db.ts:284-288 | the paid total counts no record that is not PAID |
| MockStore.CountStatus | lib/db/mock-db.ts:289-291 | the number of records with one status, never more than there are records |
| MockStore.CountStatusIsFilterLength | lib/db/mock-db.ts:289-291 | counting a status is the length of the records filtered on that status |
| MockStore.SumPaid | lib/db/mock-db.ts:284-288 | the sum of the PAID records' amounts |
| MockStore.CountsOfAppend | lib/db/mock-db.ts:284-291 | a record added at the end raises only its own status's count, by one, and the paid total only by its amount when PAID |
| MockStore.Scope | lib/db/mock-db.ts:279-282 | the merchant's records when a merchant is given, all records otherwise, in insertion order |
| MockStore.GetOverview | lib/db/mock-db.ts:272-293 | the total, and the PAID, PENDING and FAILED counts each over its own status, with the paid total, over the merchant's records or all records when no merchant is given |
| MockStore.ScopeOfAppended | lib/db/mock-db.ts:279-282 | a record added at the end of the iteration joins, at the end, every scope whose merchant it has, and the unscoped one |
| MockStore.CreateAddsOnePending | lib/db/mock-db.ts:176-195 | creating under a fresh id adds one to the total and PENDING counts of each scope the record falls in, and changes no other count or the paid total |
| MockStore.InitializeDefaults | lib/db/mock-db.ts:22-61 | exactly one merchant, the active `merchant_001` demo merchant with its key and no webhook URL; the three catalogue entries in order with their codes, active flags and amount bounds; no transactions and no logs |
| MockStore.SeededActiveMethods | lib/db/mock-db.ts:35-60 | of the seeded methods exactly EcoCash and Visa/Mastercard are active, in that order |
| Sorting.Filter | lib/db/mock-db.ts:120-135 | every element that passes the test, exactly as often as in the input, nothing else, in input order |
| Sorting.CopiesKept | lib/db/mock-db.ts:120-135 | each element passing the test occurs as often as in the input, and nothing else occurs |
| Sorting.Subsequence | lib/db/mock-db.ts:120-135 | the input with some elements dropped, the rest in their order |
| Sorting.SortDesc | lib/db/mock-db.ts:162 | the result is ordered newest first and is a permutation of the input |
| Sorting.SortDescOfSorted | lib/db/mock-db.ts:162 | an input already newest first is left exactly as it is |
| Sorting.SortDescStable | lib/db/mock-db.ts:162 | the sort is stable: for every key, the records carrying it come out in the order they went in |
| Sorting.SortDescKeepsTies | lib/db/mock-db.ts:162 | the elements with any one key appear in the sorted listing in their input order |
| Sorting.InsertDescTies | lib/db/mock-db.ts:162 | an inserted element lands ahead of every element with its key, and those keep their order |
| Sorting.WithKeyIsFilter | lib/db/mock-db.ts:162 | the elements with one key, in order, are the filter on that key |
| PostgresStore.PlaceholderInjective | lib/db/postgres-db.ts:232 | distinct parameter numbers give distinct `$n` placeholders |
| PostgresStore.Conditions | lib/db/postgres-db.ts:106-121 | one condition per supplied filter, in the order status, method, start, end, each with its value |
| PostgresStore.ConditionsAgreeWithMatches | lib/db/postgres-db.ts:141-156 | a row satisfies every generated condition exactly when it passes the in-memory filters |
| PostgresStore.FindAllQuery | lib/db/postgres-db.ts:137-158 | condition i compares with `$(i+1)` with its value as parameter i, and the query ends in newest-first order |
| PostgresStore.FindByMerchantQuery | lib/db/postgres-db.ts:102-123 | the merchant is `$1` and condition i compares with `$(i+2)`, ending in newest-first order |
| PostgresStore.ListingPlaceholdersBound | lib/db/postgres-db.ts:102-158 | every placeholder of a listing query names a parameter that is supplied |
| PostgresStore.WritablesLastValue | lib/db/postgres-db.ts:227 | the SET list carries the patch's values for every column except `id` and `created_at`, which it drops |
| PostgresStore.WritablesCarries | lib/db/postgres-db.ts:227 | a column is assigned exactly when the patch carries it and it is neither `id` nor `created_at` |
| PostgresStore.UpdateStatementOf | lib/db/postgres-db.ts:226-244 | one assignment per writable key, never `id` or `created_at`; a `paid_at` stamp exactly when the patch's status is PAID |
| PostgresStore.UpdatePlaceholders | lib/db/postgres-db.ts:232-244 | the id is `$1`, SET entry i is `$(i+2)`, the stamp takes the next number, and every placeholder has its parameter |
| PostgresStore.RejectedCases | lib/db/postgres-db.ts:232-242 | the statement is invalid exactly when nothing is assigned, or when status PAID meets a patch that assigns `paid_at` too |
| PostgresStore.ClashIsStamp | lib/db/postgres-db.ts:239-242 | a column can be assigned twice only through the PAID stamp meeting an explicit `paid_at` |
| PostgresStore.PgRow | lib/db/postgres-db.ts:226-248 | the returned row keeps id and creation time, is stamped on PAID, and keeps `updated_at` unless assigned |
| PostgresStore.PgRowExecutesStatement | lib/db/postgres-db.ts:232-244 | every column the statement assigns ends up holding the parameter bound to its placeholder |
| PostgresStore.PgRowUntouched | lib/db/postgres-db.ts:232-244 | a column the statement does not assign keeps its value |
| PostgresStore.UpdatePg | lib/db/postgres-db.ts:226-248 | an invalid statement is a database error; an unknown id returns null and changes nothing; otherwise only that row changes as the statement says |
| PostgresStore.UpdatePgStatus | lib/db/postgres-db.ts:239-242 | a status-only write runs, sets the status and stamps `paid_at` on every PAID |
| PostgresStore.UpdatePgLinks | lib/db/postgres-db.ts:226-248 | writing payment URL and gateway reference runs and changes just those two columns |
| PostgresStore.UpdatePgByOrderReference | lib/db/postgres-db.ts:250-257 | an unknown reference changes nothing; otherwise the result, a database error included, is exactly `update` applied to the row the lookup finds |
| PostgresStore.InsertLogPg | lib/db/postgres-db.ts:309-338 | refused exactly when an entry of that millisecond exists; otherwise the described entry is added at the end and nothing else changes |
| PostgresStore.InsertLogAgreesWhenFresh | lib/db/postgres-db.ts:315-335 | in a fresh millisecond the insert and the in-memory `set` store the same log; in a taken one the insert is refused and the `set` does not grow the log |
| PostgresStore.SameMillisecondInsertRefused | lib/db/postgres-db.ts:316-326 | a second insert in the same millisecond is refused |
| PostgresStore.PaidAtRestampedOnlyByPostgres | lib/db/postgres-db.ts:239-242 | writing PAID again moves the paid time in Postgres but not in memory |
| PostgresStore.UpdatedAtRefreshedOnlyInMemory | lib/db/postgres-db.ts:235-244 | an update that leaves `updated_at` out keeps it in Postgres but refreshes it in memory |
| Api.OrderReferenceFor | app/api/payments/initiate/route.ts:28 | the request's reference when it is non-empty, otherwise a generated `ORD-` reference |
| Api.TransactionId | lib/db/mock-db.ts:177 | record ids start with `tx_` |
| InitiateRoute.SimulatedPaymentUrl | app/api/payments/initiate/route.ts:106 | the sandbox page on the configured base URL, or on localhost:3000 when it is unset or empty |
| InitiateRoute.HasRequiredFields | app/api/payments/initiate/route.ts:12 | amount, currency, customer and both URLs are all truthy |
| InitiateRoute.SandboxFallback | app/api/payments/initiate/route.ts:104-122 | only the new record changes, and in it only the sandbox URL and the `SIM-<ms>` reference; a PENDING success answered |
| InitiateRoute.StandardBranch | app/api/payments/initiate/route.ts:73-122 | a "200" code or a payment URL stores URL and reference and nothing else; any other reply changes only the status, to FAILED, and answers the gateway's message or the default; a throw takes the sandbox fallback |
| InitiateRoute.StandardAdmit | app/api/payments/initiate/route.ts:42-122 | exactly one record is added with the request's reference, merchant and amount, and no other record changes |
| InitiateRoute.Admit | app/api/payments/initiate/route.ts:41-132 | the added record and the answer; a non-standard checkout stops at PENDING; standard checkout sends the standard request |
| InitiateRoute.Initiate | app/api/payments/initiate/route.ts:12-39 | 400 exactly for a missing field or missing customer detail, 404 when no merchant exists, nothing stored on a refusal |
| InitiateRoute.StandardCheckoutOutcomes | app/api/payments/initiate/route.ts:57-122 | the stored status per gateway outcome, and a client without credentials always takes the sandbox path |
| ExpressCheckout.RedirectOf | app/api/payments/express/card/route.ts:110-119 | a challenge page is answered only by the card handler and only when the gateway sent one |
| ExpressCheckout.Succeeded | app/api/payments/express/ecocash/route.ts:70 | the gateway replied with status code exactly "200" |
| ExpressCheckout.ExpressBranch | app/api/payments/express/ecocash/route.ts:67-107 | exact code "200" stores the reference and answers PENDING; another reply changes only the status, to FAILED, and the update time; a throw stores a sandbox reference built from one clock reading and answers one built from another |
| ExpressCheckout.ExpressAdmit | app/api/payments/express/card/route.ts:72-155 | exactly one record is added with the request's method, reference, merchant and amount; no other record changes |
| EcocashRoute.EcoCashRequestFor | app/api/payments/express/ecocash/route.ts:52-65 | the number is sent exactly as typed, with the amount, reference and customer |
| EcocashRoute.HasRequiredFields | app/api/payments/express/ecocash/route.ts:11 | amount, currency, customer, number and both URLs are all truthy |
| EcocashRoute.PayByEcoCash | app/api/payments/express/ecocash/route.ts:9-38 | 400 exactly for a missing field or a number without the 263/0 prefix, 404 with no merchant, nothing stored on a refusal |
| EcocashRoute.EcoCashRecordCreated | app/api/payments/express/ecocash/route.ts:41-65 | an admitted request adds one ECO_CASH record and touches no other |
| EcocashRoute.EcoCashOutcomes | app/api/payments/express/ecocash/route.ts:67-107 | per gateway outcome: PENDING with the gateway's reference, FAILED with its message, or PENDING with an `ECO-SIM-` reference |
| CardRoute.ExpiryMonthIsCalendarMonth | app/api/payments/express/card/route.ts:37-42 | the month pattern accepts exactly the two-digit numbers 01 to 12 |
| CardRoute.HasRequiredFields | app/api/payments/express/card/route.ts:11-26 | amount, currency, customer, the four card fields and both URLs are all truthy |
| CardRoute.CardNumberShape | app/api/payments/express/card/route.ts:30 | 13 to 19 digits |
| CardRoute.ExpiryMonthShape | app/api/payments/express/card/route.ts:37 | `0` and 1-9, or `1` and 0-2 |
| CardRoute.ExpiryYearShape | app/api/payments/express/card/route.ts:44 | 2 to 4 digits |
| CardRoute.CvvShape | app/api/payments/express/card/route.ts:51 | 3 or 4 digits |
| CardRoute.CardProblem | app/api/payments/express/card/route.ts:29-56 | the first failing check in the order number, month, year, CVV names the message; none exactly when all pass |
| CardRoute.GatewayYear | app/api/payments/express/card/route.ts:91 | a two-digit year gets "20" in front; others go as they are |
| CardRoute.CardRequestFor | app/api/payments/express/card/route.ts:83-99 | the number without whitespace, the widened year, month and CVV as given |
| CardRoute.PayByCard | app/api/payments/express/card/route.ts:9-69 | 400 exactly for a missing field or a failed card check, 404 with no merchant, nothing stored on a refusal |
| CardRoute.CardChallengeAnswered | app/api/payments/express/card/route.ts:104-129 | a challenge page is answered exactly when the gateway accepted and sent one, with the 3-D Secure message |
| CardRoute.CardRecordCreated | app/api/payments/express/card/route.ts:72-99 | an admitted request adds one VISA_MASTERCARD record and sends only digits as the card number |
| CardRoute.CardOutcomes | app/api/payments/express/card/route.ts:104-155 | per gateway outcome: PENDING with the gateway's reference, FAILED with its message, or PENDING with a `CARD-SIM-` reference |
| WebhookRoute.HeaderSignature | app/api/webhooks/smilepay/route.ts:20 | the signature header, or empty when it is missing or empty |
| WebhookRoute.Processed | app/api/webhooks/smilepay/route.ts:74-79 | the 200 answer: success, the order reference and the mapped status |
| WebhookRoute.Apply | app/api/webhooks/smilepay/route.ts:52-86 | the record gets the mapped status and the callback's reference (or keeps its own); an acknowledged entry is added at the end of the log and 200 answered, or, when the millisecond's id is taken, the log is unchanged and 500 answered with the update kept |
| WebhookRoute.LogUnknown | app/api/webhooks/smilepay/route.ts:37-49 | an unmatched callback is added to the log against "unknown" and answered 404, or answered 500 with nothing changed when the id is taken; no record changes |
| WebhookRoute.Receive | app/api/webhooks/smilepay/route.ts:14-87 | a bad signature answers 401 and changes nothing; otherwise an unknown reference goes to the not-found log, a known one is applied, and 500 is answered exactly when the log insert is refused |
| WebhookRoute.ReceiveAsWritten | app/api/webhooks/smilepay/route.ts:25 | the handler as written answers 500 and changes nothing |
| WebhookRoute.EveryCallbackFailsAsWritten | app/api/webhooks/smilepay/route.ts:25 | every callback, valid or not, fails with 500 and nothing is logged |
| WebhookRoute.ConfiguredClientRecordsPayment | lib/services/smilepay.ts:9-14 | with the configured client a SUCCESS callback marks the record PAID, and answers 200 exactly when its log insert goes through |
| WebhookRoute.CallbackOverridesStatus | app/api/webhooks/smilepay/route.ts:53-59 | the mapped status replaces whatever status the record had, terminal or not; success is answered exactly when the log insert goes through |
| WebhookRoute.CallbackRecordFoundAgain | app/api/webhooks/smilepay/route.ts:34-59 | after a callback, looking up its reference finds the rewritten record |
| WebhookRoute.ReplayedCallbackRestampsOnly | app/api/webhooks/smilepay/route.ts:53-79 | a replayed callback leaves the same record, except that PAID stamps `paid_at` afresh, and gives the same answer when both log inserts go through |
| WebhookRoute.CallbacksInDistinctMillisecondsLogTwice | app/api/webhooks/smilepay/route.ts:62-67 | two deliveries in different milliseconds leave two log entries after the earlier ones |
| WebhookRoute.SameMillisecondCallbackRefused | app/api/webhooks/smilepay/route.ts:55-86 | a second delivery in the same millisecond is answered 500 and adds no log entry, but the record has taken the mapped status again |
| SimulateRoute.UpdatedMessage | app/api/payments/simulate/route.ts:56 | the success message starts with "Transaction status updated to " |
| SimulateRoute.Simulated200 | app/api/payments/simulate/route.ts:52-57 | the 200 answer: success, the order reference, the status and its message |
| SimulateRoute.Apply | app/api/payments/simulate/route.ts:38-64 | the status is written; an acknowledged simulated callback is added at the end of the log and 200 answered, or, when the millisecond's id is taken, the log is unchanged and 500 answered with the status kept |
| SimulateRoute.Simulate | app/api/payments/simulate/route.ts:15-57 | 400 exactly for a missing field or an unknown status name, 404 for an unknown reference, otherwise the named status is stored |
| SimulateRoute.SimulateSetsNamedStatus | app/api/payments/simulate/route.ts:29-57 | simulating a status on a known reference stores that status, and answers it unless the log insert is refused, which answers 500 |
| SimulateRoute.SimulateRejectsOtherNames | app/api/payments/simulate/route.ts:22-27 | any other name is refused with 400 and nothing changes |
| Checkout.AmountJson | components/checkout/card-form.tsx:79-80 | a NaN amount is sent as null, any other as itself |
| CustomerForm.EmailShape | components/checkout/customer-form.tsx:42 | an `@` with plain text before it, then a `.` with plain text on both sides |
| CustomerForm.EmailShapeSound | components/checkout/customer-form.tsx:42 | an accepted e-mail has exactly one `@`, no whitespace and is not blank |
| CustomerForm.EmailFromParts | components/checkout/customer-form.tsx:42 | any local part, domain and suffix free of whitespace and `@` form an accepted e-mail |
| CustomerForm.ValidateForm | components/checkout/customer-form.tsx:30-51 | each field is flagged exactly when its check fails |
| CustomerForm.ValidMeansEveryFieldPasses | components/checkout/customer-form.tsx:30-51 | the form is valid exactly when every field passes its own check |
| CustomerForm.UnreadableAmountPasses | components/checkout/customer-form.tsx:33 | a non-empty amount that does not parse is not flagged |
| CustomerForm.Submit | components/checkout/customer-form.tsx:53-61 | a valid form moves to the payment step with the parsed amount; an invalid one stays |
| CardNumber.Digits | components/checkout/card-form.tsx:38 | only digits remain, never more than were typed |
| CardNumber.DigitsOfGroup | components/checkout/card-form.tsx:41-45 | removing the spaces from grouped digits gives the digits back |
| CardNumber.GroupLayout | components/checkout/card-form.tsx:41-45 | a space at every fifth position and the digits in order between |
| CardNumber.FormatCardNumber | components/checkout/card-form.tsx:37-46 | fewer than four digits are shown bare; otherwise the first sixteen digits in groups of four |
| CardNumber.FormattedFitsField | components/checkout/card-form.tsx:37-46 | the display holds at most sixteen digits and nineteen characters |
| CardNumber.FormattedDigitsArePrefix | components/checkout/card-form.tsx:37-46 | the displayed digits are a prefix of the typed digits |
| CardNumber.FormatIdempotent | components/checkout/card-form.tsx:37-46 | formatting a formatted number changes nothing |
| CardForm.SkipSpaces | components/checkout/card-form.tsx:61 | `parseInt`'s leading whitespace: the result is a suffix starting with a non-space, and everything dropped is whitespace |
| CardForm.ParseInt | components/checkout/card-form.tsx:61 | NaN exactly when no digit follows the leading whitespace and optional sign; otherwise the digit run's value, negative only after a minus; a digit string is read as its decimal value |
| CardForm.DigitField | components/checkout/card-form.tsx:161 | an input keeps only digits, up to its width |
| CardForm.PadMonth | components/checkout/card-form.tsx:84 | a one-character month gets a leading zero, longer ones are kept |
| CardForm.CardFormProblem | components/checkout/card-form.tsx:54-71 | the number length, then the month, then the CVV length name the message; none exactly when all pass |
| CardForm.CardBodyFor | components/checkout/card-form.tsx:79-89 | the posted body: the number without whitespace, the padded month, the year and CVV as typed, no order reference |
| CardForm.ReceiveCardAnswer | components/checkout/card-form.tsx:94-111 | a success records the references and changes nothing else, except that without a challenge it shows PAID on the result step; a refusal shows the handler's message; a network error its own |
| CardForm.SubmitCard | components/checkout/card-form.tsx:48-115 | a request is posted exactly when the form's checks pass; otherwise the first problem is shown |
| CardForm.AcceptedMonthMatchesHandler | components/checkout/card-form.tsx:61-84 | every month the form accepts, once padded, passes the handler's month pattern |
| CardForm.FormattedNumberAccepted | components/checkout/card-form.tsx:37-59 | a displayed number of at least thirteen typed digits passes the form's length check |
| CardForm.OneDigitYearRefusedByHandler | components/checkout/card-form.tsx:85 | a one-digit year that the form lets through is refused with 400 and nothing stored |
| CardForm.FormShowsPaidWhileLedgerPending | components/checkout/card-form.tsx:94-106 | a success without a challenge shows PAID while the stored record is PENDING |
| EcocashForm.EcoCashBodyFor | components/checkout/ecocash-form.tsx:51-62 | the posted body: the number without whitespace, the amount, currency and customer, no order reference |
| EcocashForm.ReceiveEcoCashAnswer | components/checkout/ecocash-form.tsx:66-75 | a success starts polling for the returned reference; a refusal shows its message; a network error its own |
| EcocashForm.SubmitEcoCash | components/checkout/ecocash-form.tsx:35-79 | a request is posted exactly when the whitespace-free number passes the browser pattern |
| EcocashForm.PollTick | components/checkout/ecocash-form.tsx:85-97 | a successful non-PENDING answer ends polling on the result step with that status; anything else changes nothing |
| EcocashForm.PollTimeout | components/checkout/ecocash-form.tsx:101-105 | after the timeout, polling stops and FAILED is shown |
| EcocashForm.PollStopsExactlyOnSettledStatus | components/checkout/ecocash-form.tsx:90-94 | polling stops exactly on a settled status, which is then the one shown |
| EcocashForm.BareNumberRefusedByHandler | components/checkout/ecocash-form.tsx:41-58 | a bare subscriber number passes the form but the handler refuses it, stores nothing, and the form shows the refusal |
| EcocashForm.PrefixedNumberAdmittedByHandler | components/checkout/ecocash-form.tsx:41-58 | a prefixed number passing the form also passes the handler |
| EcocashForm.AcceptedRequestPollsItsRecord | components/checkout/ecocash-form.tsx:66-70 | after an accepted request the form polls the new record's reference, whose status is PENDING |
| ResultPage.LoadedStatus | app/checkout/result/page.tsx:31-52 | a status is loaded only when there is a reference and the fetch succeeded |
| ResultPage.GetStatus | app/checkout/result/page.tsx:54-60 | `cancelled`, then `failed`, then `status=paid/failed` decide; otherwise the loaded status or PENDING |
| ResultPage.Panel | app/checkout/result/page.tsx:64-98 | a known status name shows its own panel, anything else the pending panel |
| ResultPage.UrlOverridesLedger | app/checkout/result/page.tsx:54-58 | when the URL decides, the ledger's answer does not matter and the panel is not pending |
| ResultPage.CancelledWins | app/checkout/result/page.tsx:55 | a `cancelled` parameter always shows the cancelled panel |
| ResultPage.LedgerStatusShown | app/checkout/result/page.tsx:59 | without URL overrides the ledger's status is shown as it is |
| ResultPage.NothingLoadedShowsPending | app/checkout/result/page.tsx:59 | with nothing loaded the pending panel is shown |
| ResultPage.PanelOfStatusName | app/checkout/result/page.tsx:64-98 | each status name selects that status's panel |

## Findings

| source | as written | input that shows it | evidently intended | confidence | as-written member | corrected member |
|---|---|---|---|---|---|---|
| app/api/webhooks/smilepay/route.ts:25 | the handler builds `new SmilePayService()` with no configuration. The constructor reads `config.environment`, which throws, so the outer catch answers 500 | any callback, signed or not | validate with the configured client from lib/services/smilepay.ts:9-14, so the callback is checked, applied and logged | not executed | WebhookRoute.ReceiveAsWritten, WebhookRoute.EveryCallbackFailsAsWritten | WebhookRoute.Receive, WebhookRoute.ConfiguredClientRecordsPayment |

## Left out

- HTTP and JSON:
  - `fetch` and `NextResponse` are not modelled, and neither are request bodies that are not JSON.
  - The `makeRequest` transport, its headers and its JSON parsing are not modelled (lib/smilepay/client.ts:60-77). The reply is a parameter.
  - A handler's outer catch is modelled only where an error can be named. The refused log insert of the webhook and simulate handlers is one, answered 500. `UpdatePg`'s rejected statements are proved unreachable for the patches the handlers send.
  - Request fields are modelled as strings, so the wrongly typed JSON fields that reach the outer catch or slip through are not modelled:
    - a `phone_number` that is not a string makes `.replace` throw, answered 500 (app/api/payments/express/ecocash/route.ts:20);
    - a `card_number` that is not a string does the same (app/api/payments/express/card/route.ts:29);
    - a numeric `expiry_year` passes `/^[0-9]{2,4}$/` and is forwarded without the "20" prefix, because a number has no `.length` (app/api/payments/express/card/route.ts:44,91).
- Gateway request bodies:
  - The client methods build their bodies from field names that the handlers' request objects do not carry: `pan`, `expMonth`, `ecocashMobile`, `firstName`, `mobilePhoneNumber` (lib/smilepay/client.ts:82-153).
  - The model records the handler's own object (`Api.GatewayRequest`), and does not model the body that `JSON.stringify` would send with those keys missing.
  - The handlers read the reply's `statusCode`, while the declared reply type names `responseCode`. The model reads `statusCode` as the handlers do.
- `checkPaymentStatus`, `cancelPayment`, the status endpoint and the cancel endpoint are not modelled. Polling and the result page take the status endpoint's answer as a parameter.
- Clocks and randomness: `Date.now()`, `new Date()` and `Math.random()` are parameters (`Draws`, `Clocks`). Where the code reads the clock several times within one statement, the model takes one reading for all of them, so it equates times that could differ by a millisecond:
- MockStore.Create: the id's `Date.now()` and the two `new Date()` of `created_at` and `updated_at` (lib/db/mock-db.ts:177,191-192; lib/db/postgres-db.ts:177,191-192) are the one reading `now`, so the model promises `created_at == updated_at` and an id carrying that same millisecond.
- MockStore.Update: the `new Date()` of `updated_at` and of the first `paid_at` (lib/db/mock-db.ts:201,203) are the one reading `now`.
- MockStore.CreateLog: the id's `Date.now()` and the `new Date()` of `created_at` (lib/db/mock-db.ts:253,258) are the one reading `now`. PostgresStore.InsertLogPg does the same for lib/db/postgres-db.ts:316,321.
- Floating point:
  - Amounts are `real`.
  - `parseFloat` is a parameter of the customer form.
  - `toFixed` display formatting is not modelled.
  - The paid total is an exact sum.
- The Postgres pool and SQL execution:
  - The model gives the row the statement's assignments. Any trigger or column default is not modelled.
  - `findByOrderReference` has no `ORDER BY` in Postgres. The model returns the earliest inserted row, as the in-memory store does.
- Postgres `create` inserts with a plain `INSERT`, so an id that is already taken would be a key violation. The model stores under the id as the in-memory `Map` does, since ids carry the millisecond and six random characters.
- The table definitions are not part of this model. The log insert takes `id` as the key of `webhook_logs`, as the in-memory store keys its log by id, so a second row with the same `wh_<ms>` id is refused.
- `MockStore.Store.merchants` is held in the order the database lists merchants: newest first in Postgres, insertion order in memory. `MockStore.DefaultMerchant` takes the head of that list.
- The other Postgres and in-memory operations are not modelled; they are outside the checkout core: merchants, payment-method `findById`/`findByCode`/`findAll`/`update`, and transaction `findById`.
- `ensureDatabaseInitialized`, `console.log` and the merchant-notification TODO are not modelled. They have no effect on the ledger.
- React:
  - Loading flags, rendering and error-map plumbing are not modelled.
  - Writing a challenge page into `document.body` is modelled only as the answer carrying `redirectHtml`.
  - The EcoCash form's initial number (`customer.phone || ''`) is not modelled.
  - The timing of the 5-second poll and the 2-minute timeout is not modelled. One poll and the timeout are modelled as separate steps.
- CardForm.ParseInt: `parseInt`'s `0x` hexadecimal prefix is not read, because the month input keeps only digits and so can never hold one.
- SmilePayClient.FormatCurrencyCode: `CURRENCY_CODES` is a plain object literal (lib/smilepay/client.ts:22), so a name of an `Object.prototype` member such as `constructor`, `toString`, `valueOf`, `hasOwnProperty` or `__proto__` is found through the prototype. The source then returns that member, which is truthy, instead of "840". The handlers let such a `currency_code` through after a truthiness test alone. The model's result is a string, so these names are not modelled: it gives them "840".
- SmilePayClient.MapStatus: `toUpperCase` is modelled on ASCII letters only. A status such as "ſuccess", whose non-ASCII letter upper-cases to S in JavaScript, maps to PENDING in the model.
- SmilePayClient.NewClient: the environment is one of the two named values. An unrecognised `SMILEPAY_ENVIRONMENT` string, which would leave the base URL undefined, is not modelled.

=== FILE: api.dfy ===
/**
 * What the route handlers share: the JSON response, the readings of the
 * clock and the random source, JavaScript truthiness of request fields, and
 * the request objects the handlers pass to the gateway client.
 */
module Api {
  import opened Options
  import opened Text
  import opened Domain
  import opened MockStore
  import SmilePayClient

  /** The JSON body and HTTP status a handler answers with; absent keys are `None`. */
  datatype Response = Response(
    httpStatus: int,
    success: bool,
    message: string,
    transactionId: Option<string>,
    orderReference: Option<string>,
    transactionReference: Option<string>,
    paymentUrl: Option<string>,
    status: Option<TransactionStatus>,
    redirectHtml: Option<string>)

  /** `{ success: false, message }` with the given HTTP status. */
  function Refusal(httpStatus: int, message: string): (r: Response)
    ensures !r.success && r.httpStatus == httpStatus && r.message == message
    ensures r.transactionId.None? && r.status.None?
  {
    Response(httpStatus, false, message, None, None, None, None, None, None)
  }

  const MISSING_FIELDS: string := "Missing required fields"
  const MERCHANT_NOT_FOUND: string := "Merchant not found"
  const INTERNAL_ERROR: string := "Internal server error"
  const TRANSACTION_NOT_FOUND: string := "Transaction not found"

  /** JavaScript truthiness of an optional string: present and non-empty. */
  predicate Truthy(o: Option<string>) {
    o.Some? && o.value != ""
  }

  /** JavaScript truthiness of an optional number: present and non-zero. */
  predicate TruthyAmount(o: Option<real>) {
    o.Some? && o.value != 0.0
  }

  /** `a || b` for optional strings. */
  function Or(a: Option<string>, b: Option<string>): (r: Option<string>)
    ensures Truthy(a) ==> r == a
    ensures !Truthy(a) ==> r == b
  {
    if Truthy(a) then a else b
  }

  /** `message || fallback`. */
  function MessageOr(message: Option<string>, fallback: string): (r: string)
    ensures Truthy(message) ==> r == message.value
    ensures !Truthy(message) ==> r == fallback
  {
    if Truthy(message) then message.value else fallback
  }

  /**
   * The clock readings and random draws of one request: the record's
   * creation time and the random text of its id, the clock and random text
   * of a generated order reference, the clock when a later update runs, and
   * the two separate clock readings of a sandbox fallback (one stored, one
   * answered).
   */
  datatype Draws = Draws(
    now: nat,
    later: nat,
    idRandom: string,
    refClock: nat,
    refRandom: string,
    simClock: nat,
    simClockAgain: nat)

  /** The clock readings of a callback: when the record is updated and when the log entry is written. */
  datatype Clocks = Clocks(update: nat, log: nat)

  /** `tx_<ms>_<random>`: the id `create` gives a record. */
  function TransactionId(d: Draws): (r: string)
    ensures StartsWith(r, "tx_")
  {
    var r := "tx_" + Decimal(d.now) + "_" + SmilePayClient.RandomPart(d.idRandom);
    assert r[..3] == "tx_";
    r
  }

  /** `body.order_reference || generateOrderReference()`. */
  function OrderReferenceFor(given: Option<string>, d: Draws): (r: string)
    ensures Truthy(given) ==> r == given.value
    ensures !Truthy(given) ==> StartsWith(r, "ORD-")
  {
    if Truthy(given) then given.value else SmilePayClient.GenerateOrderReference(d.refClock, d.refRandom)
  }

  /** The customer block of a gateway request, built from the request's customer. */
  datatype GatewayCustomer = GatewayCustomer(firstName: string, lastName: string, emailAddress: string, phoneNumber: string)

  function GatewayCustomerOf(c: CustomerDetails): GatewayCustomer {
    GatewayCustomer(c.firstName, c.lastName, c.email, c.phone)
  }

  /** The request object a handler passes to the gateway client. */
  datatype GatewayRequest =
    | StandardRequest(currencyCode: string, amount: real, orderReference: string, resultUrl: string,
                      returnUrl: string, cancelUrl: Option<string>, failureUrl: Option<string>,
                      customer: GatewayCustomer)
    | EcoCashRequest(currencyCode: string, amount: real, orderReference: string, resultUrl: string,
                     returnUrl: string, phoneNumber: string, customer: GatewayCustomer)
    | CardRequest(currencyCode: string, amount: real, orderReference: string, resultUrl: string,
                  returnUrl: string, cardNumber: string, expiryMonth: string, expiryYear: string,
                  cvv: string, customer: GatewayCustomer)

  /** A handler's effect: the ledger after it, its answer, and the gateway request it made, if any. */
  datatype RouteResult = RouteResult(store: Store, response: Response, request: Option<GatewayRequest>)

  /** A result that touched nothing. */
  function Untouched(L: Store, response: Response): (r: RouteResult)
    ensures r.store == L && r.request.None? && r.response == response
  {
    RouteResult(L, response, None)
  }

  /**
   * The gateway phase never rewrites what was ordered: id, merchant,
   * reference, amount, currency, customer, payment method, creation time.
   */
  predicate SameOrder(t: Transaction, u: Transaction) {
    && u.id == t.id && u.merchantId == t.merchantId && u.orderReference == t.orderReference
    && u.amount == t.amount && u.currencyCode == t.currencyCode && u.customer == t.customer
    && u.paymentMethod == t.paymentMethod && u.createdAt == t.createdAt
  }

  /** Same store with one record replaced. */
  predicate OnlyRecordChanged(L: Store, L': Store, id: string) {
    id in L.txs && id in L'.txs && L' == L.(txs := L.txs[id := L'.txs[id]])
  }
}

=== FILE: card_form.dfy ===
/**
 * The card form: its own checks before anything is sent, the body it posts
 * to the card handler, and what it makes of the answer. In the sandbox a
 * success without a challenge page is shown as paid at once.
 */
module CardForm {
  import opened Options
  import opened Text
  import opened Domain
  import opened Api
  import opened Checkout
  import opened CardNumber
  import opened MockStore
  import CardRoute
  import ExpressCheckout
  import SmilePayClient

  const CARD_NUMBER_ERROR: string := "Please enter a valid card number"
  const EXPIRY_ERROR: string := "Please enter a valid expiry date"
  const CVV_ERROR: string := "Please enter a valid CVV"
  const CARD_FAILED: string := "Failed to process card payment"

  /** The four inputs as the form holds them. */
  datatype CardFields = CardFields(cardNumber: string, month: string, year: string, cvv: string)

  /** The number of leading decimal digits. */
  function LeadingDigitCount(s: string): (n: nat)
    ensures n <= |s| && AllDigits(s[..n])
    ensures n < |s| ==> !IsDigit(s[n])
    decreases |s|
  {
    if |s| == 0 || !IsDigit(s[0]) then 0
    else
      var n := 1 + LeadingDigitCount(s[1..]);
      assert forall i :: 1 <= i < n ==> s[..n][i] == s[1..][..n - 1][i - 1];
      n
  }

  /** `s` without its leading whitespace. */
  function SkipSpaces(s: string): (r: string)
    ensures |r| <= |s| && r == s[|s| - |r|..]
    ensures |r| > 0 ==> !IsSpace(r[0])
    ensures forall i :: 0 <= i < |s| - |r| ==> IsSpace(s[i])
    decreases |s|
  {
    if |s| > 0 && IsSpace(s[0]) then SkipSpaces(s[1..]) else s
  }

  /**
   * `parseInt(s)` in base ten: leading whitespace and one sign are skipped,
   * then the longest run of digits is read; with no digit the result is NaN
   * (`None`), and every comparison with NaN is false.
   */
  function ParseInt(s: string): (r: Option<int>)
    ensures AllDigits(s) && |s| > 0 ==> r == Some(FromRadix(s, 10))
    ensures var t := SkipSpaces(s);
      var u := if |t| > 0 && (t[0] == '-' || t[0] == '+') then t[1..] else t;
      && (r.None? <==> |u| == 0 || !IsDigit(u[0]))
      && (r.Some? ==> |t| > 0 && (r.value < 0 ==> t[0] == '-') && (t[0] == '-' ==> r.value <= 0))
      && (r.Some? ==> var m := FromRadix(u[..LeadingDigitCount(u)], 10) as int;
            r.value == m || r.value == -m)
  {
    var t := SkipSpaces(s);
    var negative := |t| > 0 && t[0] == '-';
    var body := if |t| > 0 && (t[0] == '-' || t[0] == '+') then t[1..] else t;
    var n := LeadingDigitCount(body);
    DigitsReadWhole(s);
    if AllDigits(s) && |s| > 0 then Some(FromRadix(s, 10) as int)
    else if n == 0 then None
    else
      var magnitude: int := FromRadix(body[..n], 10);
      Some(if negative then -magnitude else magnitude)
  }

  /** A string of digits has no leading space or sign, and its digit run is all of it. */
  lemma DigitsReadWhole(s: string)
    ensures AllDigits(s) && |s| > 0 ==>
      && SkipSpaces(s) == s && s[0] != '-' && s[0] != '+'
      && LeadingDigitCount(s) == |s| && s[..|s|] == s
  {
    if AllDigits(s) && |s| > 0 {
      assert IsDigit(s[0]) && !IsSpace(s[0]);
    }
  }

  /** The month, year and code inputs keep only digits, cut to `width` characters. */
  function DigitField(raw: string, width: nat): (r: string)
    ensures AllDigits(r) && |r| <= width
  {
    var d := Digits(raw);
    d[..Min(width, |d|)]
  }

  /** `expiryMonth.padStart(2, '0')`. */
  function PadMonth(m: string): (r: string)
    ensures |m| >= 2 ==> r == m
    ensures |m| < 2 ==> |r| == 2 && r[2 - |m|..] == m && forall i :: 0 <= i < 2 - |m| ==> r[i] == '0'
  {
    if |m| >= 2 then m else if |m| == 1 then "0" + m else "00"
  }

  /**
   * The checks of `handleSubmit`, in order, as the message shown: the
   * number's length without whitespace (its characters are not checked),
   * a present month and year with the month not read as outside 1-12, and
   * the code's length.
   */
  function CardFormProblem(f: CardFields): (r: Option<string>)
    ensures !(13 <= |StripSpaces(f.cardNumber)| <= 19) ==> r == Some(CARD_NUMBER_ERROR)
    ensures 13 <= |StripSpaces(f.cardNumber)| <= 19 ==>
      (r == Some(EXPIRY_ERROR) <==>
        f.month == "" || f.year == "" || (ParseInt(f.month).Some? && !(1 <= ParseInt(f.month).value <= 12)))
    ensures r.None? <==>
      && 13 <= |StripSpaces(f.cardNumber)| <= 19
      && f.month != "" && f.year != "" && !(ParseInt(f.month).Some? && !(1 <= ParseInt(f.month).value <= 12))
      && 3 <= |f.cvv| <= 4
  {
    var month := ParseInt(f.month);
    if |StripSpaces(f.cardNumber)| < 13 || |StripSpaces(f.cardNumber)| > 19 then Some(CARD_NUMBER_ERROR)
    else if f.month == "" || f.year == "" || (month.Some? && (month.value < 1 || month.value > 12)) then Some(EXPIRY_ERROR)
    else if |f.cvv| < 3 || |f.cvv| > 4 then Some(CVV_ERROR)
    else None
  }

  /** The body posted to the card handler. */
  function CardBodyFor(s: CheckoutState, f: CardFields, baseUrl: string): (b: CardRoute.CardBody)
    ensures b.cardNumber == Some(StripSpaces(f.cardNumber)) && b.expiryMonth == Some(PadMonth(f.month))
    ensures b.expiryYear == Some(f.year) && b.cvv == Some(f.cvv) && b.orderReference.None?
    ensures b.amount == AmountJson(s.amount) && b.customer == Some(s.customer)
  {
    CardRoute.CardBody(AmountJson(s.amount), Some(CurrencyName(s.currency)), Some(s.customer),
                       Some(StripSpaces(f.cardNumber)), Some(PadMonth(f.month)), Some(f.year), Some(f.cvv),
                       Some(baseUrl + RESULT_PATH), Some(baseUrl + WEBHOOK_PATH), None)
  }

  /**
   * What the form does with the answer: a success records the references
   * and, without a challenge page, shows PAID on the result step; a failure
   * shows the handler's message or a default.
   */
  function ReceiveCardAnswer(s: CheckoutState, a: Answer): (r: CheckoutState)
    ensures a.NetworkError? ==> r == s.(error := Some(NETWORK_ERROR))
    ensures a.Answered? && a.body.success && Truthy(a.body.redirectHtml) ==>
      r == s.(orderReference := a.body.orderReference, transactionId := a.body.transactionId)
    ensures a.Answered? && a.body.success && !Truthy(a.body.redirectHtml) ==>
      r == s.(orderReference := a.body.orderReference, transactionId := a.body.transactionId,
              transactionStatus := Some(PAID), step := Result)
    ensures a.Answered? && !a.body.success ==>
      r == s.(error := Some(MessageOr(Some(a.body.message), CARD_FAILED)))
  {
    match a
    case NetworkError => s.(error := Some(NETWORK_ERROR))
    case Answered(resp) =>
      if resp.success then
        var s1 := s.(orderReference := resp.orderReference, transactionId := resp.transactionId);
        if Truthy(resp.redirectHtml) then s1 else s1.(transactionStatus := Some(PAID), step := Result)
      else s.(error := Some(MessageOr(Some(resp.message), CARD_FAILED)))
  }

  /** The state after a submit and the body posted, if any. */
  datatype CardSubmission = CardSubmission(state: CheckoutState, request: Option<CardRoute.CardBody>)

  /** `handleSubmit`: the banner is cleared, the checks run, and only then is the body posted. */
  function SubmitCard(s: CheckoutState, f: CardFields, baseUrl: string, a: Answer): (r: CardSubmission)
    ensures r.request.Some? <==> CardFormProblem(f).None?
    ensures CardFormProblem(f).Some? ==> r.state == s.(error := CardFormProblem(f))
    ensures CardFormProblem(f).None? ==>
      r.request == Some(CardBodyFor(s, f, baseUrl)) && r.state == ReceiveCardAnswer(s.(error := None), a)
  {
    var cleared := s.(error := None);
    match CardFormProblem(f)
    case Some(message) => CardSubmission(cleared.(error := Some(message)), None)
    case None => CardSubmission(ReceiveCardAnswer(cleared, a), Some(CardBodyFor(s, f, baseUrl)))
  }

  /** The value of a one- or two-digit string, digit by digit. */
  lemma ShortDecimalValue(m: string)
    requires 1 <= |m| <= 2
    ensures |m| == 1 ==> FromRadix(m, 10) == DigitValue(m[0])
    ensures |m| == 2 ==> FromRadix(m, 10) == DigitValue(m[0]) * 10 + DigitValue(m[1])
  {
    assert m[..|m| - 1][..0] == [];
    if |m| == 2 {
      assert m[..1] == [m[0]];
    }
  }

  /** A single digit worth 1 to 9 becomes "01" to "09". */
  lemma PaddedSingleMonth(m: string)
    requires |m| == 1 && IsDigit(m[0]) && 1 <= DigitValue(m[0])
    ensures CardRoute.ExpiryMonthShape(PadMonth(m))
  {
    assert PadMonth(m) == ['0', m[0]];
  }

  /** A month the input allows and the form accepts is one the handler's pattern accepts once padded. */
  lemma AcceptedMonthMatchesHandler(m: string)
    requires AllDigits(m) && 1 <= |m| <= 2
    requires ParseInt(m).Some? && 1 <= ParseInt(m).value <= 12
    ensures CardRoute.ExpiryMonthShape(PadMonth(m))
  {
    assert ParseInt(m).value == FromRadix(m, 10);
    ShortDecimalValue(m);
    if |m| == 1 {
      PaddedSingleMonth(m);
    } else {
      CardRoute.ExpiryMonthIsCalendarMonth(m);
    }
  }

  /** On text of digits and spaces, removing whitespace and keeping digits agree. */
  lemma {:induction false} StripSpacesKeepsDigits(r: string)
    requires forall i :: 0 <= i < |r| ==> IsDigit(r[i]) || r[i] == ' '
    ensures StripSpaces(r) == Digits(r)
    decreases |r|
  {
    if |r| > 0 {
      assert r == [r[0]] + r[1..];
      DigitsAppend([r[0]], r[1..]);
      assert [r[0]][..0] == "";
      StripSpacesKeepsDigits(r[1..]);
    }
  }

  /**
   * Whatever was typed, once the formatter holds thirteen digits or more the
   * number passes the form's length check and the handler's digit pattern.
   */
  lemma FormattedNumberAccepted(typed: string)
    requires |Digits(typed)| >= 13
    ensures var n := StripSpaces(FormatCardNumber(typed));
      13 <= |n| <= 16 && CardRoute.CardNumberShape(n)
  {
    StripSpacesKeepsDigits(FormatCardNumber(typed));
  }

  /**
   * The year input keeps at most two digits and the form only asks for one,
   * while the handler wants two to four: a one-digit year is always refused there.
   */
  lemma OneDigitYearRefusedByHandler(L: Store, s: CheckoutState, f: CardFields, baseUrl: string,
                                     client: SmilePayClient.Client, transport: SmilePayClient.GatewayReply, d: Draws)
    requires |f.year| == 1
    ensures var r := CardRoute.PayByCard(L, CardBodyFor(s, f, baseUrl), client, transport, d);
      r.response.httpStatus == 400 && r.store == L
  {
  }

  /**
   * When the gateway accepts the card without a challenge, or cannot be
   * reached, the form shows PAID while the ledger still holds PENDING.
   */
  lemma FormShowsPaidWhileLedgerPending(L: Store, req: CardRoute.CardBody, client: SmilePayClient.Client,
                                        transport: SmilePayClient.GatewayReply, d: Draws, s: CheckoutState)
    requires CardRoute.Admissible(req) && DefaultMerchant(L).Some?
    requires var reply := SmilePayClient.MakeRequest(client, SmilePayClient.CARD_ENDPOINT, transport).reply;
      (ExpressCheckout.Succeeded(reply) && !Truthy(reply.redirectHtml)) || reply.Threw?
    ensures var r := CardRoute.PayByCard(L, req, client, transport, d);
      var shown := ReceiveCardAnswer(s, Answered(r.response));
      && shown.transactionStatus == Some(PAID) && shown.step == Result
      && r.store.txs[TransactionId(d)].status == PENDING
  {
    CardRoute.CardOutcomes(L, req, client, transport, d);
    CardRoute.CardChallengeAnswered(L, req, client, transport, d);
  }
}

=== FILE: card_number.dfy ===
/**
 * The card-number field of the checkout page: every keystroke is passed
 * through a formatter that keeps the first sixteen digits and writes them in
 * groups of four separated by single spaces.
 */
module CardNumber {
  import opened Text

  /** The digit characters of `s`, in order: `s.replace(/\s+/g, '').replace(/[^0-9]/gi, '')`. */
  function Digits(s: string): (r: string)
    ensures AllDigits(r) && |r| <= |s|
    decreases |s|
  {
    if |s| == 0 then ""
    else if IsDigit(s[|s| - 1]) then Digits(s[..|s| - 1]) + [s[|s| - 1]]
    else Digits(s[..|s| - 1])
  }

  lemma {:induction false} DigitsOfDigits(s: string)
    requires AllDigits(s)
    ensures Digits(s) == s
    decreases |s|
  {
    if |s| > 0 {
      DigitsOfDigits(s[..|s| - 1]);
      assert s == s[..|s| - 1] + [s[|s| - 1]];
    }
  }

  lemma {:induction false} DigitsAppend(a: string, b: string)
    ensures Digits(a + b) == Digits(a) + Digits(b)
    decreases |b|
  {
    if |b| == 0 {
      assert a + b == a;
    } else {
      var b' := b[..|b| - 1];
      assert (a + b)[..|a + b| - 1] == a + b';
      assert (a + b)[|a + b| - 1] == b[|b| - 1];
      DigitsAppend(a, b');
    }
  }

  /** Chunks of four joined by single spaces: `parts.join(' ')`. */
  function Group(w: string): (r: string)
    decreases |w|
  {
    if |w| <= 4 then w else w[..4] + " " + Group(w[4..])
  }

  /** The grouped text has a space exactly at every fifth position and the digits everywhere else. */
  lemma {:induction false} GroupLayout(w: string)
    requires AllDigits(w) && |w| >= 1
    ensures |Group(w)| == |w| + (|w| - 1) / 4
    ensures forall i :: 0 <= i < |Group(w)| ==> (Group(w)[i] == ' ' <==> i % 5 == 4)
    ensures forall i :: 0 <= i < |Group(w)| && i % 5 != 4 ==> Group(w)[i] == w[i - i / 5]
    decreases |w|
  {
    if |w| > 4 {
      var rest := w[4..];
      GroupLayout(rest);
      var g := Group(w);
      assert g == w[..4] + " " + Group(rest);
      forall i | 0 <= i < |g|
        ensures (g[i] == ' ' <==> i % 5 == 4)
        ensures i % 5 != 4 ==> g[i] == w[i - i / 5]
      {
        if i >= 5 {
          assert g[i] == Group(rest)[i - 5];
          assert (i - 5) % 5 == i % 5 && (i - 5) / 5 == i / 5 - 1;
        }
      }
    }
  }

  /** Removing the spaces again gives back the digits that were grouped. */
  lemma {:induction false} DigitsOfGroup(w: string)
    requires AllDigits(w)
    ensures Digits(Group(w)) == w
    decreases |w|
  {
    if |w| <= 4 {
      DigitsOfDigits(w);
    } else {
      DigitsOfGroup(w[4..]);
      DigitsAppend(w[..4] + " ", Group(w[4..]));
      DigitsAppend(w[..4], " ");
      assert w[..4] + " " + Group(w[4..]) == (w[..4] + " ") + Group(w[4..]);
      assert Digits(" ") == "";
      DigitsOfDigits(w[..4]);
      assert w == w[..4] + w[4..];
    }
  }

  function Min(a: int, b: int): int {
    if a < b then a else b
  }

  /**
   * `formatCardNumber`: fewer than four digits are shown as typed (without
   * anything else); otherwise the first sixteen are grouped.
   */
  function FormatCardNumber(value: string): (r: string)
    ensures forall i :: 0 <= i < |r| ==> IsDigit(r[i]) || r[i] == ' '
    ensures |Digits(value)| < 4 ==> r == Digits(value)
    ensures |Digits(value)| >= 4 ==>
      var kept := Digits(value)[..Min(16, |Digits(value)|)];
      && Digits(r) == kept
      && |r| == |kept| + (|kept| - 1) / 4
      && (forall i :: 0 <= i < |r| ==> (r[i] == ' ' <==> i % 5 == 4))
  {
    var v := Digits(value);
    if |v| < 4 then v
    else
      var kept := v[..Min(16, |v|)];
      GroupLayout(kept);
      DigitsOfGroup(kept);
      Group(kept)
  }

  /** The formatted text holds at most sixteen digits and nineteen characters, the field's maximum length. */
  lemma FormattedFitsField(value: string)
    ensures |Digits(FormatCardNumber(value))| <= 16 && |FormatCardNumber(value)| <= 19
  {
    var v := Digits(value);
    if |v| < 4 {
      DigitsOfDigits(v);
    }
  }

  /** The formatted digits are the first digits of the input. */
  lemma FormattedDigitsArePrefix(value: string)
    ensures var d := Digits(FormatCardNumber(value));
      |d| <= |Digits(value)| && d == Digits(value)[..|d|]
  {
    var v := Digits(value);
    if |v| < 4 {
      DigitsOfDigits(v);
    }
  }

  /** Formatting what is already formatted changes nothing. */
  lemma FormatIdempotent(value: string)
    ensures FormatCardNumber(FormatCardNumber(value)) == FormatCardNumber(value)
  {
    var v := Digits(value);
    var r := FormatCardNumber(value);
    if |v| < 4 {
      DigitsOfDigits(v);
    } else {
      var kept := v[..Min(16, |v|)];
      assert Digits(r) == kept;
      assert kept[..Min(16, |kept|)] == kept;
    }
  }
}

=== FILE: card_route.dfy ===
/**
 * `POST /api/payments/express/card`: check the fields and the card's shape,
 * record a PENDING VISA_MASTERCARD transaction in the in-memory store, and
 * send the card to the gateway, which may answer with a three-domain-secure
 * challenge page.
 */
module CardRoute {
  import opened Options
  import opened Text
  import opened Domain
  import opened MockStore
  import opened Api
  import opened ExpressCheckout
  import SmilePayClient

  /** The request body; a key that is absent is `None`. */
  datatype CardBody = CardBody(
    amount: Option<real>,
    currencyCode: Option<string>,
    customer: Option<CustomerDetails>,
    cardNumber: Option<string>,
    expiryMonth: Option<string>,
    expiryYear: Option<string>,
    cvv: Option<string>,
    returnUrl: Option<string>,
    resultUrl: Option<string>,
    orderReference: Option<string>)

  const INVALID_CARD_NUMBER: string := "Invalid card number"
  const INVALID_EXPIRY_MONTH: string := "Invalid expiry month"
  const INVALID_EXPIRY_YEAR: string := "Invalid expiry year"
  const INVALID_CVV: string := "Invalid CVV"
  const THREE_DS_REQUIRED: string := "Card payment initiated. 3DS verification required."

  const CARD_WORDING: Wording := Wording(
    "Card payment initiated successfully.",
    "Failed to initiate card payment",
    "Card payment initiated (sandbox mode).",
    "CARD-SIM-")

  predicate HasRequiredFields(req: CardBody) {
    && TruthyAmount(req.amount) && Truthy(req.currencyCode) && req.customer.Some?
    && Truthy(req.cardNumber) && Truthy(req.expiryMonth) && Truthy(req.expiryYear) && Truthy(req.cvv)
    && Truthy(req.returnUrl) && Truthy(req.resultUrl)
  }

  /** `^[0-9]{13,19}$`. */
  predicate CardNumberShape(s: string) {
    13 <= |s| <= 19 && AllDigits(s)
  }

  /** `^(0[1-9]|1[0-2])$`. */
  predicate ExpiryMonthShape(m: string) {
    |m| == 2 && ((m[0] == '0' && '1' <= m[1] <= '9') || (m[0] == '1' && '0' <= m[1] <= '2'))
  }

  /** `^[0-9]{2,4}$`. */
  predicate ExpiryYearShape(y: string) {
    2 <= |y| <= 4 && AllDigits(y)
  }

  /** `^[0-9]{3,4}$`. */
  predicate CvvShape(c: string) {
    3 <= |c| <= 4 && AllDigits(c)
  }

  /** The month pattern is exactly the two-digit numbers 01 to 12. */
  lemma ExpiryMonthIsCalendarMonth(m: string)
    ensures ExpiryMonthShape(m) <==>
      |m| == 2 && AllDigits(m) && 1 <= DigitValue(m[0]) * 10 + DigitValue(m[1]) <= 12
  {
  }

  /**
   * The first check the body fails, as the message answered, or `None` when
   * it passes them all. Only the card number has its whitespace removed; the
   * month, year and code are checked as sent.
   */
  function CardProblem(req: CardBody): (r: Option<string>)
    requires HasRequiredFields(req)
    ensures r.None? <==>
      && CardNumberShape(StripSpaces(req.cardNumber.value)) && ExpiryMonthShape(req.expiryMonth.value)
      && ExpiryYearShape(req.expiryYear.value) && CvvShape(req.cvv.value)
    ensures !CardNumberShape(StripSpaces(req.cardNumber.value)) ==> r == Some(INVALID_CARD_NUMBER)
    ensures CardNumberShape(StripSpaces(req.cardNumber.value)) && !ExpiryMonthShape(req.expiryMonth.value) ==>
      r == Some(INVALID_EXPIRY_MONTH)
    ensures (CardNumberShape(StripSpaces(req.cardNumber.value)) && ExpiryMonthShape(req.expiryMonth.value)
             && !ExpiryYearShape(req.expiryYear.value)) ==> r == Some(INVALID_EXPIRY_YEAR)
    ensures (CardNumberShape(StripSpaces(req.cardNumber.value)) && ExpiryMonthShape(req.expiryMonth.value)
             && ExpiryYearShape(req.expiryYear.value) && !CvvShape(req.cvv.value)) ==> r == Some(INVALID_CVV)
  {
    if !CardNumberShape(StripSpaces(req.cardNumber.value)) then Some(INVALID_CARD_NUMBER)
    else if !ExpiryMonthShape(req.expiryMonth.value) then Some(INVALID_EXPIRY_MONTH)
    else if !ExpiryYearShape(req.expiryYear.value) then Some(INVALID_EXPIRY_YEAR)
    else if !CvvShape(req.cvv.value) then Some(INVALID_CVV)
    else None
  }

  predicate Admissible(req: CardBody) {
    HasRequiredFields(req) && CardProblem(req).None?
  }

  /** A two-digit year is sent with "20" in front; three or four digits go as they are. */
  function GatewayYear(y: string): (r: string)
    ensures |y| == 2 ==> |r| == 4 && r[..2] == "20" && r[2..] == y
    ensures |y| != 2 ==> r == y
    ensures AllDigits(y) ==> AllDigits(r)
  {
    if |y| == 2 then "20" + y else y
  }

  /** The gateway request: the card number without whitespace, the year widened. */
  function CardRequestFor(req: CardBody, orderRef: string): (g: GatewayRequest)
    requires HasRequiredFields(req)
    ensures g.CardRequest? && g.orderReference == orderRef && g.amount == req.amount.value
    ensures g.cardNumber == StripSpaces(req.cardNumber.value)
    ensures g.expiryMonth == req.expiryMonth.value && g.expiryYear == GatewayYear(req.expiryYear.value)
    ensures g.cvv == req.cvv.value && g.customer == GatewayCustomerOf(req.customer.value)
  {
    CardRequest(SmilePayClient.FormatCurrencyCode(req.currencyCode.value), req.amount.value, orderRef,
                req.resultUrl.value, req.returnUrl.value, StripSpaces(req.cardNumber.value),
                req.expiryMonth.value, GatewayYear(req.expiryYear.value), req.cvv.value,
                GatewayCustomerOf(req.customer.value))
  }

  /** The record: no cancel or failure page, paid with VISA_MASTERCARD. */
  function NewCardTransaction(req: CardBody, merchant: Merchant, orderRef: string): (n: NewTransaction)
    requires HasRequiredFields(req)
    ensures n.paymentMethod == Some(VISA_MASTERCARD) && n.cancelUrl.None? && n.failureUrl.None?
    ensures n.merchantId == merchant.id && n.orderReference == orderRef && n.amount == req.amount.value
  {
    NewTransaction(merchant.id, orderRef, req.amount.value, req.currencyCode.value, req.customer.value,
                   req.returnUrl.value, req.resultUrl.value, None, None, Some(VISA_MASTERCARD))
  }

  /** After validation: create the record, call the gateway, record the outcome. */
  function Admit(L: Store, req: CardBody, merchant: Merchant, client: SmilePayClient.Client,
                 transport: SmilePayClient.GatewayReply, d: Draws): (r: RouteResult)
    requires HasRequiredFields(req)
    ensures var orderRef := OrderReferenceFor(req.orderReference, d);
      var reply := SmilePayClient.MakeRequest(client, SmilePayClient.CARD_ENDPOINT, transport).reply;
      var e := ExpressAdmit(L, NewCardTransaction(req, merchant, orderRef), orderRef, reply, CARD_WORDING, THREE_DS_REQUIRED, true, d);
      && r.request == Some(CardRequestFor(req, orderRef))
      && r.store == e.store && r.response == e.response
  {
    var orderRef := OrderReferenceFor(req.orderReference, d);
    var reply := SmilePayClient.MakeRequest(client, SmilePayClient.CARD_ENDPOINT, transport).reply;
    var e := ExpressAdmit(L, NewCardTransaction(req, merchant, orderRef), orderRef, reply, CARD_WORDING, THREE_DS_REQUIRED, true, d);
    RouteResult(e.store, e.response, Some(CardRequestFor(req, orderRef)))
  }

  /** The handler; `client` is the configured gateway client and `transport` what the gateway would answer. */
  function PayByCard(L: Store, req: CardBody, client: SmilePayClient.Client,
                     transport: SmilePayClient.GatewayReply, d: Draws): (r: RouteResult)
    ensures !HasRequiredFields(req) ==> r == Untouched(L, Refusal(400, MISSING_FIELDS))
    ensures HasRequiredFields(req) && !Admissible(req) ==> r == Untouched(L, Refusal(400, CardProblem(req).value))
    ensures Admissible(req) && DefaultMerchant(L).None? ==> r == Untouched(L, Refusal(404, MERCHANT_NOT_FOUND))
    ensures Admissible(req) && DefaultMerchant(L).Some? ==>
      r == Admit(L, req, DefaultMerchant(L).value, client, transport, d)
    ensures r.response.httpStatus == 400 <==> !Admissible(req)
  {
    if !HasRequiredFields(req) then Untouched(L, Refusal(400, MISSING_FIELDS))
    else
      match CardProblem(req)
      case Some(message) => Untouched(L, Refusal(400, message))
      case None =>
        match DefaultMerchant(L)
        case None => Untouched(L, Refusal(404, MERCHANT_NOT_FOUND))
        case Some(merchant) => Admit(L, req, merchant, client, transport, d)
  }

  /** A challenge page is answered exactly when the gateway accepted the card and sent one. */
  lemma CardChallengeAnswered(L: Store, req: CardBody, client: SmilePayClient.Client,
                              transport: SmilePayClient.GatewayReply, d: Draws)
    requires Admissible(req) && DefaultMerchant(L).Some?
    ensures var r := PayByCard(L, req, client, transport, d);
      var reply := SmilePayClient.MakeRequest(client, SmilePayClient.CARD_ENDPOINT, transport).reply;
      (r.response.redirectHtml.Some? <==> Succeeded(reply) && Truthy(reply.redirectHtml))
      && (r.response.redirectHtml.Some? ==> r.response.message == THREE_DS_REQUIRED)
  {
  }

  /**
   * An admitted request adds exactly one VISA_MASTERCARD record under a fresh-looking
   * id and touches no other record.
   */
  lemma CardRecordCreated(L: Store, req: CardBody, client: SmilePayClient.Client,
      transport: SmilePayClient.GatewayReply, d: Draws)
    requires Admissible(req) && DefaultMerchant(L).Some?
    ensures var r := PayByCard(L, req, client, transport, d);
      var id := TransactionId(d);
      && id in r.store.txs && r.store.txs.Keys == L.txs.Keys + {id}
      && (forall k :: k in L.txs && k != id ==> r.store.txs[k] == L.txs[k])
      && r.store.merchants == L.merchants && r.store.logs == L.logs
      && r.store.txs[id].paymentMethod == Some(VISA_MASTERCARD)
      && r.store.txs[id].orderReference == OrderReferenceFor(req.orderReference, d)
      && r.store.txs[id].merchantId == DefaultMerchant(L).value.id && r.store.txs[id].amount == req.amount.value
      && r.request.Some? && r.request.value.CardRequest? && AllDigits(r.request.value.cardNumber)
  {
    var merchant := DefaultMerchant(L).value;
    var orderRef := OrderReferenceFor(req.orderReference, d);
    var reply := SmilePayClient.MakeRequest(client, SmilePayClient.CARD_ENDPOINT, transport).reply;
    var e := ExpressAdmit(L, NewCardTransaction(req, merchant, orderRef), orderRef, reply, CARD_WORDING, THREE_DS_REQUIRED, true, d);
    var r := PayByCard(L, req, client, transport, d);
    assert r == Admit(L, req, merchant, client, transport, d);
    assert r.store == e.store;
  }

  /** The stored record and the answer for each gateway outcome. */
  lemma CardOutcomes(L: Store, req: CardBody, client: SmilePayClient.Client,
                     transport: SmilePayClient.GatewayReply, d: Draws)
    requires Admissible(req) && DefaultMerchant(L).Some?
    ensures var r := PayByCard(L, req, client, transport, d);
      var t := r.store.txs[TransactionId(d)];
      var reply := SmilePayClient.MakeRequest(client, SmilePayClient.CARD_ENDPOINT, transport).reply;
      && (Succeeded(reply) ==>
            t.status == PENDING && t.transactionReference == reply.transactionReference && r.response.success)
      && (reply.Replied? && !Succeeded(reply) ==>
            t.status == FAILED && !r.response.success
            && r.response.message == MessageOr(reply.statusMessage, CARD_WORDING.failed))
      && (reply.Threw? ==>
            t.status == PENDING && r.response.success
            && t.transactionReference == Some("CARD-SIM-" + Decimal(d.simClock)))
  {
  }
}

=== FILE: checkout.dfy ===
/**
 * The browser side of checkout: the state the checkout pages share, and
 * what a form receives back from a handler.
 */
module Checkout {
  import opened Options
  import opened Domain
  import Api

  datatype Step = Details | Payment | Processing | Result

  /** A JavaScript number as the forms hold it: `parseFloat` may give NaN. */
  datatype JsNumber = Num(value: real) | NaN

  /** `JSON.stringify` writes NaN as `null`, which the handlers read as absent. */
  function AmountJson(n: JsNumber): (r: Option<real>)
    ensures r.Some? <==> n.Num?
    ensures r.Some? ==> r.value == n.value
  {
    match n
    case Num(x) => Some(x)
    case NaN => None
  }

  /** The shared checkout state; absent values are `None`. */
  datatype CheckoutState = CheckoutState(
    step: Step,
    amount: JsNumber,
    currency: CurrencyCode,
    customer: CustomerDetails,
    orderReference: Option<string>,
    transactionId: Option<string>,
    transactionStatus: Option<TransactionStatus>,
    error: Option<string>)

  /** What `fetch` produced: the handler's JSON, or a thrown network error. */
  datatype Answer = NetworkError | Answered(body: Api.Response)

  const NETWORK_ERROR: string := "Network error. Please try again."
  const RESULT_PATH: string := "/checkout/result"
  const WEBHOOK_PATH: string := "/api/webhooks/smilepay"
}

=== FILE: customer_form.dfy ===
/**
 * The details form: amount, names, e-mail and phone are checked in the
 * browser, and only a form with no recorded error moves checkout on to the
 * payment step.
 */
module CustomerForm {
  import opened Options
  import opened Text
  import opened Domain
  import opened Phone
  import opened Checkout

  datatype FormField = AmountField | FirstNameField | LastNameField | EmailField | PhoneField

  /** Neither whitespace nor '@': the class `[^\s@]`. */
  predicate Plain(c: char) {
    !IsSpace(c) && c != '@'
  }

  predicate AllPlain(s: string) {
    forall k :: 0 <= k < |s| ==> Plain(s[k])
  }

  /**
   * `^[^\s@]+@[^\s@]+\.[^\s@]+$`: one '@' with plain text before it, and a
   * '.' after it with plain text on both sides.
   */
  predicate EmailShape(s: string) {
    exists at, dot :: 0 < at && at + 1 < dot && dot + 1 < |s| && s[at] == '@' && s[dot] == '.'
      && AllPlain(s[..at]) && AllPlain(s[at + 1..])
  }

  /** Any three plain, non-empty parts make an address. */
  lemma EmailFromParts(local: string, domain: string, tld: string)
    requires |local| > 0 && |domain| > 0 && |tld| > 0
    requires AllPlain(local) && AllPlain(domain) && AllPlain(tld)
    ensures EmailShape(local + "@" + domain + "." + tld)
  {
    var s := local + "@" + domain + "." + tld;
    var at, dot := |local|, |local| + 1 + |domain|;
    assert s[..at] == local;
    assert s[at + 1..] == domain + "." + tld;
    assert s[at] == '@' && s[dot] == '.';
  }

  /** An address holds exactly one '@' and no whitespace, so it is never blank. */
  lemma EmailShapeSound(s: string)
    requires EmailShape(s)
    ensures forall k, l :: 0 <= k < l < |s| ==> !(s[k] == '@' && s[l] == '@')
    ensures forall k :: 0 <= k < |s| ==> !IsSpace(s[k])
    ensures !IsBlank(s)
  {
    var at, dot :| 0 < at && at + 1 < dot && dot + 1 < |s| && s[at] == '@' && s[dot] == '.'
      && AllPlain(s[..at]) && AllPlain(s[at + 1..]);
    forall k | 0 <= k < |s| && k != at
      ensures Plain(s[k])
    {
      if k < at {
        assert s[k] == s[..at][k];
      } else {
        assert s[k] == s[at + 1..][k - at - 1];
      }
    }
    assert !IsSpace(s[0]);
  }

  lemma EmailNeverBlank(s: string)
    ensures EmailShape(s) ==> !IsBlank(s)
  {
    if EmailShape(s) {
      EmailShapeSound(s);
    }
  }

  /**
   * `validateForm`: the fields with an error. `parsed` is what `parseFloat`
   * made of the amount text.
   */
  function ValidateForm(amountText: string, parsed: JsNumber, c: CustomerDetails): (errors: set<FormField>)
    ensures AmountField in errors <==> amountText == "" || (parsed.Num? && parsed.value <= 0.0)
    ensures FirstNameField in errors <==> IsBlank(c.firstName)
    ensures LastNameField in errors <==> IsBlank(c.lastName)
    ensures EmailField in errors <==> !EmailShape(c.email)
    ensures PhoneField in errors <==> IsBlank(c.phone) || !LooseNumber(StripSpaces(c.phone))
  {
    EmailNeverBlank(c.email);
    (if amountText == "" || (parsed.Num? && parsed.value <= 0.0) then {AmountField} else {})
    + (if IsBlank(c.firstName) then {FirstNameField} else {})
    + (if IsBlank(c.lastName) then {LastNameField} else {})
    + (if IsBlank(c.email) || !EmailShape(c.email) then {EmailField} else {})
    + (if IsBlank(c.phone) || !LooseNumber(StripSpaces(c.phone)) then {PhoneField} else {})
  }

  /**
   * `handleSubmit`: the error banner is cleared; a form with no error stores
   * the parsed amount and moves to the payment step, any other leaves the step.
   */
  function Submit(s: CheckoutState, amountText: string, parsed: JsNumber): (r: CheckoutState)
    ensures r.error.None?
    ensures r.step == Payment <==> ValidateForm(amountText, parsed, s.customer) == {} || s.step == Payment
    ensures ValidateForm(amountText, parsed, s.customer) == {} ==> r == s.(step := Payment, amount := parsed, error := None)
    ensures ValidateForm(amountText, parsed, s.customer) != {} ==> r == s.(error := None)
  {
    if ValidateForm(amountText, parsed, s.customer) == {} then s.(step := Payment, amount := parsed, error := None)
    else s.(error := None)
  }

  /** The details a valid form accepts: each field's own check passes. */
  lemma ValidMeansEveryFieldPasses(amountText: string, parsed: JsNumber, c: CustomerDetails)
    ensures ValidateForm(amountText, parsed, c) == {} <==>
      && amountText != "" && !(parsed.Num? && parsed.value <= 0.0)
      && !IsBlank(c.firstName) && !IsBlank(c.lastName) && EmailShape(c.email)
      && !IsBlank(c.phone) && LooseNumber(StripSpaces(c.phone))
  {
    var e := ValidateForm(amountText, parsed, c);
    if e != {} {
      var f :| f in e;
    }
  }

  /** Text that `parseFloat` cannot read passes the amount check, since NaN is not at most 0. */
  lemma UnreadableAmountPasses(amountText: string, c: CustomerDetails)
    requires amountText != ""
    ensures AmountField !in ValidateForm(amountText, NaN, c)
  {
  }
}

=== FILE: domain.dfy ===
/**
 * The records of the payment ledger and the vocabularies they use:
 * transaction status, currency, local payment method, customer details,
 * transactions, webhook logs, merchants and catalogue entries.
 */
module Domain {
  import opened Options

  datatype TransactionStatus = PENDING | PAID | FAILED | CANCELLED

  /** The wire name of a status, as stored and as sent in JSON. */
  function StatusName(s: TransactionStatus): string {
    match s
    case PENDING => "PENDING"
    case PAID => "PAID"
    case FAILED => "FAILED"
    case CANCELLED => "CANCELLED"
  }

  /** Exact-match parse of a status name (the whitelist of the simulate endpoint). */
  function ParseStatus(s: string): (r: Option<TransactionStatus>)
    ensures r.Some? <==> exists t :: StatusName(t) == s
    ensures r.Some? ==> StatusName(r.value) == s
  {
    if s == "PENDING" then assert StatusName(PENDING) == s; Some(PENDING)
    else if s == "PAID" then assert StatusName(PAID) == s; Some(PAID)
    else if s == "FAILED" then assert StatusName(FAILED) == s; Some(FAILED)
    else if s == "CANCELLED" then assert StatusName(CANCELLED) == s; Some(CANCELLED)
    else
      assert forall t :: StatusName(t) != s;
      None
  }

  predicate IsTerminal(s: TransactionStatus) {
    s != PENDING
  }

  datatype CurrencyCode = USD | ZWG

  function CurrencyName(c: CurrencyCode): string {
    match c
    case USD => "USD"
    case ZWG => "ZWG"
  }

  /** Local payment-method codes. */
  datatype PaymentMethodCode = ECO_CASH | VISA_MASTERCARD | INNBUCKS | OMARI | SMILE_CASH

  function MethodName(m: PaymentMethodCode): string {
    match m
    case ECO_CASH => "ECO_CASH"
    case VISA_MASTERCARD => "VISA_MASTERCARD"
    case INNBUCKS => "INNBUCKS"
    case OMARI => "OMARI"
    case SMILE_CASH => "SMILE_CASH"
  }

  /** Customer contact fields; the empty string stands for a missing field. */
  datatype CustomerDetails = CustomerDetails(firstName: string, lastName: string, email: string, phone: string)

  /**
   * One payment attempt. `currencyCode` keeps whatever string the caller sent,
   * since no route checks it against the enumeration. Amounts are JavaScript
   * numbers (NaN excluded); times are milliseconds since the epoch.
   */
  datatype Transaction = Transaction(
    id: string,
    merchantId: string,
    orderReference: string,
    transactionReference: Option<string>,
    amount: real,
    currencyCode: string,
    paymentMethod: Option<PaymentMethodCode>,
    status: TransactionStatus,
    customer: CustomerDetails,
    paymentUrl: Option<string>,
    returnUrl: string,
    resultUrl: string,
    cancelUrl: Option<string>,
    failureUrl: Option<string>,
    createdAt: int,
    updatedAt: int,
    paidAt: Option<int>)

  /** The columns of a transaction, in table order. */
  datatype Field =
    | Id | MerchantId | OrderReference | TransactionReference | Amount | Currency
    | Method | Status | Customer | PaymentUrl | ReturnUrl | ResultUrl | CancelUrl
    | FailureUrl | CreatedAt | UpdatedAt | PaidAt

  /** The column name used by both stores (snake_case, as in the SQL schema). */
  function ColumnName(f: Field): string {
    match f
    case Id => "id"
    case MerchantId => "merchant_id"
    case OrderReference => "order_reference"
    case TransactionReference => "transaction_reference"
    case Amount => "amount"
    case Currency => "currency_code"
    case Method => "payment_method"
    case Status => "status"
    case Customer => "customer_details"
    case PaymentUrl => "payment_url"
    case ReturnUrl => "return_url"
    case ResultUrl => "result_url"
    case CancelUrl => "cancel_url"
    case FailureUrl => "failure_url"
    case CreatedAt => "created_at"
    case UpdatedAt => "updated_at"
    case PaidAt => "paid_at"
  }

  /** The value held in one column. */
  datatype FieldValue =
    | VText(text: string)
    | VOptText(optText: Option<string>)
    | VNumber(number: real)
    | VMethod(optMethod: Option<PaymentMethodCode>)
    | VStatus(status: TransactionStatus)
    | VCustomer(customer: CustomerDetails)
    | VTime(time: int)
    | VOptTime(optTime: Option<int>)

  /** Column read-out: `t[f]`. */
  function Get(t: Transaction, f: Field): FieldValue {
    match f
    case Id => VText(t.id)
    case MerchantId => VText(t.merchantId)
    case OrderReference => VText(t.orderReference)
    case TransactionReference => VOptText(t.transactionReference)
    case Amount => VNumber(t.amount)
    case Currency => VText(t.currencyCode)
    case Method => VMethod(t.paymentMethod)
    case Status => VStatus(t.status)
    case Customer => VCustomer(t.customer)
    case PaymentUrl => VOptText(t.paymentUrl)
    case ReturnUrl => VText(t.returnUrl)
    case ResultUrl => VText(t.resultUrl)
    case CancelUrl => VOptText(t.cancelUrl)
    case FailureUrl => VOptText(t.failureUrl)
    case CreatedAt => VTime(t.createdAt)
    case UpdatedAt => VTime(t.updatedAt)
    case PaidAt => VOptTime(t.paidAt)
  }

  /**
   * One key of a `Partial<Transaction>` patch object with its (typed) value.
   * A key given the value `undefined` is the `None` of an optional column.
   */
  datatype PatchEntry =
    | SetId(id: string)
    | SetMerchantId(merchantId: string)
    | SetOrderReference(orderReference: string)
    | SetTransactionReference(transactionReference: Option<string>)
    | SetAmount(amount: real)
    | SetCurrency(currencyCode: string)
    | SetMethod(paymentMethod: Option<PaymentMethodCode>)
    | SetStatus(status: TransactionStatus)
    | SetCustomer(customer: CustomerDetails)
    | SetPaymentUrl(paymentUrl: Option<string>)
    | SetReturnUrl(returnUrl: string)
    | SetResultUrl(resultUrl: string)
    | SetCancelUrl(cancelUrl: Option<string>)
    | SetFailureUrl(failureUrl: Option<string>)
    | SetCreatedAt(createdAt: int)
    | SetUpdatedAt(updatedAt: int)
    | SetPaidAt(paidAt: Option<int>)

  /** A patch object: its keys in insertion order (`Object.keys` order). */
  type Patch = seq<PatchEntry>

  function EntryField(e: PatchEntry): Field {
    match e
    case SetId(_) => Id
    case SetMerchantId(_) => MerchantId
    case SetOrderReference(_) => OrderReference
    case SetTransactionReference(_) => TransactionReference
    case SetAmount(_) => Amount
    case SetCurrency(_) => Currency
    case SetMethod(_) => Method
    case SetStatus(_) => Status
    case SetCustomer(_) => Customer
    case SetPaymentUrl(_) => PaymentUrl
    case SetReturnUrl(_) => ReturnUrl
    case SetResultUrl(_) => ResultUrl
    case SetCancelUrl(_) => CancelUrl
    case SetFailureUrl(_) => FailureUrl
    case SetCreatedAt(_) => CreatedAt
    case SetUpdatedAt(_) => UpdatedAt
    case SetPaidAt(_) => PaidAt
  }

  function EntryValue(e: PatchEntry): FieldValue {
    match e
    case SetId(v) => VText(v)
    case SetMerchantId(v) => VText(v)
    case SetOrderReference(v) => VText(v)
    case SetTransactionReference(v) => VOptText(v)
    case SetAmount(v) => VNumber(v)
    case SetCurrency(v) => VText(v)
    case SetMethod(v) => VMethod(v)
    case SetStatus(v) => VStatus(v)
    case SetCustomer(v) => VCustomer(v)
    case SetPaymentUrl(v) => VOptText(v)
    case SetReturnUrl(v) => VText(v)
    case SetResultUrl(v) => VText(v)
    case SetCancelUrl(v) => VOptText(v)
    case SetFailureUrl(v) => VOptText(v)
    case SetCreatedAt(v) => VTime(v)
    case SetUpdatedAt(v) => VTime(v)
    case SetPaidAt(v) => VOptTime(v)
  }

  /** `{ ...t, [key]: value }` for one key. */
  function ApplyEntry(t: Transaction, e: PatchEntry): (u: Transaction)
    ensures Get(u, EntryField(e)) == EntryValue(e)
    ensures forall f :: f != EntryField(e) ==> Get(u, f) == Get(t, f)
  {
    match e
    case SetId(v) => t.(id := v)
    case SetMerchantId(v) => t.(merchantId := v)
    case SetOrderReference(v) => t.(orderReference := v)
    case SetTransactionReference(v) => t.(transactionReference := v)
    case SetAmount(v) => t.(amount := v)
    case SetCurrency(v) => t.(currencyCode := v)
    case SetMethod(v) => t.(paymentMethod := v)
    case SetStatus(v) => t.(status := v)
    case SetCustomer(v) => t.(customer := v)
    case SetPaymentUrl(v) => t.(paymentUrl := v)
    case SetReturnUrl(v) => t.(returnUrl := v)
    case SetResultUrl(v) => t.(resultUrl := v)
    case SetCancelUrl(v) => t.(cancelUrl := v)
    case SetFailureUrl(v) => t.(failureUrl := v)
    case SetCreatedAt(v) => t.(createdAt := v)
    case SetUpdatedAt(v) => t.(updatedAt := v)
    case SetPaidAt(v) => t.(paidAt := v)
  }

  /** `{ ...t, ...p }`: the keys of `p` in order, a later key overriding an earlier one. */
  function ApplyPatch(t: Transaction, p: Patch): Transaction
    decreases |p|
  {
    if |p| == 0 then t else ApplyPatch(ApplyEntry(t, p[0]), p[1..])
  }

  /** The value the patch gives column `f`, if it mentions `f` at all (the last mention wins). */
  function LastValue(p: Patch, f: Field): Option<FieldValue>
    decreases |p|
  {
    if |p| == 0 then None
    else if EntryField(p[|p| - 1]) == f then Some(EntryValue(p[|p| - 1]))
    else LastValue(p[..|p| - 1], f)
  }

  predicate Carries(p: Patch, f: Field) {
    exists i :: 0 <= i < |p| && EntryField(p[i]) == f
  }

  /** The keys of an object are distinct: no column is mentioned twice. */
  predicate DistinctKeys(p: Patch) {
    forall i, j :: 0 <= i < j < |p| ==> EntryField(p[i]) != EntryField(p[j])
  }

  /** With distinct keys, the one mention of `f` is its last. */
  lemma {:induction false} LastValueOfDistinct(p: Patch, i: nat)
    requires DistinctKeys(p) && i < |p|
    ensures LastValue(p, EntryField(p[i])) == Some(EntryValue(p[i]))
    decreases |p|
  {
    if i < |p| - 1 {
      var q := p[..|p| - 1];
      assert q[i] == p[i];
      LastValueOfDistinct(q, i);
    }
  }

  /** `data.status`: the status key of the patch, if present. */
  function PatchStatus(p: Patch): Option<TransactionStatus>
  {
    match LastValue(p, Status)
    case Some(VStatus(s)) => Some(s)
    case _ => None
  }

  lemma {:induction false} LastValueCarries(p: Patch, f: Field)
    ensures LastValue(p, f).Some? <==> Carries(p, f)
    decreases |p|
  {
    if |p| > 0 {
      var q := p[..|p| - 1];
      LastValueCarries(q, f);
      assert forall i :: 0 <= i < |q| ==> q[i] == p[i];
      if EntryField(p[|p| - 1]) != f && Carries(p, f) {
        var i :| 0 <= i < |p| && EntryField(p[i]) == f;
        assert i < |q|;
      }
    }
  }

  /** Applying a patch entry by entry agrees, column by column, with "last mention wins". */
  lemma {:induction false} ApplyPatchOverlay(t: Transaction, p: Patch, f: Field)
    ensures Get(ApplyPatch(t, p), f) == LastValue(p, f).GetOr(Get(t, f))
    decreases |p|
  {
    if |p| > 0 {
      var t1 := ApplyEntry(t, p[0]);
      ApplyPatchOverlay(t1, p[1..], f);
      LastValueSplit(p, f);
    }
  }

  /** LastValue read from the front: the rest of the patch overrides the first key. */
  lemma {:induction false} LastValueSplit(p: Patch, f: Field)
    requires |p| > 0
    ensures LastValue(p, f) ==
      (if LastValue(p[1..], f).Some? then LastValue(p[1..], f)
       else if EntryField(p[0]) == f then Some(EntryValue(p[0]))
       else None)
    decreases |p|
  {
    if |p| > 1 {
      var q := p[..|p| - 1];
      assert q[1..] == p[1..][..|p[1..]| - 1];
      assert p[1..][|p[1..]| - 1] == p[|p| - 1];
      LastValueSplit(q, f);
    }
  }

  /** A patch that never mentions `f` leaves `f` as it was. */
  lemma ApplyPatchFrame(t: Transaction, p: Patch, f: Field)
    requires !Carries(p, f)
    ensures Get(ApplyPatch(t, p), f) == Get(t, f)
  {
    LastValueCarries(p, f);
    ApplyPatchOverlay(t, p, f);
  }

  /** A patch that mentions `f` sets it to the last value given. */
  lemma ApplyPatchSets(t: Transaction, p: Patch, f: Field)
    requires Carries(p, f)
    ensures LastValue(p, f).Some?
    ensures Get(ApplyPatch(t, p), f) == LastValue(p, f).value
  {
    LastValueCarries(p, f);
    ApplyPatchOverlay(t, p, f);
  }

  /** Two transactions with equal columns are equal. */
  lemma GetExtensional(t: Transaction, u: Transaction)
    requires forall f :: Get(t, f) == Get(u, f)
    ensures t == u
  {
    assert Get(t, Id) == Get(u, Id);
    assert Get(t, MerchantId) == Get(u, MerchantId);
    assert Get(t, OrderReference) == Get(u, OrderReference);
    assert Get(t, TransactionReference) == Get(u, TransactionReference);
    assert Get(t, Amount) == Get(u, Amount);
    assert Get(t, Currency) == Get(u, Currency);
    assert Get(t, Method) == Get(u, Method);
    assert Get(t, Status) == Get(u, Status);
    assert Get(t, Customer) == Get(u, Customer);
    assert Get(t, PaymentUrl) == Get(u, PaymentUrl);
    assert Get(t, ReturnUrl) == Get(u, ReturnUrl);
    assert Get(t, ResultUrl) == Get(u, ResultUrl);
    assert Get(t, CancelUrl) == Get(u, CancelUrl);
    assert Get(t, FailureUrl) == Get(u, FailureUrl);
    assert Get(t, CreatedAt) == Get(u, CreatedAt);
    assert Get(t, UpdatedAt) == Get(u, UpdatedAt);
    assert Get(t, PaidAt) == Get(u, PaidAt);
  }

  /** An entry in the audit trail of gateway notifications. */
  datatype WebhookLog = WebhookLog(
    id: string,
    transactionId: string,
    payload: LogPayload,
    response: Option<LogResponse>,
    statusCode: Option<int>,
    createdAt: int)

  /** The body of an inbound gateway callback. */
  datatype WebhookBody = WebhookBody(
    orderReference: string,
    transactionReference: Option<string>,
    transactionStatus: Option<string>,
    amount: Option<real>,
    currencyCode: Option<string>,
    signature: Option<string>)

  /** What a log row records as its payload. */
  datatype LogPayload =
    | Delivered(body: WebhookBody)
    /** `{ orderReference, transactionStatus, simulated: true }` */
    | Simulated(orderReference: string, transactionStatus: TransactionStatus)

  /** What a log row records as the answer given: `{ success: true }` or `{ error: 'Transaction not found' }`. */
  datatype LogResponse = Acknowledged | NotFoundError

  datatype Merchant = Merchant(id: string, name: string, apiKey: string, webhookUrl: Option<string>, isActive: bool, createdAt: int)

  /** Per-method configuration; only the amount bounds appear in the seeded data. */
  datatype MethodConfig = MethodConfig(minAmount: Option<real>, maxAmount: Option<real>)

  datatype PaymentMethod = PaymentMethod(id: string, name: string, code: PaymentMethodCode, isActive: bool, config: MethodConfig)
}

=== FILE: ecocash_form.dfy ===
/**
 * The EcoCash form: its mobile-number check, the body it posts to the
 * EcoCash handler, what it makes of the answer, and the status polling that
 * follows an accepted request.
 */
module EcocashForm {
  import opened Options
  import opened Text
  import opened Domain
  import opened Api
  import opened Checkout
  import opened Phone
  import opened MockStore
  import EcocashRoute
  import ExpressCheckout
  import SmilePayClient

  const INVALID_ZIMBABWE_PHONE: string := "Please enter a valid Zimbabwe phone number"
  const ECOCASH_FAILED: string := "Failed to initiate EcoCash payment"

  /** The form's own state next to the shared checkout state. */
  datatype EcoCashView = EcoCashView(
    checkout: CheckoutState,
    phone: string,
    polling: bool,
    currentOrderRef: Option<string>)

  /** The state after a submit and the body posted, if any. */
  datatype EcoCashSubmission = EcoCashSubmission(view: EcoCashView, request: Option<EcocashRoute.EcoCashBody>)

  /** The body posted to the EcoCash handler: the number without whitespace and no order reference. */
  function EcoCashBodyFor(s: CheckoutState, phone: string, baseUrl: string): (b: EcocashRoute.EcoCashBody)
    ensures b.phoneNumber == Some(StripSpaces(phone)) && b.orderReference.None?
    ensures b.amount == AmountJson(s.amount) && b.customer == Some(s.customer)
    ensures b.currencyCode == Some(CurrencyName(s.currency))
  {
    EcocashRoute.EcoCashBody(AmountJson(s.amount), Some(CurrencyName(s.currency)), Some(s.customer),
                             Some(StripSpaces(phone)), Some(baseUrl + RESULT_PATH), Some(baseUrl + WEBHOOK_PATH), None)
  }

  /**
   * A success starts polling for the returned order reference; a failure
   * shows the handler's message or a default; a thrown `fetch` shows the
   * network message.
   */
  function ReceiveEcoCashAnswer(v: EcoCashView, a: Answer): (r: EcoCashView)
    ensures a.NetworkError? ==> r == v.(checkout := v.checkout.(error := Some(NETWORK_ERROR)))
    ensures a.Answered? && a.body.success ==>
      && r.polling && r.currentOrderRef == a.body.orderReference && r.phone == v.phone
      && r.checkout == v.checkout.(orderReference := a.body.orderReference, transactionId := a.body.transactionId)
    ensures a.Answered? && !a.body.success ==>
      r == v.(checkout := v.checkout.(error := Some(MessageOr(Some(a.body.message), ECOCASH_FAILED))))
  {
    match a
    case NetworkError => v.(checkout := v.checkout.(error := Some(NETWORK_ERROR)))
    case Answered(resp) =>
      if resp.success then
        v.(checkout := v.checkout.(orderReference := resp.orderReference, transactionId := resp.transactionId),
           currentOrderRef := resp.orderReference, polling := true)
      else v.(checkout := v.checkout.(error := Some(MessageOr(Some(resp.message), ECOCASH_FAILED))))
  }

  /**
   * `handleSubmit`: the banner is cleared, then a number that fails
   * `^(263|0)?7[0-9]{8}$` once whitespace is removed is refused without a
   * request; otherwise the body is posted.
   */
  function SubmitEcoCash(v: EcoCashView, baseUrl: string, a: Answer): (r: EcoCashSubmission)
    ensures r.request.Some? <==> LooseNumber(StripSpaces(v.phone))
    ensures !LooseNumber(StripSpaces(v.phone)) ==>
      r.view == v.(checkout := v.checkout.(error := Some(INVALID_ZIMBABWE_PHONE)))
    ensures LooseNumber(StripSpaces(v.phone)) ==>
      && r.request == Some(EcoCashBodyFor(v.checkout, v.phone, baseUrl))
      && r.view == ReceiveEcoCashAnswer(v.(checkout := v.checkout.(error := None)), a)
  {
    var cleared := v.(checkout := v.checkout.(error := None));
    if !LooseNumber(StripSpaces(v.phone)) then
      EcoCashSubmission(cleared.(checkout := cleared.checkout.(error := Some(INVALID_ZIMBABWE_PHONE))), None)
    else
      EcoCashSubmission(ReceiveEcoCashAnswer(cleared, a), Some(EcoCashBodyFor(v.checkout, v.phone, baseUrl)))
  }

  /** What one poll of the status endpoint produced. */
  datatype StatusAnswer = StatusUnreachable | StatusAnswered(success: bool, status: TransactionStatus)

  /** Polling runs only while it is switched on and there is a reference to poll. */
  predicate Polls(v: EcoCashView) {
    v.polling && Truthy(v.currentOrderRef)
  }

  /**
   * One five-second poll: a successful answer with a status other than
   * PENDING is shown on the result step and ends polling; anything else,
   * a thrown request included, leaves the form waiting.
   */
  function PollTick(v: EcoCashView, a: StatusAnswer): (r: EcoCashView)
    ensures !Polls(v) ==> r == v
    ensures Polls(v) && a.StatusAnswered? && a.success && a.status != PENDING ==>
      r == v.(polling := false, checkout := v.checkout.(transactionStatus := Some(a.status), step := Result))
    ensures !(a.StatusAnswered? && a.success && a.status != PENDING) ==> r == v
  {
    if !Polls(v) then v
    else
      match a
      case StatusUnreachable => v
      case StatusAnswered(success, status) =>
        if success && status != PENDING then
          v.(polling := false, checkout := v.checkout.(transactionStatus := Some(status), step := Result))
        else v
  }

  /** After two minutes of polling the payment is shown as FAILED, whatever the ledger holds. */
  function PollTimeout(v: EcoCashView): (r: EcoCashView)
    ensures !Polls(v) ==> r == v
    ensures Polls(v) ==> !r.polling && r.checkout.transactionStatus == Some(FAILED) && r.checkout.step == Result
    ensures Polls(v) ==> r.checkout.orderReference == v.checkout.orderReference && r.currentOrderRef == v.currentOrderRef
  {
    if !Polls(v) then v
    else v.(polling := false, checkout := v.checkout.(transactionStatus := Some(FAILED), step := Result))
  }

  /** Polling shows on the result page exactly the settled status the ledger reported, and stops. */
  lemma PollStopsExactlyOnSettledStatus(v: EcoCashView, a: StatusAnswer)
    requires Polls(v)
    ensures !PollTick(v, a).polling <==> a.StatusAnswered? && a.success && a.status != PENDING
    ensures !PollTick(v, a).polling ==>
      PollTick(v, a).checkout.transactionStatus == Some(a.status) && IsTerminal(a.status)
  {
  }

  /**
   * A bare subscriber number such as "771234567" passes the form, but the
   * handler it is sent to answers 400 without touching the ledger, and the
   * form shows the handler's refusal.
   */
  lemma BareNumberRefusedByHandler(v: EcoCashView, baseUrl: string, L: Store, client: SmilePayClient.Client,
                                   transport: SmilePayClient.GatewayReply, d: Draws)
    requires Subscriber(StripSpaces(v.phone))
    ensures var body := EcoCashBodyFor(v.checkout, v.phone, baseUrl);
      var r := EcocashRoute.PayByEcoCash(L, body, client, transport, d);
      var shown := SubmitEcoCash(v, baseUrl, Answered(r.response));
      && shown.request == Some(body)
      && r.response.httpStatus == 400 && r.store == L
      && shown.view.checkout.error ==
           Some(if EcocashRoute.HasRequiredFields(body) then EcocashRoute.INVALID_PHONE else MISSING_FIELDS)
      && shown.view.polling == v.polling && shown.view.currentOrderRef == v.currentOrderRef
  {
    var s := StripSpaces(v.phone);
    StripSpacesIdempotent(v.phone);
    LooseIsPrefixedOrBare(s);
    var body := EcoCashBodyFor(v.checkout, v.phone, baseUrl);
    assert !EcocashRoute.Admissible(body);
    var r := EcocashRoute.PayByEcoCash(L, body, client, transport, d);
    assert r.response.message != "" && !r.response.success;
  }

  /**
   * When the gateway accepts the request, or cannot be reached and the
   * sandbox answer is given instead, the form starts polling for the order
   * reference of the record just created, which holds PENDING.
   */
  lemma AcceptedRequestPollsItsRecord(v: EcoCashView, baseUrl: string, L: Store, client: SmilePayClient.Client,
                                      transport: SmilePayClient.GatewayReply, d: Draws)
    requires EcocashRoute.Admissible(EcoCashBodyFor(v.checkout, v.phone, baseUrl)) && DefaultMerchant(L).Some?
    requires var reply := SmilePayClient.MakeRequest(client, SmilePayClient.ECOCASH_ENDPOINT, transport).reply;
      ExpressCheckout.Succeeded(reply) || reply.Threw?
    ensures var r := EcocashRoute.PayByEcoCash(L, EcoCashBodyFor(v.checkout, v.phone, baseUrl), client, transport, d);
      var t := r.store.txs[TransactionId(d)];
      var shown := ReceiveEcoCashAnswer(v, Answered(r.response));
      && shown.polling && shown.currentOrderRef == Some(t.orderReference)
      && shown.checkout.transactionId == Some(t.id) && t.status == PENDING
  {
    var body := EcoCashBodyFor(v.checkout, v.phone, baseUrl);
    EcocashRoute.EcoCashRecordCreated(L, body, client, transport, d);
    EcocashRoute.EcoCashOutcomes(L, body, client, transport, d);
    var r := EcocashRoute.PayByEcoCash(L, body, client, transport, d);
    assert r == EcocashRoute.Admit(L, body, DefaultMerchant(L).value, client, transport, d);
  }

  /** A number with its prefix that passes the form passes the handler too, once the other fields are present. */
  lemma PrefixedNumberAdmittedByHandler(v: EcoCashView, baseUrl: string)
    requires PrefixedNumber(StripSpaces(v.phone))
    requires EcocashRoute.HasRequiredFields(EcoCashBodyFor(v.checkout, v.phone, baseUrl))
    ensures LooseNumber(StripSpaces(v.phone))
    ensures EcocashRoute.Admissible(EcoCashBodyFor(v.checkout, v.phone, baseUrl))
  {
    StripSpacesIdempotent(v.phone);
  }
}

=== FILE: ecocash_route.dfy ===
/**
 * `POST /api/payments/express/ecocash`: check the fields and the mobile
 * number, record a PENDING ECO_CASH transaction in the in-memory store, and
 * ask the gateway to push a USSD prompt to the payer's phone.
 */
module EcocashRoute {
  import opened Options
  import opened Text
  import opened Domain
  import opened MockStore
  import opened Api
  import opened Phone
  import opened ExpressCheckout
  import SmilePayClient

  /** The request body; a key that is absent is `None`. */
  datatype EcoCashBody = EcoCashBody(
    amount: Option<real>,
    currencyCode: Option<string>,
    customer: Option<CustomerDetails>,
    phoneNumber: Option<string>,
    returnUrl: Option<string>,
    resultUrl: Option<string>,
    orderReference: Option<string>)

  const INVALID_PHONE: string := "Invalid phone number format"

  const ECOCASH_WORDING: Wording := Wording(
    "EcoCash payment initiated. Please check your phone for USSD prompt.",
    "Failed to initiate EcoCash payment",
    "EcoCash payment initiated (sandbox mode). Simulating USSD prompt.",
    "ECO-SIM-")

  predicate HasRequiredFields(req: EcoCashBody) {
    TruthyAmount(req.amount) && Truthy(req.currencyCode) && req.customer.Some?
    && Truthy(req.phoneNumber) && Truthy(req.returnUrl) && Truthy(req.resultUrl)
  }

  /** The number, with its whitespace removed, has the mandatory `263` or `0` prefix. */
  predicate Admissible(req: EcoCashBody) {
    HasRequiredFields(req) && PrefixedNumber(StripSpaces(req.phoneNumber.value))
  }

  /** The gateway request; the number is passed on exactly as typed, spaces included. */
  function EcoCashRequestFor(req: EcoCashBody, orderRef: string): (g: GatewayRequest)
    requires HasRequiredFields(req)
    ensures g.EcoCashRequest? && g.phoneNumber == req.phoneNumber.value && g.orderReference == orderRef
    ensures g.amount == req.amount.value && g.customer == GatewayCustomerOf(req.customer.value)
  {
    EcoCashRequest(SmilePayClient.FormatCurrencyCode(req.currencyCode.value), req.amount.value, orderRef,
                   req.resultUrl.value, req.returnUrl.value, req.phoneNumber.value,
                   GatewayCustomerOf(req.customer.value))
  }

  /** The record: no cancel or failure page, paid with ECO_CASH. */
  function NewEcoCashTransaction(req: EcoCashBody, merchant: Merchant, orderRef: string): (n: NewTransaction)
    requires HasRequiredFields(req)
    ensures n.paymentMethod == Some(ECO_CASH) && n.cancelUrl.None? && n.failureUrl.None?
    ensures n.merchantId == merchant.id && n.orderReference == orderRef && n.amount == req.amount.value
  {
    NewTransaction(merchant.id, orderRef, req.amount.value, req.currencyCode.value, req.customer.value,
                   req.returnUrl.value, req.resultUrl.value, None, None, Some(ECO_CASH))
  }

  /** After validation: create the record, call the gateway, record the outcome. */
  function Admit(L: Store, req: EcoCashBody, merchant: Merchant, client: SmilePayClient.Client,
                 transport: SmilePayClient.GatewayReply, d: Draws): (r: RouteResult)
    requires HasRequiredFields(req)
    ensures var orderRef := OrderReferenceFor(req.orderReference, d);
      var reply := SmilePayClient.MakeRequest(client, SmilePayClient.ECOCASH_ENDPOINT, transport).reply;
      var e := ExpressAdmit(L, NewEcoCashTransaction(req, merchant, orderRef), orderRef, reply, ECOCASH_WORDING, "", false, d);
      && r.request == Some(EcoCashRequestFor(req, orderRef))
      && r.store == e.store && r.response == e.response
  {
    var orderRef := OrderReferenceFor(req.orderReference, d);
    var reply := SmilePayClient.MakeRequest(client, SmilePayClient.ECOCASH_ENDPOINT, transport).reply;
    var e := ExpressAdmit(L, NewEcoCashTransaction(req, merchant, orderRef), orderRef, reply, ECOCASH_WORDING, "", false, d);
    RouteResult(e.store, e.response, Some(EcoCashRequestFor(req, orderRef)))
  }

  /** The handler; `client` is the configured gateway client and `transport` what the gateway would answer. */
  function PayByEcoCash(L: Store, req: EcoCashBody, client: SmilePayClient.Client,
                        transport: SmilePayClient.GatewayReply, d: Draws): (r: RouteResult)
    ensures !HasRequiredFields(req) ==> r == Untouched(L, Refusal(400, MISSING_FIELDS))
    ensures HasRequiredFields(req) && !Admissible(req) ==> r == Untouched(L, Refusal(400, INVALID_PHONE))
    ensures Admissible(req) && DefaultMerchant(L).None? ==> r == Untouched(L, Refusal(404, MERCHANT_NOT_FOUND))
    ensures Admissible(req) && DefaultMerchant(L).Some? ==>
      r == Admit(L, req, DefaultMerchant(L).value, client, transport, d)
    ensures r.response.httpStatus == 400 <==> !Admissible(req)
  {
    if !HasRequiredFields(req) then Untouched(L, Refusal(400, MISSING_FIELDS))
    else if !PrefixedNumber(StripSpaces(req.phoneNumber.value)) then Untouched(L, Refusal(400, INVALID_PHONE))
    else
      match DefaultMerchant(L)
      case None => Untouched(L, Refusal(404, MERCHANT_NOT_FOUND))
      case Some(merchant) => Admit(L, req, merchant, client, transport, d)
  }

  /**
   * An admitted request adds exactly one ECO_CASH record under a fresh-looking
   * id and touches no other record.
   */
  lemma EcoCashRecordCreated(L: Store, req: EcoCashBody, client: SmilePayClient.Client,
      transport: SmilePayClient.GatewayReply, d: Draws)
    requires Admissible(req) && DefaultMerchant(L).Some?
    ensures var r := PayByEcoCash(L, req, client, transport, d);
      var id := TransactionId(d);
      && id in r.store.txs && r.store.txs.Keys == L.txs.Keys + {id}
      && (forall k :: k in L.txs && k != id ==> r.store.txs[k] == L.txs[k])
      && r.store.merchants == L.merchants && r.store.logs == L.logs
      && r.store.txs[id].paymentMethod == Some(ECO_CASH)
      && r.store.txs[id].orderReference == OrderReferenceFor(req.orderReference, d)
      && r.store.txs[id].merchantId == DefaultMerchant(L).value.id && r.store.txs[id].amount == req.amount.value
      && r.request.Some? && r.request.value.EcoCashRequest? && r.request.value.phoneNumber == req.phoneNumber.value
  {
    var merchant := DefaultMerchant(L).value;
    var orderRef := OrderReferenceFor(req.orderReference, d);
    var reply := SmilePayClient.MakeRequest(client, SmilePayClient.ECOCASH_ENDPOINT, transport).reply;
    var e := ExpressAdmit(L, NewEcoCashTransaction(req, merchant, orderRef), orderRef, reply, ECOCASH_WORDING, "", false, d);
    var r := PayByEcoCash(L, req, client, transport, d);
    assert r == Admit(L, req, merchant, client, transport, d);
    assert r.store == e.store;
  }

  /** The stored record and the answer for each gateway outcome. */
  lemma EcoCashOutcomes(L: Store, req: EcoCashBody, client: SmilePayClient.Client,
                        transport: SmilePayClient.GatewayReply, d: Draws)
    requires Admissible(req) && DefaultMerchant(L).Some?
    ensures var r := PayByEcoCash(L, req, client, transport, d);
      var t := r.store.txs[TransactionId(d)];
      var reply := SmilePayClient.MakeRequest(client, SmilePayClient.ECOCASH_ENDPOINT, transport).reply;
      && r.response.redirectHtml.None?
      && (Succeeded(reply) ==>
            t.status == PENDING && t.transactionReference == reply.transactionReference && r.response.success)
      && (reply.Replied? && !Succeeded(reply) ==>
            t.status == FAILED && !r.response.success
            && r.response.message == MessageOr(reply.statusMessage, ECOCASH_WORDING.failed))
      && (reply.Threw? ==>
            t.status == PENDING && r.response.success
            && t.transactionReference == Some("ECO-SIM-" + Decimal(d.simClock)))
  {
  }
}

=== FILE: express.dfy ===
/**
 * What the two express-checkout handlers share: after the record exists,
 * one call to the gateway and one in-memory update, decided by the reply's
 * status code alone.
 */
module ExpressCheckout {
  import opened Options
  import opened Text
  import opened Domain
  import opened MockStore
  import opened Api
  import SmilePayClient

  /** The texts one handler answers with, and the prefix of its sandbox reference. */
  datatype Wording = Wording(initiated: string, failed: string, sandbox: string, simPrefix: string)

  /** Express checkout counts a reply as success only when its status code is exactly "200". */
  predicate Succeeded(reply: SmilePayClient.GatewayReply) {
    reply.Replied? && reply.statusCode == Some("200")
  }

  /** `redirect_html` is answered only by the card handler, and only when the reply's is truthy. */
  function RedirectOf(reply: SmilePayClient.GatewayReply, redirects: bool): (r: Option<string>)
    requires reply.Replied?
    ensures r.Some? <==> redirects && Truthy(reply.redirectHtml)
    ensures r.Some? ==> r == reply.redirectHtml
  {
    if redirects && Truthy(reply.redirectHtml) then reply.redirectHtml else None
  }

  /**
   * The gateway phase: "200" stores the gateway's reference, any other reply
   * marks the record FAILED, and a throw stores a `<prefix><ms>` sandbox
   * reference. The three-domain-secure message is used when a redirect is answered.
   */
  function ExpressBranch(L: Store, id: string, orderRef: string, reply: SmilePayClient.GatewayReply,
                         w: Wording, threeDsMessage: string, redirects: bool, d: Draws): (r: RouteResult)
    requires id in L.txs
    ensures r.request.None?
    ensures OnlyRecordChanged(L, r.store, id) && SameOrder(L.txs[id], r.store.txs[id])
    ensures r.store.txs[id].updatedAt == d.later && r.response.httpStatus == 200
    ensures r.response.transactionId == Some(id) && r.response.orderReference == Some(orderRef)
    ensures r.response.paymentUrl.None?
    ensures Succeeded(reply) ==>
      && r.store.txs[id] == L.txs[id].(transactionReference := reply.transactionReference, updatedAt := d.later)
      && r.response.success && r.response.status == Some(PENDING)
      && r.response.transactionReference == reply.transactionReference
      && r.response.redirectHtml == RedirectOf(reply, redirects)
      && r.response.message == (if r.response.redirectHtml.Some? then threeDsMessage else w.initiated)
    ensures reply.Replied? && !Succeeded(reply) ==>
      && r.store.txs[id].status == FAILED
      && r.store.txs[id].transactionReference == L.txs[id].transactionReference
      && r.store.txs[id] == L.txs[id].(status := FAILED, updatedAt := d.later)
      && !r.response.success && r.response.status == Some(FAILED)
      && r.response.transactionReference.None?
      && r.response.message == MessageOr(reply.statusMessage, w.failed)
    ensures reply.Threw? ==>
      && r.store.txs[id] == L.txs[id].(transactionReference := Some(w.simPrefix + Decimal(d.simClock)), updatedAt := d.later)
      && r.response.success && r.response.status == Some(PENDING)
      && r.response.transactionReference == Some(w.simPrefix + Decimal(d.simClockAgain))
      && r.response.message == w.sandbox
    ensures !Succeeded(reply) ==> r.response.redirectHtml.None?
  {
    match reply
    case Threw =>
      var stored := Some(w.simPrefix + Decimal(d.simClock));
      var u := Update(L, id, [SetTransactionReference(stored)], d.later);
      UpdateReference(L, id, stored, d.later);
      RouteResult(u.store, Response(200, true, w.sandbox, Some(id), Some(orderRef),
                                    Some(w.simPrefix + Decimal(d.simClockAgain)), None, Some(PENDING), None), None)
    case Replied(code, msg, _, ref, html) =>
      if code == Some("200") then
        var u := Update(L, id, [SetTransactionReference(ref)], d.later);
        UpdateReference(L, id, ref, d.later);
        var redirect := RedirectOf(reply, redirects);
        var message := if redirect.Some? then threeDsMessage else w.initiated;
        RouteResult(u.store, Response(200, true, message, Some(id), Some(orderRef), ref, None, Some(PENDING), redirect), None)
      else
        var u := Update(L, id, [SetStatus(FAILED)], d.later);
        UpdateStatus(L, id, FAILED, d.later);
        RouteResult(u.store, Response(200, false, MessageOr(msg, w.failed), Some(id), Some(orderRef),
                                      None, None, Some(FAILED), None), None)
  }

  /**
   * Both express handlers after validation: create the record under the
   * request's id, then run the gateway phase on it. Every other record is
   * left as it was.
   */
  function ExpressAdmit(L: Store, data: NewTransaction, orderRef: string, reply: SmilePayClient.GatewayReply,
                        w: Wording, threeDsMessage: string, redirects: bool, d: Draws): (r: RouteResult)
    ensures var id := TransactionId(d);
      && id in r.store.txs && r.store.txs.Keys == L.txs.Keys + {id}
      && (forall k :: k in L.txs && k != id ==> r.store.txs[k] == L.txs[k])
      && r.store.merchants == L.merchants && r.store.logs == L.logs && r.store.methods == L.methods
      && r.store.txs[id].paymentMethod == data.paymentMethod
      && r.store.txs[id].orderReference == data.orderReference
      && r.store.txs[id].merchantId == data.merchantId && r.store.txs[id].amount == data.amount
    ensures r.response.transactionId == Some(TransactionId(d)) && r.response.orderReference == Some(orderRef)
    ensures var created := Create(L, data, TransactionId(d), d.now);
      r == ExpressBranch(created.store, TransactionId(d), orderRef, reply, w, threeDsMessage, redirects, d)
  {
    var id := TransactionId(d);
    var created := Create(L, data, id, d.now);
    var b := ExpressBranch(created.store, id, orderRef, reply, w, threeDsMessage, redirects, d);
    assert created.store.txs.Keys == L.txs.Keys + {id};
    assert b.store.txs.Keys == created.store.txs.Keys;
    b
  }
}

=== FILE: initiate_route.dfy ===
/**
 * `POST /api/payments/initiate`: validate the request, record a PENDING
 * transaction in the PostgreSQL store, and for standard checkout ask the
 * gateway for a hosted payment page, falling back to a sandbox page when
 * the gateway call throws.
 */
module InitiateRoute {
  import opened Options
  import opened Text
  import opened Domain
  import opened MockStore
  import opened PostgresStore
  import opened Api
  import SmilePayClient

  /** The request body; a key that is absent is `None`, and `""` stands for a missing customer field. */
  datatype InitiateRequest = InitiateRequest(
    amount: Option<real>,
    currencyCode: Option<string>,
    customer: Option<CustomerDetails>,
    returnUrl: Option<string>,
    resultUrl: Option<string>,
    cancelUrl: Option<string>,
    failureUrl: Option<string>,
    paymentMethod: Option<PaymentMethodCode>,
    orderReference: Option<string>,
    checkoutType: Option<string>)

  const MISSING_CUSTOMER: string := "Missing customer details"
  const DEFAULT_BASE_URL: string := "http://localhost:3000"

  /** Every required field is truthy (an amount of 0 is not). */
  predicate HasRequiredFields(req: InitiateRequest) {
    TruthyAmount(req.amount) && Truthy(req.currencyCode) && req.customer.Some?
    && Truthy(req.returnUrl) && Truthy(req.resultUrl)
  }

  predicate CustomerComplete(c: CustomerDetails) {
    c.firstName != "" && c.lastName != "" && c.email != "" && c.phone != ""
  }

  predicate Admissible(req: InitiateRequest) {
    HasRequiredFields(req) && CustomerComplete(req.customer.value)
  }

  /** The sandbox payment page: `${NEXT_PUBLIC_BASE_URL || 'http://localhost:3000'}/checkout/payment?ref=<ref>`. */
  function SimulatedPaymentUrl(baseUrlEnv: Option<string>, orderRef: string): (r: string)
    ensures Truthy(baseUrlEnv) ==> r == baseUrlEnv.value + "/checkout/payment?ref=" + orderRef
    ensures !Truthy(baseUrlEnv) ==> r == DEFAULT_BASE_URL + "/checkout/payment?ref=" + orderRef
  {
    Or(baseUrlEnv, Some(DEFAULT_BASE_URL)).value + "/checkout/payment?ref=" + orderRef
  }

  /** The record the handler asks the store to create. */
  function NewTransactionFor(req: InitiateRequest, merchant: Merchant, orderRef: string): NewTransaction
    requires HasRequiredFields(req)
  {
    NewTransaction(merchant.id, orderRef, req.amount.value, req.currencyCode.value, req.customer.value,
                   req.returnUrl.value, req.resultUrl.value, req.cancelUrl, req.failureUrl, req.paymentMethod)
  }

  function StandardRequestFor(req: InitiateRequest, orderRef: string): GatewayRequest
    requires HasRequiredFields(req)
  {
    StandardRequest(SmilePayClient.FormatCurrencyCode(req.currencyCode.value), req.amount.value, orderRef,
                    req.resultUrl.value, req.returnUrl.value, req.cancelUrl, req.failureUrl,
                    GatewayCustomerOf(req.customer.value))
  }

  /** The standard branch takes a reply as success when its status code is "200" or it carries a payment URL. */
  predicate Accepted(reply: SmilePayClient.GatewayReply) {
    reply.Replied? && (reply.statusCode == Some("200") || Truthy(reply.paymentUrl))
  }

  /** The catch block: a sandbox page and a `SIM-<ms>` reference; the status is left as it was. */
  function SandboxFallback(L: Store, id: string, orderRef: string, simUrl: string, d: Draws): (r: RouteResult)
    requires id in L.txs
    ensures r.request.None?
    ensures OnlyRecordChanged(L, r.store, id) && SameOrder(L.txs[id], r.store.txs[id])
    ensures r.store.txs[id].paymentUrl == Some(simUrl)
    ensures r.store.txs[id].transactionReference.Some? && StartsWith(r.store.txs[id].transactionReference.value, "SIM-")
    ensures r.store.txs[id].status == L.txs[id].status
    ensures r.store.txs[id] == L.txs[id].(paymentUrl := Some(simUrl), transactionReference := Some("SIM-" + Decimal(d.simClock)))
    ensures r.response.success && r.response.httpStatus == 200 && r.response.status == Some(PENDING)
    ensures r.response.paymentUrl == Some(simUrl)
    ensures r.response.transactionReference.Some? && StartsWith(r.response.transactionReference.value, "SIM-")
  {
    var stored := "SIM-" + Decimal(d.simClock);
    var answered := "SIM-" + Decimal(d.simClockAgain);
    assert stored[..4] == "SIM-" && answered[..4] == "SIM-";
    var w := UpdatePg(L, id, [SetPaymentUrl(Some(simUrl)), SetTransactionReference(Some(stored))], d.later);
    UpdatePgLinks(L, id, Some(simUrl), Some(stored), d.later);
    RouteResult(w.store, Response(200, true, "Payment initiated (sandbox mode)", Some(id), Some(orderRef),
                                  Some(answered), Some(simUrl), Some(PENDING), None), None)
  }

  /** The gateway phase of standard checkout, for the reply `makeRequest` produced. */
  function StandardBranch(L: Store, id: string, orderRef: string, reply: SmilePayClient.GatewayReply,
                          simUrl: string, d: Draws): (r: RouteResult)
    requires id in L.txs
    ensures r.request.None?
    ensures OnlyRecordChanged(L, r.store, id) && SameOrder(L.txs[id], r.store.txs[id])
    ensures r.response.transactionId == Some(id) && r.response.orderReference == Some(orderRef)
    ensures Accepted(reply) ==>
      && r.store.txs[id].paymentUrl == reply.paymentUrl
      && r.store.txs[id].transactionReference == reply.transactionReference
      && r.store.txs[id].status == L.txs[id].status
      && r.store.txs[id] == L.txs[id].(paymentUrl := reply.paymentUrl, transactionReference := reply.transactionReference)
      && r.response.success && r.response.status == Some(PENDING)
      && r.response.paymentUrl == reply.paymentUrl
      && r.response.transactionReference == reply.transactionReference
    ensures reply.Replied? && !Accepted(reply) ==>
      && r.store.txs[id].status == FAILED
      && r.store.txs[id] == L.txs[id].(status := FAILED)
      && !r.response.success && r.response.httpStatus == 200 && r.response.status == Some(FAILED)
      && r.response.message == MessageOr(reply.statusMessage, "Failed to initiate payment")
    ensures reply.Threw? ==> r == SandboxFallback(L, id, orderRef, simUrl, d)
  {
    match reply
    case Threw => SandboxFallback(L, id, orderRef, simUrl, d)
    case Replied(code, msg, url, ref, _) =>
      if code == Some("200") || Truthy(url) then
        var w := UpdatePg(L, id, [SetPaymentUrl(url), SetTransactionReference(ref)], d.later);
        UpdatePgLinks(L, id, url, ref, d.later);
        RouteResult(w.store, Response(200, true, "Payment initiated successfully", Some(id), Some(orderRef),
                                      ref, url, Some(PENDING), None), None)
      else
        var w := UpdatePg(L, id, [SetStatus(FAILED)], d.later);
        UpdatePgStatus(L, id, FAILED, d.later);
        RouteResult(w.store, Response(200, false, MessageOr(msg, "Failed to initiate payment"), Some(id),
                                      Some(orderRef), None, None, Some(FAILED), None), None)
  }

  /**
   * Standard checkout after validation: create the record under the
   * request's id, then run the gateway phase on it. Every other record is
   * left as it was.
   */
  function StandardAdmit(L: Store, data: NewTransaction, orderRef: string, reply: SmilePayClient.GatewayReply,
                         simUrl: string, d: Draws): (r: RouteResult)
    ensures var id := TransactionId(d);
      && id in r.store.txs && r.store.txs.Keys == L.txs.Keys + {id}
      && (forall k :: k in L.txs && k != id ==> r.store.txs[k] == L.txs[k])
      && r.store.merchants == L.merchants && r.store.logs == L.logs
      && r.store.txs[id].orderReference == data.orderReference
      && r.store.txs[id].merchantId == data.merchantId && r.store.txs[id].amount == data.amount
      && r.response.transactionId == Some(id) && r.response.orderReference == Some(orderRef)
    ensures var created := Create(L, data, TransactionId(d), d.now);
      r == StandardBranch(created.store, TransactionId(d), orderRef, reply, simUrl, d)
  {
    var id := TransactionId(d);
    var created := Create(L, data, id, d.now);
    var b := StandardBranch(created.store, id, orderRef, reply, simUrl, d);
    assert created.store.txs.Keys == L.txs.Keys + {id};
    assert b.store.txs.Keys == created.store.txs.Keys;
    b
  }

  /** After validation: create the record, then run the chosen checkout. */
  function Admit(L: Store, req: InitiateRequest, merchant: Merchant, client: SmilePayClient.Client,
                 transport: SmilePayClient.GatewayReply, baseUrlEnv: Option<string>, d: Draws): (r: RouteResult)
    requires HasRequiredFields(req)
    ensures var id := TransactionId(d);
      && id in r.store.txs
      && r.store.txs.Keys == L.txs.Keys + {id}
      && (forall k :: k in L.txs && k != id ==> r.store.txs[k] == L.txs[k])
      && r.store.merchants == L.merchants && r.store.logs == L.logs
      && r.store.txs[id].orderReference == OrderReferenceFor(req.orderReference, d)
      && r.store.txs[id].merchantId == merchant.id
      && r.store.txs[id].amount == req.amount.value
      && r.response.transactionId == Some(id)
      && r.response.orderReference == Some(OrderReferenceFor(req.orderReference, d))
    ensures req.checkoutType != Some("standard") ==>
      && r.request.None?
      && r.store.txs[TransactionId(d)].status == PENDING
      && r.response.success && r.response.status == Some(PENDING)
    ensures req.checkoutType == Some("standard") ==>
      var orderRef := OrderReferenceFor(req.orderReference, d);
      var reply := SmilePayClient.MakeRequest(client, SmilePayClient.STANDARD_ENDPOINT, transport).reply;
      var e := StandardAdmit(L, NewTransactionFor(req, merchant, orderRef), orderRef, reply,
                             SimulatedPaymentUrl(baseUrlEnv, orderRef), d);
      && r.request == Some(StandardRequestFor(req, orderRef))
      && r.store == e.store && r.response == e.response
  {
    var orderRef := OrderReferenceFor(req.orderReference, d);
    var id := TransactionId(d);
    var data := NewTransactionFor(req, merchant, orderRef);
    if req.checkoutType == Some("standard") then
      var reply := SmilePayClient.MakeRequest(client, SmilePayClient.STANDARD_ENDPOINT, transport).reply;
      var e := StandardAdmit(L, data, orderRef, reply, SimulatedPaymentUrl(baseUrlEnv, orderRef), d);
      RouteResult(e.store, e.response, Some(StandardRequestFor(req, orderRef)))
    else
      var created := Create(L, data, id, d.now);
      RouteResult(created.store, Response(200, true, "Transaction created. Select payment method to continue.",
                                          Some(id), Some(orderRef), None, None, Some(PENDING), None), None)
  }

  /**
   * The handler. `client` is the configured gateway client, `transport` what
   * the gateway would answer, `baseUrlEnv` the `NEXT_PUBLIC_BASE_URL` setting.
   */
  function Initiate(L: Store, req: InitiateRequest, client: SmilePayClient.Client,
                    transport: SmilePayClient.GatewayReply, baseUrlEnv: Option<string>, d: Draws): (r: RouteResult)
    ensures !HasRequiredFields(req) ==> r == Untouched(L, Refusal(400, MISSING_FIELDS))
    ensures HasRequiredFields(req) && !CustomerComplete(req.customer.value) ==>
      r == Untouched(L, Refusal(400, MISSING_CUSTOMER))
    ensures Admissible(req) && DefaultMerchant(L).None? ==> r == Untouched(L, Refusal(404, MERCHANT_NOT_FOUND))
    ensures Admissible(req) && DefaultMerchant(L).Some? ==>
      r == Admit(L, req, DefaultMerchant(L).value, client, transport, baseUrlEnv, d)
    ensures r.response.httpStatus == 400 <==> !Admissible(req)
  {
    if !HasRequiredFields(req) then Untouched(L, Refusal(400, MISSING_FIELDS))
    else if !CustomerComplete(req.customer.value) then Untouched(L, Refusal(400, MISSING_CUSTOMER))
    else
      match DefaultMerchant(L)
      case None => Untouched(L, Refusal(404, MERCHANT_NOT_FOUND))
      case Some(merchant) => Admit(L, req, merchant, client, transport, baseUrlEnv, d)
  }

  /**
   * Standard checkout, end to end: the stored record and the answer for each
   * gateway outcome (a client without credentials counts as a throw).
   */
  lemma StandardCheckoutOutcomes(L: Store, req: InitiateRequest, client: SmilePayClient.Client,
                                 transport: SmilePayClient.GatewayReply, baseUrlEnv: Option<string>, d: Draws)
    requires Admissible(req) && DefaultMerchant(L).Some? && req.checkoutType == Some("standard")
    ensures var r := Initiate(L, req, client, transport, baseUrlEnv, d);
      var t := r.store.txs[TransactionId(d)];
      var reply := SmilePayClient.MakeRequest(client, SmilePayClient.STANDARD_ENDPOINT, transport).reply;
      var orderRef := OrderReferenceFor(req.orderReference, d);
      && (Accepted(reply) ==>
            t.status == PENDING && t.paymentUrl == reply.paymentUrl
            && t.transactionReference == reply.transactionReference
            && r.response.success && r.response.status == Some(PENDING))
      && (reply.Replied? && !Accepted(reply) ==>
            t.status == FAILED && !r.response.success && r.response.status == Some(FAILED)
            && r.response.message == MessageOr(reply.statusMessage, "Failed to initiate payment"))
      && (reply.Threw? ==>
            t.status == PENDING && t.paymentUrl == Some(SimulatedPaymentUrl(baseUrlEnv, orderRef))
            && t.transactionReference.Some? && StartsWith(t.transactionReference.value, "SIM-")
            && r.response.success && r.response.status == Some(PENDING))
      && (!SmilePayClient.HasCredentials(client) ==> reply.Threw?)
  {
  }
}

=== FILE: mock_store.dfy ===
/**
 * The in-memory ledger: transactions keyed by id (iterated in insertion order,
 * as a JavaScript `Map` is), merchants, the payment-method catalogue and the
 * webhook log, with the store operations of the in-memory database.
 */
module MockStore {
  import opened Options
  import opened Text
  import opened Domain
  import opened Sorting

  datatype Store = Store(
    merchants: seq<Merchant>,
    txs: map<string, Transaction>,
    /** Insertion order of the transaction ids: the `Map` iteration order. */
    order: seq<string>,
    methods: seq<PaymentMethod>,
    logs: seq<WebhookLog>)

  /** `order` lists every key of `txs` exactly once. */
  predicate Valid(L: Store) {
    && (forall i, j :: 0 <= i < j < |L.order| ==> L.order[i] != L.order[j])
    && (forall i :: 0 <= i < |L.order| ==> L.order[i] in L.txs)
    && (forall k :: k in L.txs ==> k in L.order)
  }

  /** Every record is stored under its own id. */
  predicate IdsMatchKeys(L: Store) {
    forall k :: k in L.txs ==> L.txs[k].id == k
  }

  predicate Good(L: Store) {
    Valid(L) && IdsMatchKeys(L)
  }

  /** The records of `txs` for `ids`, in that order (ids without a record are skipped). */
  function RecordsOf(txs: map<string, Transaction>, ids: seq<string>): (r: seq<Transaction>)
    ensures |r| <= |ids|
    ensures forall i :: 0 <= i < |r| ==> r[i] in txs.Values
    ensures (forall i :: 0 <= i < |ids| ==> ids[i] in txs) ==>
      |r| == |ids| && forall i :: 0 <= i < |ids| ==> r[i] == txs[ids[i]]
    decreases |ids|
  {
    if |ids| == 0 then []
    else if ids[0] in txs then [txs[ids[0]]] + RecordsOf(txs, ids[1..])
    else RecordsOf(txs, ids[1..])
  }

  /** `Array.from(transactions.values())`. */
  function Records(L: Store): seq<Transaction> {
    RecordsOf(L.txs, L.order)
  }

  /** In a valid store the iteration visits every record and nothing else. */
  lemma RecordsCover(L: Store)
    requires Valid(L)
    ensures |Records(L)| == |L.order|
    ensures forall i :: 0 <= i < |L.order| ==> Records(L)[i] == L.txs[L.order[i]]
    ensures forall k :: k in L.txs ==> L.txs[k] in Records(L)
    ensures forall t :: t in Records(L) <==> t in L.txs.Values
  {
    forall k | k in L.txs
      ensures L.txs[k] in Records(L)
    {
      var i :| 0 <= i < |L.order| && L.order[i] == k;
      assert Records(L)[i] == L.txs[k];
    }
  }

  lemma RecordsCoverWhenValid(L: Store)
    ensures Valid(L) ==> forall t :: t in Records(L) <==> t in L.txs.Values
    ensures Valid(L) ==> forall i :: 0 <= i < |L.order| ==> |Records(L)| == |L.order| && Records(L)[i] == L.txs[L.order[i]]
  {
    if Valid(L) {
      RecordsCover(L);
    }
  }

  /** In a well-formed store no record is listed twice. */
  lemma RecordsDistinct(L: Store)
    requires Good(L)
    ensures forall i, j :: 0 <= i < j < |Records(L)| ==> Records(L)[i] != Records(L)[j]
  {
    RecordsCover(L);
    forall i, j | 0 <= i < j < |Records(L)|
      ensures Records(L)[i] != Records(L)[j]
    {
      assert Records(L)[i].id == L.order[i] && Records(L)[j].id == L.order[j];
    }
  }

  /** `merchants.findAll()[0]`: the merchant every route works for. */
  function DefaultMerchant(L: Store): (r: Option<Merchant>)
    ensures r.Some? <==> |L.merchants| > 0
  {
    if |L.merchants| == 0 then None else Some(L.merchants[0])
  }

  // ---------------------------------------------------------------------------
  // Lookup by order reference
  // ---------------------------------------------------------------------------

  /** Position of the first record carrying `ref`. */
  function FirstWithReference(s: seq<Transaction>, ref: string): (r: Option<nat>)
    ensures r.Some? ==> r.value < |s| && s[r.value].orderReference == ref
    ensures r.Some? ==> forall j :: 0 <= j < r.value ==> s[j].orderReference != ref
    ensures r.None? ==> forall j :: 0 <= j < |s| ==> s[j].orderReference != ref
    decreases |s|
  {
    if |s| == 0 then None
    else if s[0].orderReference == ref then Some(0)
    else match FirstWithReference(s[1..], ref)
      case None => None
      case Some(i) => Some(i + 1)
  }

  /** `transactions.findByOrderReference`: the first record, in insertion order, with that reference. */
  function FindByOrderReference(L: Store, ref: string): (r: Option<Transaction>)
    ensures r.Some? ==> r.value.orderReference == ref && r.value in L.txs.Values
    ensures Valid(L) && r.None? ==> forall k :: k in L.txs ==> L.txs[k].orderReference != ref
    ensures Valid(L) && r.Some? ==>
      exists i :: 0 <= i < |L.order| && L.txs[L.order[i]] == r.value
        && forall j :: 0 <= j < i ==> L.txs[L.order[j]].orderReference != ref
  {
    RecordsCoverWhenValid(L);
    match FirstWithReference(Records(L), ref)
    case None => None
    case Some(i) => Some(Records(L)[i])
  }
  /** The first match depends only on the references, position by position. */
  lemma {:induction false} FirstWithReferenceByReferences(s: seq<Transaction>, s': seq<Transaction>, ref: string)
    requires |s| == |s'| && forall i :: 0 <= i < |s| ==> s[i].orderReference == s'[i].orderReference
    ensures FirstWithReference(s, ref) == FirstWithReference(s', ref)
    decreases |s|
  {
    if |s| > 0 && s[0].orderReference != ref {
      FirstWithReferenceByReferences(s[1..], s'[1..], ref);
    }
  }

  /** Rewriting an existing record keeps the store valid: the ids and their order do not change. */
  lemma RowChangeKeepsValid(L: Store, k: string, u: Transaction)
    requires Valid(L) && k in L.txs
    ensures Valid(L.(txs := L.txs[k := u]))
  {
    var L' := L.(txs := L.txs[k := u]);
    assert forall i :: 0 <= i < |L.order| ==> L.order[i] in L'.txs;
    assert forall key :: key in L'.txs ==> key in L.txs;
  }

  /** Replacing one value of the map replaces it in the listing and nowhere else. */
  lemma RecordsOfRowChange(txs: map<string, Transaction>, ids: seq<string>, k: string, u: Transaction)
    requires k in txs && forall i :: 0 <= i < |ids| ==> ids[i] in txs
    ensures var s, s' := RecordsOf(txs, ids), RecordsOf(txs[k := u], ids);
      && |s| == |s'| == |ids|
      && forall i :: 0 <= i < |ids| ==> s[i] == txs[ids[i]] && s'[i] == (if ids[i] == k then u else s[i])
  {
    assert forall i :: 0 <= i < |ids| ==> ids[i] in txs[k := u];
  }

  /** Rewriting an existing record keeps the iteration order: the same ids, one value replaced. */
  lemma RowChangeRecords(L: Store, k: string, u: Transaction)
    requires Valid(L) && k in L.txs
    ensures var L' := L.(txs := L.txs[k := u]);
      && Valid(L') && |Records(L')| == |Records(L)| == |L.order|
      && (forall i :: 0 <= i < |L.order| ==> Records(L)[i] == L.txs[L.order[i]])
      && (forall i :: 0 <= i < |L.order| ==>
           Records(L')[i] == (if L.order[i] == k then u else Records(L)[i]))
  {
    RowChangeKeepsValid(L, k, u);
    RecordsOfRowChange(L.txs, L.order, k, u);
  }

  /**
   * Rewriting one record without changing its reference leaves the lookup
   * pointing at the same place: the rewritten record if it was the match,
   * otherwise the old match.
   */
  lemma FindAfterRowChange(L: Store, k: string, u: Transaction, ref: string)
    requires Good(L) && k in L.txs && u.id == k && u.orderReference == L.txs[k].orderReference
    ensures var L' := L.(txs := L.txs[k := u]);
      FindByOrderReference(L', ref) ==
        match FindByOrderReference(L, ref)
        case None => None
        case Some(t) => Some(if t.id == k then u else t)
  {
    var L' := L.(txs := L.txs[k := u]);
    RowChangeRecords(L, k, u);
    var s, s' := Records(L), Records(L');
    assert forall i :: 0 <= i < |s| ==> s[i].orderReference == s'[i].orderReference by {
      forall i | 0 <= i < |s|
        ensures s[i].orderReference == s'[i].orderReference
      {
        assert s[i] == L.txs[L.order[i]];
      }
    }
    FirstWithReferenceByReferences(s, s', ref);
    match FirstWithReference(s, ref)
    case None =>
      assert FindByOrderReference(L, ref) == None;
      assert FindByOrderReference(L', ref) == None;
    case Some(i) =>
      assert FindByOrderReference(L, ref) == Some(s[i]);
      assert FindByOrderReference(L', ref) == Some(s'[i]);
      assert s[i] == L.txs[L.order[i]];
      assert s[i].id == L.order[i];
  }



  /** A record the lookup finds is stored under its own id. */
  lemma FoundIsStored(L: Store, ref: string)
    requires Good(L) && FindByOrderReference(L, ref).Some?
    ensures var t := FindByOrderReference(L, ref).value;
      t.id in L.txs && L.txs[t.id] == t && t.orderReference == ref
  {
    var t := FindByOrderReference(L, ref).value;
    var k :| k in L.txs && L.txs[k] == t;
    assert t.id == k;
  }

  /** Rewriting one record under its own id keeps the store well formed. */
  lemma RowChangeKeepsGood(L: Store, k: string, u: Transaction)
    requires Good(L) && k in L.txs && u.id == k
    ensures Good(L.(txs := L.txs[k := u]))
  {
    var L' := L.(txs := L.txs[k := u]);
    assert forall i :: 0 <= i < |L.order| ==> L.order[i] in L'.txs;
    assert forall key :: key in L'.txs ==> key in L.txs;
  }

  /** Under the store invariant, lookup finds a record iff some record has the reference. */
  lemma FindByOrderReferenceComplete(L: Store, ref: string)
    requires Valid(L)
    ensures FindByOrderReference(L, ref).Some? <==> exists k :: k in L.txs && L.txs[k].orderReference == ref
  {
  }

  // ---------------------------------------------------------------------------
  // Create
  // ---------------------------------------------------------------------------

  /** The argument of `transactions.create`; absent optional keys are `None`. */
  datatype NewTransaction = NewTransaction(
    merchantId: string,
    orderReference: string,
    amount: real,
    currencyCode: string,
    customer: CustomerDetails,
    returnUrl: string,
    resultUrl: string,
    cancelUrl: Option<string>,
    failureUrl: Option<string>,
    paymentMethod: Option<PaymentMethodCode>)

  /** `x || null` for an optional string: absent and empty both become null. */
  function OrNull(o: Option<string>): (r: Option<string>)
    ensures r.Some? <==> o.Some? && o.value != ""
    ensures r.Some? ==> r == o
  {
    if o.Some? && o.value != "" then o else None
  }

  /** The record `create` builds, with `id` and the clock reading passed in. */
  function NewRecord(data: NewTransaction, id: string, now: int): Transaction {
    Transaction(
      id, data.merchantId, data.orderReference, None, data.amount, data.currencyCode,
      data.paymentMethod, PENDING, data.customer, None, data.returnUrl, data.resultUrl,
      OrNull(data.cancelUrl), OrNull(data.failureUrl), now, now, None)
  }

  datatype Created = Created(store: Store, record: Transaction)

  /** `transactions.create`: a fresh PENDING record stored under `id`. */
  function Create(L: Store, data: NewTransaction, id: string, now: int): (r: Created)
    ensures r.record.id == id && r.record.status == PENDING
    ensures r.record.orderReference == data.orderReference && r.record.merchantId == data.merchantId
    ensures r.record.amount == data.amount && r.record.currencyCode == data.currencyCode
    ensures r.record.customer == data.customer && r.record.paymentMethod == data.paymentMethod
    ensures r.record.returnUrl == data.returnUrl && r.record.resultUrl == data.resultUrl
    ensures r.record.transactionReference.None? && r.record.paymentUrl.None? && r.record.paidAt.None?
    ensures r.record.cancelUrl == OrNull(data.cancelUrl) && r.record.failureUrl == OrNull(data.failureUrl)
    ensures r.record.createdAt == now && r.record.updatedAt == now
    ensures r.store.txs == L.txs[id := r.record]
    ensures r.store.merchants == L.merchants && r.store.methods == L.methods && r.store.logs == L.logs
    ensures Valid(L) ==> Valid(r.store)
    ensures IdsMatchKeys(L) ==> IdsMatchKeys(r.store)
    ensures id !in L.txs ==> |r.store.txs| == |L.txs| + 1
    ensures Valid(L) && id !in L.txs ==> Records(r.store) == Records(L) + [r.record]
  {
    var t := NewRecord(data, id, now);
    var store := Insert(L, t);
    InsertKeepsValid(L, t);
    Created(store, t)
  }

  /** `Map.prototype.set`: a new key goes to the end of the order, an existing key keeps its place. */
  function Insert(L: Store, t: Transaction): Store {
    L.(txs := L.txs[t.id := t], order := if t.id in L.txs then L.order else L.order + [t.id])
  }

  lemma InsertKeepsValid(L: Store, t: Transaction)
    ensures Valid(L) ==> Valid(Insert(L, t))
    ensures Valid(L) && t.id !in L.txs ==> Records(Insert(L, t)) == Records(L) + [t]
  {
    if Valid(L) {
      InsertValid(L, t);
      if t.id !in L.txs {
        InsertAppendsRecord(L, t);
      }
    }
  }

  lemma InsertValid(L: Store, t: Transaction)
    requires Valid(L)
    ensures Valid(Insert(L, t))
  {
    var S := Insert(L, t);
    forall k | k in S.txs
      ensures k in S.order
    {
      if k != t.id {
        assert k in L.txs;
      }
    }
  }

  lemma InsertAppendsRecord(L: Store, t: Transaction)
    requires Valid(L) && t.id !in L.txs
    ensures Records(Insert(L, t)) == Records(L) + [t]
  {
    assert t.id !in L.order;
    RecordsOfAppend(L.txs[t.id := t], L.order, t.id);
    RecordsOfFrame(L.txs, L.order, t);
  }

  lemma {:induction false} RecordsOfAppend(txs: map<string, Transaction>, ids: seq<string>, k: string)
    requires k in txs
    ensures RecordsOf(txs, ids + [k]) == RecordsOf(txs, ids) + [txs[k]]
    decreases |ids|
  {
    if |ids| == 0 {
      assert ids + [k] == [k];
    } else {
      assert (ids + [k])[1..] == ids[1..] + [k];
      RecordsOfAppend(txs, ids[1..], k);
    }
  }

  /** Storing a record under a key the order does not list leaves the listing alone. */
  lemma {:induction false} RecordsOfFrame(txs: map<string, Transaction>, ids: seq<string>, t: Transaction)
    requires t.id !in ids
    ensures RecordsOf(txs[t.id := t], ids) == RecordsOf(txs, ids)
    decreases |ids|
  {
    if |ids| > 0 {
      assert ids[0] != t.id;
      RecordsOfFrame(txs, ids[1..], t);
    }
  }

  // ---------------------------------------------------------------------------
  // Update
  // ---------------------------------------------------------------------------

  datatype Written = Written(store: Store, record: Option<Transaction>)

  /** Whether an update stamps `paid_at`: the patch says PAID and nothing was stamped before. */
  predicate StampsPaidAt(old_: Transaction, p: Patch) {
    PatchStatus(p) == Some(PAID) && old_.paidAt.None?
  }

  /**
   * `transactions.update` of the in-memory store: the patch is spread over the
   * record, `updated_at` is refreshed, and `paid_at` is stamped the first time
   * the patch says PAID.
   */
  function Update(L: Store, id: string, p: Patch, now: int): (r: Written)
    ensures id !in L.txs ==> r == Written(L, None)
    ensures id in L.txs ==> r.record.Some? && r.store == L.(txs := L.txs[id := r.record.value])
    ensures id in L.txs ==> r.record.value.updatedAt == now
    ensures id in L.txs && StampsPaidAt(L.txs[id], p) ==> r.record.value.paidAt == Some(now)
    ensures id in L.txs && !StampsPaidAt(L.txs[id], p) && !Carries(p, PaidAt) ==>
      r.record.value.paidAt == L.txs[id].paidAt
    ensures id in L.txs && !StampsPaidAt(L.txs[id], p) ==>
      Get(r.record.value, PaidAt) == LastValue(p, PaidAt).GetOr(Get(L.txs[id], PaidAt))
    ensures Valid(L) ==> Valid(r.store)
    ensures IdsMatchKeys(L) && !Carries(p, Id) ==> IdsMatchKeys(r.store)
  {
    if id !in L.txs then Written(L, None)
    else
      var t := L.txs[id];
      var spread := ApplyPatch(t, p);
      LastValueCarries(p, PaidAt);
      ApplyPatchOverlay(t, p, PaidAt);
      LastValueCarries(p, Id);
      ApplyPatchOverlay(t, p, Id);
      var u := spread.(updatedAt := now);
      var u' := if StampsPaidAt(t, p) then u.(paidAt := Some(now)) else u;
      Written(L.(txs := L.txs[id := u']), Some(u'))
  }

  /** The express routes' `{ transaction_reference }` patch. */
  lemma UpdateReference(L: Store, id: string, ref: Option<string>, now: int)
    requires id in L.txs
    ensures var row := L.txs[id].(transactionReference := ref, updatedAt := now);
      Update(L, id, [SetTransactionReference(ref)], now) == Written(L.(txs := L.txs[id := row]), Some(row))
  {
    var p := [SetTransactionReference(ref)];
    var t := L.txs[id];
    assert p[1..] == [] && p[..0] == [];
    assert LastValue(p, Status) == None;
    assert !StampsPaidAt(t, p);
    assert ApplyPatch(t, p) == ApplyPatch(ApplyEntry(t, p[0]), p[1..]);
  }

  /** The express routes' `{ status }` patch. */
  lemma UpdateStatus(L: Store, id: string, status: TransactionStatus, now: int)
    requires id in L.txs
    ensures var t := L.txs[id];
      var row := t.(status := status, updatedAt := now,
                    paidAt := if status == PAID && t.paidAt.None? then Some(now) else t.paidAt);
      Update(L, id, [SetStatus(status)], now) == Written(L.(txs := L.txs[id := row]), Some(row))
  {
    var p := [SetStatus(status)];
    var t := L.txs[id];
    assert p[1..] == [] && p[..0] == [];
    assert PatchStatus(p) == Some(status);
    assert StampsPaidAt(t, p) <==> status == PAID && t.paidAt.None?;
    assert ApplyPatch(t, p) == ApplyPatch(ApplyEntry(t, p[0]), p[1..]);
  }

  /** Every column other than `updated_at` and `paid_at` is the patch's last value for it, or the old one. */
  lemma UpdateOverlay(L: Store, id: string, p: Patch, now: int, f: Field)
    requires id in L.txs
    requires f != UpdatedAt && f != PaidAt
    ensures Update(L, id, p, now).record.Some?
    ensures Get(Update(L, id, p, now).record.value, f) == LastValue(p, f).GetOr(Get(L.txs[id], f))
  {
    ApplyPatchOverlay(L.txs[id], p, f);
  }

  /** Nothing but the addressed record changes. */
  lemma UpdateFrame(L: Store, id: string, p: Patch, now: int, k: string)
    requires k in L.txs && k != id
    ensures k in Update(L, id, p, now).store.txs
    ensures Update(L, id, p, now).store.txs[k] == L.txs[k]
  {
  }

  /** One step of a run of in-memory updates. */
  datatype UpdateCall = UpdateCall(id: string, patch: Patch, now: int)

  function UpdateAll(L: Store, calls: seq<UpdateCall>): Store
    decreases |calls|
  {
    if |calls| == 0 then L
    else UpdateAll(Update(L, calls[0].id, calls[0].patch, calls[0].now).store, calls[1..])
  }

  /**
   * Once a record carries `paid_at`, no run of updates whose patches leave
   * `paid_at` out ever changes it, whatever statuses they write.
   */
  lemma {:induction false} PaidAtIsStampedOnce(L: Store, calls: seq<UpdateCall>, k: string)
    requires k in L.txs && L.txs[k].paidAt.Some?
    requires forall i :: 0 <= i < |calls| ==> !Carries(calls[i].patch, PaidAt)
    ensures k in UpdateAll(L, calls).txs
    ensures UpdateAll(L, calls).txs[k].paidAt == L.txs[k].paidAt
    decreases |calls|
  {
    if |calls| > 0 {
      var c := calls[0];
      var L1 := Update(L, c.id, c.patch, c.now).store;
      assert k in L1.txs && L1.txs[k].paidAt == L.txs[k].paidAt;
      assert forall i :: 0 <= i < |calls[1..]| ==> calls[1..][i] == calls[i + 1];
      PaidAtIsStampedOnce(L1, calls[1..], k);
    }
  }

  /** `transactions.updateByOrderReference`: update the record lookup finds, or report none. */
  function UpdateByOrderReference(L: Store, ref: string, p: Patch, now: int): (r: Written)
    ensures FindByOrderReference(L, ref).None? ==> r == Written(L, None)
    ensures Good(L) && FindByOrderReference(L, ref).Some? ==>
      r.record.Some? &&
      exists k :: k in L.txs && L.txs[k].orderReference == ref && r.store == L.(txs := L.txs[k := r.record.value])
    ensures Good(L) ==> (r.record.Some? <==> exists k :: k in L.txs && L.txs[k].orderReference == ref)
    ensures FindByOrderReference(L, ref).Some? ==> r == Update(L, FindByOrderReference(L, ref).value.id, p, now)
  {
    match FindByOrderReference(L, ref)
    case None => Written(L, None)
    case Some(t) =>
      if Good(L) then
        var k :| k in L.txs && L.txs[k] == t;
        assert t.id == k;
        Update(L, t.id, p, now)
      else
        Update(L, t.id, p, now)
  }

  // ---------------------------------------------------------------------------
  // Listings
  // ---------------------------------------------------------------------------

  /** The optional filters of the listing operations; `None` is an absent (falsy) filter. */
  datatype Filters = Filters(
    status: Option<TransactionStatus>,
    paymentMethod: Option<PaymentMethodCode>,
    startDate: Option<int>,
    endDate: Option<int>)

  /** Equality on status and method, inclusive bounds on `created_at`. */
  predicate Matches(f: Filters, t: Transaction) {
    && (f.status.None? || t.status == f.status.value)
    && (f.paymentMethod.None? || t.paymentMethod == f.paymentMethod)
    && (f.startDate.None? || t.createdAt >= f.startDate.value)
    && (f.endDate.None? || t.createdAt <= f.endDate.value)
  }

  /** The filter tests of the listings and the statistics. */
  function Passes(f: Filters): Transaction -> bool {
    (t: Transaction) => Matches(f, t)
  }

  function PassesFor(merchantId: string, f: Filters): Transaction -> bool {
    (t: Transaction) => t.merchantId == merchantId && Matches(f, t)
  }

  function OfMerchant(merchantId: string): Transaction -> bool {
    (t: Transaction) => t.merchantId == merchantId
  }

  function HasStatus(st: TransactionStatus): Transaction -> bool {
    (t: Transaction) => t.status == st
  }

  function CreatedKey(t: Transaction): int {
    t.createdAt
  }

  /** The records that pass the filters, in insertion order. */
  function Matching(L: Store, f: Filters): (r: seq<Transaction>)
    ensures Subsequence(r, Records(L)) && CopiesKept(r, Records(L), Passes(f))
    ensures forall i :: 0 <= i < |r| ==> r[i] in L.txs.Values && Matches(f, r[i])
    ensures Valid(L) ==> forall k :: k in L.txs && Matches(f, L.txs[k]) ==> L.txs[k] in r
  {
    RecordsCoverWhenValid(L);
    Filter(Records(L), Passes(f))
  }

  /** `transactions.findAll`: the matching records, newest first. */
  function FindAll(L: Store, f: Filters): (r: seq<Transaction>)
    ensures SortedDesc(r, CreatedKey)
    ensures multiset(r) == multiset(Matching(L, f))
    ensures forall i :: 0 <= i < |r| ==> r[i] in L.txs.Values && Matches(f, r[i])
    ensures Valid(L) ==> forall k :: k in L.txs && Matches(f, L.txs[k]) ==> L.txs[k] in r
  {
    SortDescMembers(Matching(L, f), CreatedKey);
    SortDesc(Matching(L, f), CreatedKey)
  }

  /** The records of one merchant that pass the filters, in insertion order. */
  function MerchantMatching(L: Store, merchantId: string, f: Filters): (r: seq<Transaction>)
    ensures Subsequence(r, Records(L))
    ensures CopiesKept(r, Records(L), PassesFor(merchantId, f))
    ensures forall i :: 0 <= i < |r| ==> r[i] in L.txs.Values && r[i].merchantId == merchantId && Matches(f, r[i])
    ensures Valid(L) ==> forall k :: k in L.txs && L.txs[k].merchantId == merchantId && Matches(f, L.txs[k]) ==> L.txs[k] in r
  {
    RecordsCoverWhenValid(L);
    Filter(Records(L), PassesFor(merchantId, f))
  }

  /** `transactions.findByMerchant`: as `findAll`, restricted to one merchant. */
  function FindByMerchant(L: Store, merchantId: string, f: Filters): (r: seq<Transaction>)
    ensures SortedDesc(r, CreatedKey)
    ensures multiset(r) == multiset(MerchantMatching(L, merchantId, f))
    ensures forall i :: 0 <= i < |r| ==> r[i] in L.txs.Values && r[i].merchantId == merchantId && Matches(f, r[i])
    ensures Valid(L) ==> forall k :: k in L.txs && L.txs[k].merchantId == merchantId && Matches(f, L.txs[k]) ==> L.txs[k] in r
  {
    SortDescMembers(MerchantMatching(L, merchantId, f), CreatedKey);
    SortDesc(MerchantMatching(L, merchantId, f), CreatedKey)
  }

  // ---------------------------------------------------------------------------
  // Webhook log
  // ---------------------------------------------------------------------------

  /** The argument of `webhookLogs.create`. */
  datatype NewLog = NewLog(transactionId: string, payload: LogPayload, response: Option<LogResponse>, statusCode: Option<int>)

  /** `wh_<ms>`: the id a log entry is stored under. */
  function LogId(now: nat): string {
    "wh_" + Decimal(now)
  }

  /** The row `webhookLogs.create` builds for `data` at `now`: a zero status code becomes null. */
  predicate Describes(log: WebhookLog, data: NewLog, now: nat) {
    && log.id == LogId(now) && log.transactionId == data.transactionId && log.payload == data.payload
    && log.response == data.response && log.createdAt == now
    && (log.statusCode.Some? <==> data.statusCode.Some? && data.statusCode.value != 0)
    && (log.statusCode.Some? ==> log.statusCode == data.statusCode)
  }

  function LogEntry(data: NewLog, now: nat): (log: WebhookLog)
    ensures Describes(log, data, now)
  {
    var code := if data.statusCode == Some(0) then None else data.statusCode;
    WebhookLog(LogId(now), data.transactionId, data.payload, data.response, code, now)
  }

  /** Some entry is stored under `id`. */
  predicate HasLogId(logs: seq<WebhookLog>, id: string) {
    exists i :: 0 <= i < |logs| && logs[i].id == id
  }

  /** `after` is `before` with `log` added at the end. */
  predicate Appended(before: seq<WebhookLog>, after: seq<WebhookLog>, log: WebhookLog) {
    |after| == |before| + 1 && after[..|before|] == before && after[|before|] == log
  }

  /** Adding an entry under another id leaves an id that was free still free. */
  lemma StillFreeAfterAppend(before: seq<WebhookLog>, after: seq<WebhookLog>, id: string)
    requires |after| == |before| + 1 && after[..|before|] == before && after[|before|].id != id
    requires !HasLogId(before, id)
    ensures !HasLogId(after, id)
  {
    forall i | 0 <= i < |before|
      ensures after[i].id != id
    {
      assert after[i] == after[..|before|][i];
    }
  }

  /** Entries of different milliseconds never share an id. */
  lemma LogIdInjective(m: nat, n: nat)
    requires m != n
    ensures LogId(m) != LogId(n)
  {
    if LogId(m) == LogId(n) {
      assert Decimal(m) == LogId(m)[3..] == LogId(n)[3..] == Decimal(n);
      ToRadixInjective(m, n, 10);
    }
  }

  /** The position of the first entry stored under `id`, or the end when there is none. */
  function LogSlot(logs: seq<WebhookLog>, id: string): (p: nat)
    ensures p <= |logs|
    ensures p < |logs| <==> HasLogId(logs, id)
    ensures p < |logs| ==> logs[p].id == id
    ensures forall j :: 0 <= j < p ==> logs[j].id != id
  {
    if |logs| == 0 then 0
    else if logs[0].id == id then 0
    else 1 + LogSlot(logs[1..], id)
  }

  /** `after` is `before` with position `p` written: replaced in place, or appended when `p` is the end. */
  predicate SlotWritten(before: seq<WebhookLog>, after: seq<WebhookLog>, p: nat) {
    && p <= |before|
    && |after| == (if p == |before| then |before| + 1 else |before|)
    && forall i :: 0 <= i < |before| && i != p ==> after[i] == before[i]
  }

  /**
   * `webhookLogs.create`: the entry is stored under `wh_<ms>` in a `Map`, so
   * it is appended, unless an entry of the same millisecond is already
   * there, which it replaces in its place. A zero status code is stored as null.
   */
  function CreateLog(L: Store, data: NewLog, now: nat): (r: Store)
    ensures var p := LogSlot(L.logs, LogId(now));
      SlotWritten(L.logs, r.logs, p) && Describes(r.logs[p], data, now)
    ensures r.txs == L.txs && r.order == L.order && r.merchants == L.merchants && r.methods == L.methods
  {
    var log := LogEntry(data, now);
    var p := LogSlot(L.logs, LogId(now));
    if p == |L.logs| then L.(logs := L.logs + [log]) else L.(logs := L.logs[p := log])
  }

  /** With no entry of that millisecond yet, the new entry goes at the end and nothing else moves. */
  lemma CreateLogAppendsWhenFresh(L: Store, data: NewLog, now: nat)
    requires !HasLogId(L.logs, LogId(now))
    ensures var r := CreateLog(L, data, now);
      Appended(L.logs, r.logs, LogEntry(data, now))
  {
    var r := CreateLog(L, data, now);
    assert LogSlot(L.logs, LogId(now)) == |L.logs|;
    assert r.logs[..|L.logs|] == L.logs;
  }

  /** A second entry in the same millisecond overwrites the first: the log does not grow. */
  lemma SameMillisecondLogsCollide(L: Store, a: NewLog, b: NewLog, now: nat)
    ensures var once := CreateLog(L, a, now);
      var twice := CreateLog(once, b, now);
      && |twice.logs| == |once.logs|
      && twice.logs[LogSlot(once.logs, LogId(now))].transactionId == b.transactionId
  {
    var once := CreateLog(L, a, now);
    var p := LogSlot(L.logs, LogId(now));
    assert once.logs[p].id == LogId(now);
    assert LogSlot(once.logs, LogId(now)) <= p;
  }

  function LogCreatedKey(w: WebhookLog): int {
    w.createdAt
  }

  /** The filter test of `webhookLogs.findByTransactionId`. */
  function OfTransaction(transactionId: string): WebhookLog -> bool {
    (w: WebhookLog) => w.transactionId == transactionId
  }

  /** `webhookLogs.findByTransactionId`: that transaction's entries, newest first. */
  function FindLogsByTransactionId(L: Store, transactionId: string): (r: seq<WebhookLog>)
    ensures SortedDesc(r, LogCreatedKey)
    ensures CopiesKept(r, L.logs, OfTransaction(transactionId))
    ensures forall i :: 0 <= i < |r| ==> r[i] in L.logs && r[i].transactionId == transactionId
    ensures forall i :: 0 <= i < |L.logs| && L.logs[i].transactionId == transactionId ==> L.logs[i] in r
  {
    var kept := Filter(L.logs, OfTransaction(transactionId));
    SortDescMembers(kept, LogCreatedKey);
    CopiesKeptPermuted(SortDesc(kept, LogCreatedKey), kept, L.logs, OfTransaction(transactionId));
    SortDesc(kept, LogCreatedKey)
  }

  // ---------------------------------------------------------------------------
  // Catalogue, statistics, seed data
  // ---------------------------------------------------------------------------

  function IsActive(m: PaymentMethod): bool {
    m.isActive
  }

  /** `paymentMethods.findActive`: the active entries in catalogue order. */
  function FindActive(L: Store): (r: seq<PaymentMethod>)
    ensures Subsequence(r, L.methods) && CopiesKept(r, L.methods, IsActive)
    ensures forall i :: 0 <= i < |r| ==> r[i].isActive && r[i] in L.methods
    ensures forall i :: 0 <= i < |L.methods| && L.methods[i].isActive ==> L.methods[i] in r
  {
    Filter(L.methods, IsActive)
  }

  function CountStatus(s: seq<Transaction>, st: TransactionStatus): (n: nat)
    ensures n <= |s|
  {
    if |s| == 0 then 0
    else (if s[0].status == st then 1 else 0) + CountStatus(s[1..], st)
  }

  function SumPaid(s: seq<Transaction>): real {
    if |s| == 0 then 0.0
    else (if s[0].status == PAID then s[0].amount else 0.0) + SumPaid(s[1..])
  }

  /** Every record has exactly one of the four statuses. */
  lemma {:induction false} StatusCountsPartition(s: seq<Transaction>)
    ensures CountStatus(s, PENDING) + CountStatus(s, PAID) + CountStatus(s, FAILED) + CountStatus(s, CANCELLED) == |s|
  {
    if |s| > 0 {
      StatusCountsPartition(s[1..]);
    }
  }

  /** Only PAID records contribute to the amount. */
  lemma {:induction false} SumPaidIgnoresOthers(s: seq<Transaction>)
    requires forall i :: 0 <= i < |s| ==> s[i].status != PAID
    ensures SumPaid(s) == 0.0
  {
    if |s| > 0 {
      SumPaidIgnoresOthers(s[1..]);
    }
  }

  /** Counting one status is the length of the listing filtered on it. */
  lemma {:induction false} CountStatusIsFilterLength(s: seq<Transaction>, st: TransactionStatus)
    ensures CountStatus(s, st) == |Filter(s, HasStatus(st))|
  {
    if |s| > 0 {
      CountStatusIsFilterLength(s[1..], st);
    }
  }

  /** A record added at the end adds one to its own status's count and its amount to the PAID total. */
  lemma {:induction false} CountsOfAppend(s: seq<Transaction>, t: Transaction, st: TransactionStatus)
    ensures CountStatus(s + [t], st) == CountStatus(s, st) + (if t.status == st then 1 else 0)
    ensures SumPaid(s + [t]) == SumPaid(s) + (if t.status == PAID then t.amount else 0.0)
  {
    if |s| > 0 {
      assert (s + [t])[1..] == s[1..] + [t];
      CountsOfAppend(s[1..], t, st);
    } else {
      assert [t][1..] == [];
    }
  }

  datatype Overview = Overview(totalTransactions: nat, totalAmount: real, paidTransactions: nat,
                               pendingTransactions: nat, failedTransactions: nat)

  /** The records the statistics cover: one merchant's, or all when `merchantId` is empty (falsy). */
  function Scope(L: Store, merchantId: string): seq<Transaction> {
    if merchantId != "" then Filter(Records(L), OfMerchant(merchantId)) else Records(L)
  }

  /** `stats.getOverview`: counts and the PAID total, over one merchant when `merchantId` is non-empty. */
  function GetOverview(L: Store, merchantId: string): (r: Overview)
    ensures var scope := Scope(L, merchantId);
      && r.totalTransactions == |scope|
      && r.paidTransactions == CountStatus(scope, PAID)
      && r.pendingTransactions == CountStatus(scope, PENDING)
      && r.failedTransactions == CountStatus(scope, FAILED)
      && r.paidTransactions + r.pendingTransactions + r.failedTransactions + CountStatus(scope, CANCELLED)
         == r.totalTransactions
      && r.totalAmount == SumPaid(scope)
  {
    var scope := Scope(L, merchantId);
    StatusCountsPartition(scope);
    Overview(|scope|, SumPaid(scope), CountStatus(scope, PAID), CountStatus(scope, PENDING), CountStatus(scope, FAILED))
  }

  /** A record added at the end of the iteration joins every scope it belongs to, at the end. */
  lemma ScopeOfAppended(L: Store, L2: Store, t: Transaction, merchantId: string)
    requires Records(L2) == Records(L) + [t]
    ensures Scope(L2, merchantId) == Scope(L, merchantId) + (if merchantId == "" || t.merchantId == merchantId then [t] else [])
  {
    if merchantId != "" {
      var keep := OfMerchant(merchantId);
      assert Scope(L2, merchantId) == Filter(Records(L) + [t], keep);
      FilterAppend(Records(L), [t], keep);
      assert [t][1..] == [];
      assert Filter([t], keep) == (if t.merchantId == merchantId then [t] else []);
    }
  }

  /**
   * Creating a transaction under a fresh id adds one PENDING record to the
   * statistics of every scope it falls in, and leaves the other counts and
   * the PAID total as they were.
   */
  lemma CreateAddsOnePending(L: Store, data: NewTransaction, id: string, now: int, merchantId: string)
    requires Valid(L) && id !in L.txs
    ensures var before := GetOverview(L, merchantId);
      var after := GetOverview(Create(L, data, id, now).store, merchantId);
      var counted := if merchantId == "" || data.merchantId == merchantId then 1 else 0;
      && after.totalTransactions == before.totalTransactions + counted
      && after.pendingTransactions == before.pendingTransactions + counted
      && after.paidTransactions == before.paidTransactions
      && after.failedTransactions == before.failedTransactions
      && after.totalAmount == before.totalAmount
  {
    var c := Create(L, data, id, now);
    var t := c.record;
    ScopeOfAppended(L, c.store, t, merchantId);
    var before := Scope(L, merchantId);
    if merchantId == "" || data.merchantId == merchantId {
      CountsOfAppend(before, t, PENDING);
      CountsOfAppend(before, t, PAID);
      CountsOfAppend(before, t, FAILED);
    } else {
      assert Scope(c.store, merchantId) == before + [] == before;
    }
  }

  const DEMO_MERCHANT_ID: string := "merchant_001"

  /** `initializeDefaults`: the demo merchant and three catalogue entries, Innbucks switched off. */
  function InitializeDefaults(now: int): (L: Store)
    ensures Good(L) && |L.txs| == 0 && |L.logs| == 0
    ensures DefaultMerchant(L).Some? && DefaultMerchant(L).value.id == DEMO_MERCHANT_ID
    ensures |L.merchants| == 1
    ensures var m := L.merchants[0];
      && m.name == "Demo Merchant" && m.apiKey == "demo_api_key_12345"
      && m.webhookUrl.None? && m.isActive && m.createdAt == now
    ensures |L.methods| == 3
    ensures L.methods[0].id == "pm_001" && L.methods[0].code == ECO_CASH && L.methods[0].isActive
    ensures L.methods[1].id == "pm_002" && L.methods[1].code == VISA_MASTERCARD && L.methods[1].isActive
    ensures L.methods[2].id == "pm_003" && L.methods[2].code == INNBUCKS && !L.methods[2].isActive
    ensures L.methods[0].config == MethodConfig(Some(1.0), Some(10000.0))
    ensures L.methods[1].config == MethodConfig(Some(1.0), Some(50000.0))
    ensures L.methods[2].config == MethodConfig(None, None)
  {
    var merchant := Merchant(DEMO_MERCHANT_ID, "Demo Merchant", "demo_api_key_12345", None, true, now);
    var ecoCash := PaymentMethod("pm_001", "EcoCash", ECO_CASH, true, MethodConfig(Some(1.0), Some(10000.0)));
    var card := PaymentMethod("pm_002", "Visa/Mastercard", VISA_MASTERCARD, true, MethodConfig(Some(1.0), Some(50000.0)));
    var innbucks := PaymentMethod("pm_003", "Innbucks", INNBUCKS, false, MethodConfig(None, None));
    Store([merchant], map[], [], [ecoCash, card, innbucks], [])
  }

  /** The seeded catalogue offers EcoCash and cards, not Innbucks. */
  lemma SeededActiveMethods(now: int)
    ensures |FindActive(InitializeDefaults(now))| == 2
    ensures FindActive(InitializeDefaults(now))[0].code == ECO_CASH
    ensures FindActive(InitializeDefaults(now))[1].code == VISA_MASTERCARD
  {
    var L := InitializeDefaults(now);
    assert L.methods[1..][1..][1..] == [];
  }
}

=== FILE: phone.dfy ===
/**
 * The two Zimbabwean mobile-number patterns of the checkout: the server's
 * `^(263|0)7[0-9]{8}$`, where the prefix is mandatory, and the browser's
 * `^(263|0)?7[0-9]{8}$`, where it is optional. Both are applied after every
 * whitespace code unit has been removed.
 */
module Phone {
  import opened Text

  /** `7[0-9]{8}`: a subscriber number. */
  predicate Subscriber(s: string) {
    |s| == 9 && s[0] == '7' && AllDigits(s[1..])
  }

  /** `^(263|0)7[0-9]{8}$`. */
  predicate PrefixedNumber(s: string) {
    || (|s| == 12 && s[..3] == "263" && Subscriber(s[3..]))
    || (|s| == 10 && s[0] == '0' && Subscriber(s[1..]))
  }

  /** `^(263|0)?7[0-9]{8}$`. */
  predicate LooseNumber(s: string) {
    PrefixedNumber(s) || Subscriber(s)
  }

  /** Both patterns accept only ASCII digits, 9 to 12 of them, ending in a subscriber number. */
  lemma LooseNumberShape(s: string)
    requires LooseNumber(s)
    ensures AllDigits(s) && 9 <= |s| <= 12
    ensures Subscriber(s[|s| - 9..])
  {
    if |s| == 12 {
      assert s[|s| - 9..] == s[3..];
      assert forall i :: 0 <= i < 3 ==> s[i] == "263"[i];
      assert forall i :: 3 <= i < 12 ==> s[i] == s[3..][i - 3];
    } else if |s| == 10 {
      assert s[|s| - 9..] == s[1..];
      assert forall i :: 1 <= i < 10 ==> s[i] == s[1..][i - 1];
    } else {
      assert s[|s| - 9..] == s;
      assert forall i :: 1 <= i < 9 ==> s[i] == s[1..][i - 1];
    }
  }

  /** The browser's pattern is the server's plus bare subscriber numbers, and nothing else. */
  lemma LooseIsPrefixedOrBare(s: string)
    ensures LooseNumber(s) <==> PrefixedNumber(s) || Subscriber(s)
    ensures Subscriber(s) ==> !PrefixedNumber(s)
  {
  }

  /** "771234567": accepted by the browser, refused by the server. */
  lemma BareNumberSplitsThePatterns()
    ensures LooseNumber("771234567") && !PrefixedNumber("771234567")
  {
    var s := "771234567";
    assert AllDigits(s[1..]);
  }
}

=== FILE: postgres_store.dfy ===
/**
 * The PostgreSQL store's transaction update and the query/parameter lists of
 * its listings. Rows live in the same ledger as the in-memory store; what
 * differs is how `update` treats `id`, `created_at`, `updated_at` and
 * `paid_at`, and that each value reaches the database through a numbered
 * placeholder (`$1`, `$2`, ...) bound to a position of the parameter array.
 */
module PostgresStore {
  import opened Options
  import opened Text
  import opened Domain
  import opened MockStore

  /** A value bound to a placeholder. */
  datatype SqlParam =
    | PText(text: string)
    | PStatus(status: TransactionStatus)
    | PMethod(code: PaymentMethodCode)
    | PTime(time: int)
    | PColumn(value: FieldValue)

  /** `$n`. */
  function Placeholder(n: nat): (r: string)
    ensures |r| >= 2 && r[0] == '$'
  {
    "$" + Decimal(n)
  }

  /** Distinct positions render as distinct placeholders. */
  lemma PlaceholderInjective(m: nat, n: nat)
    requires Placeholder(m) == Placeholder(n)
    ensures m == n
  {
    assert Placeholder(m)[1..] == Decimal(m);
    assert Placeholder(n)[1..] == Decimal(n);
    ToRadixInjective(m, n, 10);
  }

  // ---------------------------------------------------------------------------
  // Listings
  // ---------------------------------------------------------------------------

  const ORDER_BY: string := " ORDER BY created_at DESC"
  const FIND_ALL_HEAD: string := "SELECT * FROM transactions WHERE 1=1"
  const FIND_BY_MERCHANT_HEAD: string := "SELECT * FROM transactions WHERE merchant_id = $1"

  /** The four optional filters, in the order the query builders test them. */
  datatype FilterKind = ByStatus | ByMethod | FromDate | ToDate

  function Rank(k: FilterKind): nat {
    match k
    case ByStatus => 0
    case ByMethod => 1
    case FromDate => 2
    case ToDate => 3
  }

  /** The column test a filter adds, up to its placeholder. */
  function ColumnTest(k: FilterKind): string {
    match k
    case ByStatus => "status = "
    case ByMethod => "payment_method = "
    case FromDate => "created_at >= "
    case ToDate => "created_at <= "
  }

  /** Whether the filter is present (truthy). */
  predicate Supplied(f: Filters, k: FilterKind) {
    match k
    case ByStatus => f.status.Some?
    case ByMethod => f.paymentMethod.Some?
    case FromDate => f.startDate.Some?
    case ToDate => f.endDate.Some?
  }

  /** The value a supplied filter binds. */
  function FilterParam(f: Filters, k: FilterKind): SqlParam
    requires Supplied(f, k)
  {
    match k
    case ByStatus => PStatus(f.status.value)
    case ByMethod => PMethod(f.paymentMethod.value)
    case FromDate => PTime(f.startDate.value)
    case ToDate => PTime(f.endDate.value)
  }

  datatype Condition = Condition(kind: FilterKind, param: SqlParam)

  /** The conditions a listing adds, one per supplied filter, in the fixed order. */
  function Conditions(f: Filters): (r: seq<Condition>)
    ensures forall i, j :: 0 <= i < j < |r| ==> Rank(r[i].kind) < Rank(r[j].kind)
    ensures forall i :: 0 <= i < |r| ==> Supplied(f, r[i].kind) && r[i].param == FilterParam(f, r[i].kind)
    ensures forall k :: Supplied(f, k) ==> exists i :: 0 <= i < |r| && r[i].kind == k
  {
    var a := if f.status.Some? then [Condition(ByStatus, PStatus(f.status.value))] else [];
    var b := if f.paymentMethod.Some? then [Condition(ByMethod, PMethod(f.paymentMethod.value))] else [];
    var c := if f.startDate.Some? then [Condition(FromDate, PTime(f.startDate.value))] else [];
    var d := if f.endDate.Some? then [Condition(ToDate, PTime(f.endDate.value))] else [];
    var r := a + b + c + d;
    ConditionsCover(f, a, b, c, d);
    r
  }

  lemma ConditionsCover(f: Filters, a: seq<Condition>, b: seq<Condition>, c: seq<Condition>, d: seq<Condition>)
    requires a == (if f.status.Some? then [Condition(ByStatus, PStatus(f.status.value))] else [])
    requires b == (if f.paymentMethod.Some? then [Condition(ByMethod, PMethod(f.paymentMethod.value))] else [])
    requires c == (if f.startDate.Some? then [Condition(FromDate, PTime(f.startDate.value))] else [])
    requires d == (if f.endDate.Some? then [Condition(ToDate, PTime(f.endDate.value))] else [])
    ensures forall k :: Supplied(f, k) ==> exists i :: 0 <= i < |a + b + c + d| && (a + b + c + d)[i].kind == k
  {
    var r := a + b + c + d;
    forall k | Supplied(f, k)
      ensures exists i :: 0 <= i < |r| && r[i].kind == k
    {
      match k
      case ByStatus => assert r[0].kind == k;
      case ByMethod => assert r[|a|].kind == k;
      case FromDate => assert r[|a| + |b|].kind == k;
      case ToDate => assert r[|a| + |b| + |c|].kind == k;
    }
  }

  /** What the database evaluates a condition to on a row. */
  predicate Holds(c: Condition, t: Transaction) {
    match (c.kind, c.param)
    case (ByStatus, PStatus(s)) => t.status == s
    case (ByMethod, PMethod(m)) => t.paymentMethod == Some(m)
    case (FromDate, PTime(d)) => t.createdAt >= d
    case (ToDate, PTime(d)) => t.createdAt <= d
    case _ => false
  }

  /**
   * The SQL conditions select exactly the rows the in-memory store's filter
   * keeps, so both stores list the same records.
   */
  lemma ConditionsAgreeWithMatches(f: Filters, t: Transaction)
    ensures (forall i :: 0 <= i < |Conditions(f)| ==> Holds(Conditions(f)[i], t)) <==> Matches(f, t)
  {
    var cs := Conditions(f);
    if Matches(f, t) {
      forall i | 0 <= i < |cs|
        ensures Holds(cs[i], t)
      {
        assert Supplied(f, cs[i].kind);
      }
    } else {
      var k :| Supplied(f, k) && !Holds(Condition(k, FilterParam(f, k)), t);
      var i :| 0 <= i < |cs| && cs[i].kind == k;
      assert !Holds(cs[i], t);
    }
  }

  /** The text each condition appends: ` AND <column test>$<n>`, numbered from `first`. */
  function Clauses(cs: seq<Condition>, first: nat): (r: seq<string>)
    ensures |r| == |cs|
    ensures forall i :: 0 <= i < |cs| ==> r[i] == " AND " + ColumnTest(cs[i].kind) + Placeholder(first + i)
    decreases |cs|
  {
    if |cs| == 0 then []
    else [" AND " + ColumnTest(cs[0].kind) + Placeholder(first)] + Clauses(cs[1..], first + 1)
  }

  function Concat(ss: seq<string>): string
    decreases |ss|
  {
    if |ss| == 0 then "" else ss[0] + Concat(ss[1..])
  }

  function Params(cs: seq<Condition>): (r: seq<SqlParam>)
    ensures |r| == |cs|
    ensures forall i :: 0 <= i < |cs| ==> r[i] == cs[i].param
    decreases |cs|
  {
    if |cs| == 0 then [] else [cs[0].param] + Params(cs[1..])
  }

  datatype Query = Query(text: string, clauses: seq<string>, params: seq<SqlParam>)

  predicate EndsWith(s: string, suffix: string) {
    |suffix| <= |s| && s[|s| - |suffix|..] == suffix
  }

  /** `transactions.findAll`: condition i uses `$(i+1)`, bound to `params[i]`. */
  function FindAllQuery(f: Filters): (q: Query)
    ensures |q.clauses| == |Conditions(f)| && |q.params| == |Conditions(f)|
    ensures forall i :: 0 <= i < |Conditions(f)| ==>
      q.clauses[i] == " AND " + ColumnTest(Conditions(f)[i].kind) + Placeholder(i + 1)
      && q.params[i] == Conditions(f)[i].param
    ensures q.text == FIND_ALL_HEAD + Concat(q.clauses) + ORDER_BY
    ensures EndsWith(q.text, ORDER_BY)
  {
    var cs := Conditions(f);
    var clauses := Clauses(cs, 1);
    var text := FIND_ALL_HEAD + Concat(clauses) + ORDER_BY;
    assert text[|text| - |ORDER_BY|..] == ORDER_BY;
    Query(text, clauses, Params(cs))
  }

  /** `transactions.findByMerchant`: the merchant is `$1`, condition i uses `$(i+2)`, bound to `params[i+1]`. */
  function FindByMerchantQuery(merchantId: string, f: Filters): (q: Query)
    ensures |q.clauses| == |Conditions(f)| && |q.params| == 1 + |Conditions(f)|
    ensures q.params[0] == PText(merchantId)
    ensures forall i :: 0 <= i < |Conditions(f)| ==>
      q.clauses[i] == " AND " + ColumnTest(Conditions(f)[i].kind) + Placeholder(i + 2)
      && q.params[i + 1] == Conditions(f)[i].param
    ensures q.text == FIND_BY_MERCHANT_HEAD + Concat(q.clauses) + ORDER_BY
    ensures EndsWith(q.text, ORDER_BY)
  {
    var cs := Conditions(f);
    var clauses := Clauses(cs, 2);
    var text := FIND_BY_MERCHANT_HEAD + Concat(clauses) + ORDER_BY;
    assert text[|text| - |ORDER_BY|..] == ORDER_BY;
    Query(text, clauses, [PText(merchantId)] + Params(cs))
  }

  /** Every placeholder a listing uses is bound: `$n` in clause i names `params[n-1]`, the condition's value. */
  lemma ListingPlaceholdersBound(merchantId: Option<string>, f: Filters, i: nat)
    requires i < |Conditions(f)|
    ensures var q := if merchantId.Some? then FindByMerchantQuery(merchantId.value, f) else FindAllQuery(f);
      var n := if merchantId.Some? then i + 2 else i + 1;
      && 1 <= n <= |q.params|
      && q.clauses[i] == " AND " + ColumnTest(Conditions(f)[i].kind) + Placeholder(n)
      && q.params[n - 1] == Conditions(f)[i].param
  {
  }

  // ---------------------------------------------------------------------------
  // Update
  // ---------------------------------------------------------------------------

  /** The keys `update` writes: everything but `id` and `created_at`. */
  predicate Writable(e: PatchEntry) {
    EntryField(e) != Id && EntryField(e) != CreatedAt
  }

  /** The patch keys `update` keeps, in key order. */
  function Writables(p: Patch): (w: Patch)
    ensures |w| <= |p|
    ensures forall i :: 0 <= i < |w| ==> Writable(w[i]) && w[i] in p
    decreases |p|
  {
    if |p| == 0 then []
    else
      var init := Writables(p[..|p| - 1]);
      if Writable(p[|p| - 1]) then init + [p[|p| - 1]] else init
  }

  /** Dropping `id` and `created_at` changes no other column's last value. */
  lemma {:induction false} WritablesLastValue(p: Patch, f: Field)
    ensures LastValue(Writables(p), f) == (if f == Id || f == CreatedAt then None else LastValue(p, f))
    decreases |p|
  {
    if |p| > 0 {
      var q := p[..|p| - 1];
      var init := Writables(q);
      WritablesLastValue(q, f);
      if Writable(p[|p| - 1]) {
        var w := init + [p[|p| - 1]];
        assert w[..|w| - 1] == init;
      }
    }
  }

  lemma {:induction false} WritablesDistinct(p: Patch)
    requires DistinctKeys(p)
    ensures DistinctKeys(Writables(p))
    decreases |p|
  {
    if |p| > 0 {
      var q := p[..|p| - 1];
      assert forall i, j :: 0 <= i < j < |q| ==> q[i] == p[i] && q[j] == p[j];
      WritablesDistinct(q);
      var init := Writables(q);
      if Writable(p[|p| - 1]) {
        forall i | 0 <= i < |init|
          ensures EntryField(init[i]) != EntryField(p[|p| - 1])
        {
          var j :| 0 <= j < |q| && q[j] == init[i];
          assert p[j] == init[i];
        }
      }
    }
  }

  /** Whether the patch mentions `f` among its writable keys. */
  lemma WritablesCarries(p: Patch, f: Field)
    ensures Carries(Writables(p), f) <==> Carries(p, f) && f != Id && f != CreatedAt
  {
    WritablesLastValue(p, f);
    LastValueCarries(Writables(p), f);
    LastValueCarries(p, f);
  }

  /** A patch of writable keys only is kept whole. */
  lemma {:induction false} WritablesAll(p: Patch)
    requires forall i :: 0 <= i < |p| ==> Writable(p[i])
    ensures Writables(p) == p
    decreases |p|
  {
    if |p| > 0 {
      WritablesAll(p[..|p| - 1]);
      assert p[..|p| - 1] + [p[|p| - 1]] == p;
    }
  }

  /** One `column = $n` of the SET list. */
  datatype Assignment = Assignment(column: Field, placeholder: nat)

  /**
   * The statement text is `UPDATE transactions SET <setList joined by ", ">`,
   * then `, paid_at = $m` when there is a stamp, then ` WHERE id = $1 RETURNING *`.
   */
  datatype UpdateStatement = UpdateStatement(setList: seq<Assignment>, stamp: Option<Assignment>, params: seq<SqlParam>)

  function PatchAssignments(w: Patch, first: nat): (r: seq<Assignment>)
    ensures |r| == |w|
    ensures forall i :: 0 <= i < |w| ==> r[i] == Assignment(EntryField(w[i]), first + i)
    decreases |w|
  {
    if |w| == 0 then [] else [Assignment(EntryField(w[0]), first)] + PatchAssignments(w[1..], first + 1)
  }

  function PatchValues(w: Patch): (r: seq<SqlParam>)
    ensures |r| == |w|
    ensures forall i :: 0 <= i < |w| ==> r[i] == PColumn(EntryValue(w[i]))
    decreases |w|
  {
    if |w| == 0 then [] else [PColumn(EntryValue(w[0]))] + PatchValues(w[1..])
  }

  function StampValue(now: int): SqlParam {
    PColumn(VOptTime(Some(now)))
  }

  /** The statement `update` sends for a patch. */
  function UpdateStatementOf(id: string, p: Patch, now: int): (s: UpdateStatement)
    ensures |s.setList| == |Writables(p)|
    ensures s.stamp.Some? <==> PatchStatus(p) == Some(PAID)
    ensures forall i :: 0 <= i < |s.setList| ==> s.setList[i].column != Id && s.setList[i].column != CreatedAt
  {
    var w := Writables(p);
    if PatchStatus(p) == Some(PAID) then
      UpdateStatement(PatchAssignments(w, 2), Some(Assignment(PaidAt, |w| + 2)), [PText(id)] + PatchValues(w) + [StampValue(now)])
    else
      UpdateStatement(PatchAssignments(w, 2), None, [PText(id)] + PatchValues(w))
  }

  /** All assignments of the statement, the stamp last. */
  function AllAssignments(s: UpdateStatement): seq<Assignment> {
    s.setList + (if s.stamp.Some? then [s.stamp.value] else [])
  }

  /**
   * `$1` is the id; the n writable keys are `$2..$(n+1)` in key order, each
   * bound to its own value; a PAID patch adds `paid_at = $(n+2)` bound to now.
   */
  lemma UpdatePlaceholders(id: string, p: Patch, now: int)
    ensures var s := UpdateStatementOf(id, p, now);
      var w := Writables(p);
      && s.params[0] == PText(id)
      && |s.params| == |AllAssignments(s)| + 1
      && (forall i :: 0 <= i < |AllAssignments(s)| ==> AllAssignments(s)[i].placeholder == i + 2)
      && (forall i :: 0 <= i < |w| ==> s.setList[i].column == EntryField(w[i]) && s.params[i + 1] == PColumn(EntryValue(w[i])))
      && (s.stamp.Some? ==> s.stamp.value.column == PaidAt && s.params[|w| + 1] == StampValue(now))
  {
  }

  predicate DistinctColumns(a: seq<Assignment>) {
    forall i, j :: 0 <= i < j < |a| ==> a[i].column != a[j].column
  }

  /**
   * The database refuses the statement when the SET list is empty (the text
   * then reads `SET  WHERE` or `SET , paid_at`) or names a column twice.
   */
  predicate Rejected(s: UpdateStatement) {
    |s.setList| == 0 || !DistinctColumns(AllAssignments(s))
  }

  /**
   * For a patch object (distinct keys), the statement is refused exactly when
   * no key besides `id`/`created_at` is given, or the patch gives `paid_at`
   * itself while saying PAID.
   */
  lemma RejectedCases(id: string, p: Patch, now: int)
    requires DistinctKeys(p)
    ensures Rejected(UpdateStatementOf(id, p, now)) <==>
      |Writables(p)| == 0 || (PatchStatus(p) == Some(PAID) && Carries(p, PaidAt))
  {
    WritablesDistinct(p);
    WritablesCarries(p, PaidAt);
    UpdatePlaceholders(id, p, now);
    if PatchStatus(p) == Some(PAID) && Carries(p, PaidAt) {
      StampClash(id, p, now);
    }
    if !DistinctColumns(AllAssignments(UpdateStatementOf(id, p, now))) {
      ClashIsStamp(id, p, now);
    }
  }

  lemma StampClash(id: string, p: Patch, now: int)
    requires PatchStatus(p) == Some(PAID) && Carries(Writables(p), PaidAt)
    ensures !DistinctColumns(AllAssignments(UpdateStatementOf(id, p, now)))
  {
    var s := UpdateStatementOf(id, p, now);
    var w := Writables(p);
    var all := AllAssignments(s);
    UpdatePlaceholders(id, p, now);
    var i :| 0 <= i < |w| && EntryField(w[i]) == PaidAt;
    assert all[i].column == PaidAt;
    assert all[|w|].column == PaidAt;
  }

  lemma ClashIsStamp(id: string, p: Patch, now: int)
    requires DistinctKeys(Writables(p))
    requires !DistinctColumns(AllAssignments(UpdateStatementOf(id, p, now)))
    ensures PatchStatus(p) == Some(PAID) && Carries(Writables(p), PaidAt)
  {
    var s := UpdateStatementOf(id, p, now);
    var w := Writables(p);
    var all := AllAssignments(s);
    UpdatePlaceholders(id, p, now);
    var i, j :| 0 <= i < j < |all| && all[i].column == all[j].column;
    assert j >= |w|;
    assert s.stamp.Some? && all[j] == s.stamp.value;
    assert all[i] == s.setList[i];
    assert EntryField(w[i]) == PaidAt;
  }

  datatype PgWrite = SqlError | Applied(store: Store, record: Option<Transaction>)

  /** The row after the statement runs on `t`. */
  function PgRow(t: Transaction, p: Patch, now: int): (u: Transaction)
    ensures u.id == t.id && u.createdAt == t.createdAt
    ensures PatchStatus(p) == Some(PAID) ==> u.paidAt == Some(now)
    ensures !Carries(p, UpdatedAt) ==> u.updatedAt == t.updatedAt
  {
    var w := Writables(p);
    ApplyPatchOverlay(t, w, Id);
    ApplyPatchOverlay(t, w, CreatedAt);
    ApplyPatchOverlay(t, w, UpdatedAt);
    WritablesLastValue(p, Id);
    WritablesLastValue(p, CreatedAt);
    WritablesLastValue(p, UpdatedAt);
    LastValueCarries(p, UpdatedAt);
    var u := ApplyPatch(t, w);
    if PatchStatus(p) == Some(PAID) then u.(paidAt := Some(now)) else u
  }

  /**
   * `transactions.update` of the PostgreSQL store: the writable keys are
   * assigned as given, `paid_at` is set to now whenever the patch says PAID,
   * and `updated_at` is left alone; an unknown id matches no row.
   */
  function UpdatePg(L: Store, id: string, p: Patch, now: int): (r: PgWrite)
    ensures r.SqlError? <==> Rejected(UpdateStatementOf(id, p, now))
    ensures r.Applied? && id !in L.txs ==> r == Applied(L, None)
    ensures r.Applied? && id in L.txs ==>
      r.record.Some? && r.store == L.(txs := L.txs[id := r.record.value])
    ensures r.Applied? && id in L.txs ==>
      r.record.value.id == L.txs[id].id && r.record.value.createdAt == L.txs[id].createdAt
    ensures r.Applied? && id in L.txs && PatchStatus(p) == Some(PAID) ==> r.record.value.paidAt == Some(now)
    ensures r.Applied? && id in L.txs && !Carries(p, UpdatedAt) ==> r.record.value.updatedAt == L.txs[id].updatedAt
    ensures r.Applied? && Valid(L) ==> Valid(r.store)
    ensures r.Applied? && IdsMatchKeys(L) ==> IdsMatchKeys(r.store)
  {
    if Rejected(UpdateStatementOf(id, p, now)) then SqlError
    else if id !in L.txs then Applied(L, None)
    else
      var u := PgRow(L.txs[id], p, now);
      Applied(L.(txs := L.txs[id := u]), Some(u))
  }

  /**
   * A patch of distinct writable keys without `paid_at` always runs: the row
   * becomes the patch spread over the old one, stamped if it says PAID.
   */
  lemma UpdatePgPlain(L: Store, id: string, p: Patch, now: int)
    requires id in L.txs && |p| > 0 && DistinctKeys(p) && !Carries(p, PaidAt)
    requires forall i :: 0 <= i < |p| ==> Writable(p[i])
    ensures UpdatePg(L, id, p, now).Applied?
    ensures var u := ApplyPatch(L.txs[id], p);
      var row := if PatchStatus(p) == Some(PAID) then u.(paidAt := Some(now)) else u;
      UpdatePg(L, id, p, now) == Applied(L.(txs := L.txs[id := row]), Some(row))
  {
    WritablesAll(p);
    RejectedCases(id, p, now);
  }

  /** A two-key patch is its first entry, then its second. */
  lemma ApplyPair(t: Transaction, a: PatchEntry, b: PatchEntry)
    ensures ApplyPatch(t, [a, b]) == ApplyEntry(ApplyEntry(t, a), b)
  {
    var p := [a, b];
    var t1 := ApplyEntry(t, a);
    assert p[1..] == [b] && p[1..][1..] == [];
    assert ApplyPatch(t, p) == ApplyPatch(t1, [b]);
    assert ApplyPatch(t1, [b]) == ApplyPatch(ApplyEntry(t1, b), []);
  }

  /** The shape facts of a two-key patch whose second key is not `status`. */
  lemma PairShape(a: PatchEntry, b: PatchEntry)
    requires EntryField(a) != EntryField(b) && EntryField(b) != Status
    requires EntryField(a) != PaidAt && EntryField(b) != PaidAt
    ensures DistinctKeys([a, b]) && !Carries([a, b], PaidAt)
    ensures LastValue([a, b], Status) == LastValue([a], Status)
  {
    var p := [a, b];
    assert p[..1] == [a];
  }

  /** The routes' `{ payment_url, transaction_reference }` patch. */
  lemma UpdatePgLinks(L: Store, id: string, url: Option<string>, ref: Option<string>, now: int)
    requires id in L.txs
    ensures var row := L.txs[id].(paymentUrl := url, transactionReference := ref);
      UpdatePg(L, id, [SetPaymentUrl(url), SetTransactionReference(ref)], now) == Applied(L.(txs := L.txs[id := row]), Some(row))
  {
    var p := [SetPaymentUrl(url), SetTransactionReference(ref)];
    PairShape(p[0], p[1]);
    assert [SetPaymentUrl(url)][..0] == [];
    assert PatchStatus(p) == None;
    UpdatePgPlain(L, id, p, now);
    ApplyPair(L.txs[id], p[0], p[1]);
  }

  /** The routes' `{ status }` patch: PAID also stamps `paid_at`. */
  lemma UpdatePgStatus(L: Store, id: string, status: TransactionStatus, now: int)
    requires id in L.txs
    ensures var row := if status == PAID then L.txs[id].(status := status, paidAt := Some(now))
                       else L.txs[id].(status := status);
      UpdatePg(L, id, [SetStatus(status)], now) == Applied(L.(txs := L.txs[id := row]), Some(row))
  {
    var p := [SetStatus(status)];
    assert p[1..] == [];
    assert p[..0] == [];
    assert PatchStatus(p) == Some(status);
    UpdatePgPlain(L, id, p, now);
  }

  /** The webhook's `{ status, transaction_reference }` patch always runs, whatever the row. */
  lemma StatusReferenceRuns(id: string, status: TransactionStatus, ref: Option<string>, now: int)
    ensures !Rejected(UpdateStatementOf(id, [SetStatus(status), SetTransactionReference(ref)], now))
  {
    var p := [SetStatus(status), SetTransactionReference(ref)];
    assert DistinctKeys(p);
    assert !Carries(p, PaidAt);
    WritablesAll(p);
    RejectedCases(id, p, now);
  }

  /** The row the webhook's patch leaves: new status and reference, `paid_at` stamped on PAID. */
  lemma UpdatePgStatusReference(L: Store, id: string, status: TransactionStatus, ref: Option<string>, now: int)
    requires id in L.txs
    ensures var t := L.txs[id].(status := status, transactionReference := ref);
      var row := if status == PAID then t.(paidAt := Some(now)) else t;
      UpdatePg(L, id, [SetStatus(status), SetTransactionReference(ref)], now) == Applied(L.(txs := L.txs[id := row]), Some(row))
  {
    var p := [SetStatus(status), SetTransactionReference(ref)];
    PairShape(p[0], p[1]);
    assert [SetStatus(status)][..0] == [];
    assert PatchStatus(p) == Some(status);
    UpdatePgPlain(L, id, p, now);
    ApplyPair(L.txs[id], p[0], p[1]);
  }

  /** The webhook's patch, for a row that may or may not exist. */
  lemma UpdatePgStatusReferenceAnyRow(L: Store, id: string, status: TransactionStatus, ref: Option<string>, now: int)
    ensures id !in L.txs ==>
      UpdatePg(L, id, [SetStatus(status), SetTransactionReference(ref)], now) == Applied(L, None)
    ensures id in L.txs ==>
      var t := L.txs[id].(status := status, transactionReference := ref);
      var row := if status == PAID then t.(paidAt := Some(now)) else t;
      UpdatePg(L, id, [SetStatus(status), SetTransactionReference(ref)], now) == Applied(L.(txs := L.txs[id := row]), Some(row))
  {
    StatusReferenceRuns(id, status, ref, now);
    if id in L.txs {
      UpdatePgStatusReference(L, id, status, ref, now);
    }
  }

  /** The `{ status }` patch, for a row that may or may not exist. */
  lemma UpdatePgStatusAnyRow(L: Store, id: string, status: TransactionStatus, now: int)
    ensures id !in L.txs ==> UpdatePg(L, id, [SetStatus(status)], now) == Applied(L, None)
    ensures id in L.txs ==>
      var row := if status == PAID then L.txs[id].(status := status, paidAt := Some(now))
                 else L.txs[id].(status := status);
      UpdatePg(L, id, [SetStatus(status)], now) == Applied(L.(txs := L.txs[id := row]), Some(row))
  {
    var p := [SetStatus(status)];
    assert DistinctKeys(p);
    assert !Carries(p, PaidAt);
    WritablesAll(p);
    RejectedCases(id, p, now);
    if id in L.txs {
      UpdatePgStatus(L, id, status, now);
    }
  }

  /** The value bound to a placeholder of the statement, read as a column value. */
  function BoundValue(s: UpdateStatement, a: Assignment): Option<FieldValue> {
    if 1 <= a.placeholder <= |s.params| && s.params[a.placeholder - 1].PColumn?
    then Some(s.params[a.placeholder - 1].value) else None
  }

  /**
   * The row `update` computes is what the database makes of the statement: a
   * column named in the SET list takes its bound value, every other column
   * keeps its old value.
   */
  lemma PgRowExecutesStatement(t: Transaction, id: string, p: Patch, now: int, f: Field)
    requires DistinctKeys(p)
    requires !Rejected(UpdateStatementOf(id, p, now))
    ensures var s := UpdateStatementOf(id, p, now);
      && (forall i :: 0 <= i < |AllAssignments(s)| && AllAssignments(s)[i].column == f ==>
            BoundValue(s, AllAssignments(s)[i]) == Some(Get(PgRow(t, p, now), f)))
      && ((forall i :: 0 <= i < |AllAssignments(s)| ==> AllAssignments(s)[i].column != f) ==>
            Get(PgRow(t, p, now), f) == Get(t, f))
  {
    var all := AllAssignments(UpdateStatementOf(id, p, now));
    forall i | 0 <= i < |all| && all[i].column == f
      ensures BoundValue(UpdateStatementOf(id, p, now), all[i]) == Some(Get(PgRow(t, p, now), f))
    {
      PgRowAssigned(t, id, p, now, i);
    }
    if forall i :: 0 <= i < |all| ==> all[i].column != f {
      PgRowUntouched(t, id, p, now, f);
    }
  }

  lemma PgRowAssigned(t: Transaction, id: string, p: Patch, now: int, i: nat)
    requires DistinctKeys(p)
    requires !Rejected(UpdateStatementOf(id, p, now))
    requires i < |AllAssignments(UpdateStatementOf(id, p, now))|
    ensures var s := UpdateStatementOf(id, p, now);
      BoundValue(s, AllAssignments(s)[i]) == Some(Get(PgRow(t, p, now), AllAssignments(s)[i].column))
  {
    var s := UpdateStatementOf(id, p, now);
    if i < |Writables(p)| {
      PgRowAssignedKey(t, id, p, now, i);
      assert AllAssignments(s)[i] == s.setList[i];
    } else {
      PgRowAssignedStamp(t, id, p, now);
      assert AllAssignments(s)[i] == s.stamp.value;
    }
  }

  /** The stamp's placeholder is bound to the time the row records in `paid_at`. */
  lemma PgRowAssignedStamp(t: Transaction, id: string, p: Patch, now: int)
    requires PatchStatus(p) == Some(PAID)
    ensures var s := UpdateStatementOf(id, p, now);
      s.stamp.Some? && BoundValue(s, s.stamp.value) == Some(Get(PgRow(t, p, now), s.stamp.value.column))
  {
    var s := UpdateStatementOf(id, p, now);
    var w := Writables(p);
    UpdatePlaceholders(id, p, now);
    assert AllAssignments(s)[|w|] == s.stamp.value;
    assert s.stamp.value.placeholder == |w| + 2;
    assert s.params[|w| + 1] == StampValue(now);
  }

  lemma PgRowAssignedKey(t: Transaction, id: string, p: Patch, now: int, i: nat)
    requires DistinctKeys(p)
    requires !Rejected(UpdateStatementOf(id, p, now))
    requires i < |Writables(p)|
    ensures var s := UpdateStatementOf(id, p, now);
      && s.setList[i].column == EntryField(Writables(p)[i])
      && s.params[i + 1] == PColumn(EntryValue(Writables(p)[i]))
      && Get(PgRow(t, p, now), EntryField(Writables(p)[i])) == EntryValue(Writables(p)[i])
      && BoundValue(s, s.setList[i]) == Some(Get(PgRow(t, p, now), s.setList[i].column))
  {
    var s := UpdateStatementOf(id, p, now);
    var w := Writables(p);
    var f := EntryField(w[i]);
    UpdatePlaceholders(id, p, now);
    WritablesDistinct(p);
    LastValueOfDistinct(w, i);
    ApplyPatchOverlay(t, w, f);
    if s.stamp.Some? {
      var all := AllAssignments(s);
      assert all[i] == s.setList[i] && all[|w|] == s.stamp.value;
      assert f != PaidAt;
    }
    assert s.setList[i].placeholder == i + 2 && i + 1 < |s.params|;
    assert BoundValue(s, s.setList[i]) == Some(EntryValue(w[i]));
  }

  lemma PgRowUntouched(t: Transaction, id: string, p: Patch, now: int, f: Field)
    requires forall i :: 0 <= i < |AllAssignments(UpdateStatementOf(id, p, now))| ==>
      AllAssignments(UpdateStatementOf(id, p, now))[i].column != f
    ensures Get(PgRow(t, p, now), f) == Get(t, f)
  {
    var s := UpdateStatementOf(id, p, now);
    var w := Writables(p);
    var all := AllAssignments(s);
    UpdatePlaceholders(id, p, now);
    assert forall i :: 0 <= i < |w| ==> all[i] == s.setList[i];
    assert !Carries(w, f);
    ApplyPatchFrame(t, w, f);
    if s.stamp.Some? {
      assert all[|w|] == s.stamp.value;
      assert f != PaidAt;
    }
  }

  /** `transactions.updateByOrderReference`: look the record up, then `update` it. */
  function UpdatePgByOrderReference(L: Store, ref: string, p: Patch, now: int): (r: PgWrite)
    ensures FindByOrderReference(L, ref).None? ==> r == Applied(L, None)
    ensures Good(L) && FindByOrderReference(L, ref).Some? && r.Applied? ==>
      r.record.Some? &&
      exists k :: k in L.txs && L.txs[k].orderReference == ref && r.store == L.(txs := L.txs[k := r.record.value])
    ensures FindByOrderReference(L, ref).Some? ==> r == UpdatePg(L, FindByOrderReference(L, ref).value.id, p, now)
  {
    match FindByOrderReference(L, ref)
    case None => Applied(L, None)
    case Some(t) =>
      if Good(L) then
        var k :| k in L.txs && L.txs[k] == t;
        UpdatePg(L, t.id, p, now)
      else
        UpdatePg(L, t.id, p, now)
  }

  // ---------------------------------------------------------------------------
  // Webhook log
  // ---------------------------------------------------------------------------

  /** The outcome of the log INSERT: refused for a taken id, or the store with the new row. */
  datatype LogInsert = DuplicateLogId | LogInserted(store: Store)

  /**
   * `webhookLogs.create` of the PostgreSQL store: a plain INSERT of the
   * `wh_<ms>` row, which the `id` key refuses when a row of the same
   * millisecond is already there. Nothing is ever overwritten.
   */
  function InsertLogPg(L: Store, data: NewLog, now: nat): (r: LogInsert)
    ensures r.DuplicateLogId? <==> HasLogId(L.logs, LogId(now))
    ensures r.LogInserted? ==>
      && |r.store.logs| == |L.logs| + 1 && r.store.logs[..|L.logs|] == L.logs
      && Describes(r.store.logs[|L.logs|], data, now)
      && r.store.txs == L.txs && r.store.order == L.order
      && r.store.merchants == L.merchants && r.store.methods == L.methods
  {
    if LogSlot(L.logs, LogId(now)) < |L.logs| then DuplicateLogId
    else
      var log := LogEntry(data, now);
      assert (L.logs + [log])[..|L.logs|] == L.logs;
      LogInserted(L.(logs := L.logs + [log]))
  }

  /**
   * On a fresh millisecond both stores add the same entry at the end; on a
   * taken one PostgreSQL refuses where the in-memory store overwrites.
   */
  lemma InsertLogAgreesWhenFresh(L: Store, data: NewLog, now: nat)
    ensures !HasLogId(L.logs, LogId(now)) ==> InsertLogPg(L, data, now) == LogInserted(CreateLog(L, data, now))
    ensures HasLogId(L.logs, LogId(now)) ==>
      InsertLogPg(L, data, now).DuplicateLogId? && |CreateLog(L, data, now).logs| == |L.logs|
  {
    if !HasLogId(L.logs, LogId(now)) {
      CreateLogAppendsWhenFresh(L, data, now);
    }
  }

  /** A second entry in the same millisecond is refused, and the first stays as it was. */
  lemma SameMillisecondInsertRefused(L: Store, a: NewLog, b: NewLog, now: nat)
    requires !HasLogId(L.logs, LogId(now))
    ensures var once := InsertLogPg(L, a, now);
      && once.LogInserted? && InsertLogPg(once.store, b, now).DuplicateLogId?
  {
    var once := InsertLogPg(L, a, now);
    assert once.store.logs[|L.logs|].id == LogId(now);
  }

  // ---------------------------------------------------------------------------
  // How the two update variants differ
  // ---------------------------------------------------------------------------

  /** Saying PAID again re-stamps `paid_at` in PostgreSQL but not in memory. */
  lemma PaidAtRestampedOnlyByPostgres(L: Store, id: string, now: int)
    requires id in L.txs && L.txs[id].paidAt.Some? && L.txs[id].paidAt != Some(now)
    ensures UpdatePg(L, id, [SetStatus(PAID)], now).Applied?
    ensures UpdatePg(L, id, [SetStatus(PAID)], now).record.value.paidAt == Some(now)
    ensures Update(L, id, [SetStatus(PAID)], now).record.value.paidAt == L.txs[id].paidAt
  {
    var p := [SetStatus(PAID)];
    assert p[..0] == [];
    assert Writables(p) == p;
    assert !Carries(p, PaidAt);
    RejectedCases(id, p, now);
  }

  /** The in-memory store refreshes `updated_at`; PostgreSQL keeps it unless the patch gives it. */
  lemma UpdatedAtRefreshedOnlyInMemory(L: Store, id: string, p: Patch, now: int)
    requires id in L.txs && !Carries(p, UpdatedAt) && L.txs[id].updatedAt != now
    requires UpdatePg(L, id, p, now).Applied?
    ensures UpdatePg(L, id, p, now).record.value.updatedAt == L.txs[id].updatedAt
    ensures Update(L, id, p, now).record.value.updatedAt == now
  {
  }
}

=== FILE: result_page.dfy ===
/**
 * The result page the gateway sends the payer back to: which status it
 * shows, decided from the query string first and from the ledger's answer
 * only when the query string says nothing.
 */
module ResultPage {
  import opened Options
  import opened Domain
  import opened Api

  /** `ref`, `status`, `cancelled` and `failed` from the query string; a missing one is `None`. */
  datatype ResultParams = ResultParams(
    ref: Option<string>,
    status: Option<string>,
    cancelled: Option<string>,
    failed: Option<string>)

  /** What the status request on load produced: a thrown request, or the JSON's `success` and `status`. */
  datatype StatusFetch = FetchFailed | Fetched(success: bool, status: Option<string>)

  /**
   * The status of the loaded transaction, `transaction?.status`: the page
   * fetches only with a non-empty `ref` and keeps the answer only when it
   * reports success.
   */
  function LoadedStatus(p: ResultParams, f: StatusFetch): (r: Option<string>)
    ensures r.Some? ==> Truthy(p.ref) && f.Fetched? && f.success && r == f.status
    ensures Truthy(p.ref) && f.Fetched? && f.success ==> r == f.status
  {
    if Truthy(p.ref) && f.Fetched? && f.success then f.status else None
  }

  /** The query string settles the status on its own. */
  predicate UrlDecides(p: ResultParams) {
    Truthy(p.cancelled) || Truthy(p.failed) || p.status == Some("paid") || p.status == Some("failed")
  }

  /**
   * `getStatus`: `cancelled` before `failed` before `status=paid` before
   * `status=failed`, and then the loaded status or PENDING.
   */
  function GetStatus(p: ResultParams, loaded: Option<string>): (r: string)
    ensures Truthy(p.cancelled) ==> r == "CANCELLED"
    ensures !Truthy(p.cancelled) && Truthy(p.failed) ==> r == "FAILED"
    ensures !Truthy(p.cancelled) && !Truthy(p.failed) && p.status == Some("paid") ==> r == "PAID"
    ensures !Truthy(p.cancelled) && !Truthy(p.failed) && p.status == Some("failed") ==> r == "FAILED"
    ensures !UrlDecides(p) ==> (Truthy(loaded) ==> r == loaded.value) && (!Truthy(loaded) ==> r == "PENDING")
  {
    if Truthy(p.cancelled) then "CANCELLED"
    else if Truthy(p.failed) then "FAILED"
    else if p.status == Some("paid") then "PAID"
    else if p.status == Some("failed") then "FAILED"
    else MessageOr(loaded, "PENDING")
  }

  /**
   * `getStatusConfig`: the four exact names choose their own panel and any
   * other text falls to the pending one.
   */
  function Panel(status: string): (r: TransactionStatus)
    ensures ParseStatus(status).Some? ==> r == ParseStatus(status).value
    ensures ParseStatus(status).None? ==> r == PENDING
  {
    if status == "PAID" then PAID
    else if status == "FAILED" then FAILED
    else if status == "CANCELLED" then CANCELLED
    else PENDING
  }

  /** The panel's heading. */
  function Title(t: TransactionStatus): (r: string)
    ensures r != ""
  {
    match t
    case PAID => "Payment Successful"
    case FAILED => "Payment Failed"
    case CANCELLED => "Payment Cancelled"
    case PENDING => "Payment Pending"
  }

  /** The panel the page shows for a query string and a status request outcome. */
  function Shown(p: ResultParams, f: StatusFetch): TransactionStatus {
    Panel(GetStatus(p, LoadedStatus(p, f)))
  }

  /** A status the query string settles is shown whatever the ledger answered. */
  lemma UrlOverridesLedger(p: ResultParams, f1: StatusFetch, f2: StatusFetch)
    requires UrlDecides(p)
    ensures Shown(p, f1) == Shown(p, f2) && Shown(p, f1) != PENDING
  {
  }

  /** `cancelled` wins over every other parameter. */
  lemma CancelledWins(p: ResultParams, f: StatusFetch)
    requires Truthy(p.cancelled)
    ensures Shown(p, f) == CANCELLED
  {
  }

  /** Without a query-string decision the page shows the ledger's status, whichever it is. */
  lemma LedgerStatusShown(p: ResultParams, t: TransactionStatus)
    requires !UrlDecides(p) && Truthy(p.ref)
    ensures Shown(p, Fetched(true, Some(StatusName(t)))) == t
  {
    assert StatusName(t) != "";
  }

  /** With no reference, a failed request or an unsuccessful answer, the page shows pending. */
  lemma NothingLoadedShowsPending(p: ResultParams, f: StatusFetch)
    requires !UrlDecides(p)
    requires !Truthy(p.ref) || f.FetchFailed? || (f.Fetched? && !f.success)
    ensures Shown(p, f) == PENDING
  {
  }

  /** Every text the page can settle on has a panel of its own, and that panel is its status. */
  lemma PanelOfStatusName(t: TransactionStatus)
    ensures Panel(StatusName(t)) == t
  {
  }
}

=== FILE: simulate_route.dfy ===
/**
 * `POST /api/payments/simulate`: the sandbox stand-in for a gateway
 * callback. It sets a transaction, found by order reference, to any of the
 * four statuses and logs a simulated callback.
 */
module SimulateRoute {
  import opened Options
  import opened Text
  import opened Domain
  import opened MockStore
  import opened PostgresStore
  import opened Api

  /** The request body; a key that is absent is `None`. */
  datatype SimulateBody = SimulateBody(orderReference: Option<string>, status: Option<string>)

  const MISSING_REFERENCE_OR_STATUS: string := "Order reference and status are required"
  const INVALID_STATUS: string := "Invalid status"

  /** `Transaction status updated to <status> (simulated)`. */
  function UpdatedMessage(s: TransactionStatus): (m: string)
    ensures StartsWith(m, "Transaction status updated to ")
  {
    var m := "Transaction status updated to " + StatusName(s) + " (simulated)";
    assert m[..30] == "Transaction status updated to ";
    m
  }

  /** The answer to a simulated status change. */
  function Simulated200(ref: string, status: TransactionStatus): (r: Response)
    ensures r.httpStatus == 200 && r.success && r.message == UpdatedMessage(status)
    ensures r.orderReference == Some(ref) && r.status == Some(status)
  {
    Response(200, true, UpdatedMessage(status), None, Some(ref), None, None, Some(status), None)
  }

  /**
   * The status is written, then the simulated callback is inserted as
   * acknowledged. When the insert is refused the outer handler answers 500,
   * but the status has already been written.
   */
  function Apply(L: Store, t: Transaction, ref: string, status: TransactionStatus, c: Clocks): (r: RouteResult)
    ensures r.request.None?
    ensures r.store.order == L.order && r.store.merchants == L.merchants && r.store.methods == L.methods
    ensures t.id !in L.txs ==> r.store.txs == L.txs
    ensures t.id in L.txs ==>
      var u := L.txs[t.id].(status := status);
      r.store.txs == L.txs[t.id := if status == PAID then u.(paidAt := Some(c.update)) else u]
    ensures HasLogId(L.logs, LogId(c.log)) ==>
      r.store.logs == L.logs && r.response == Refusal(500, INTERNAL_ERROR)
    ensures !HasLogId(L.logs, LogId(c.log)) ==>
      && |r.store.logs| == |L.logs| + 1 && r.store.logs[..|L.logs|] == L.logs
      && Describes(r.store.logs[|L.logs|], NewLog(t.id, Simulated(ref, status), Some(Acknowledged), Some(200)), c.log)
      && r.response == Simulated200(ref, status)
  {
    var w := UpdatePg(L, t.id, [SetStatus(status)], c.update);
    UpdatePgStatusAnyRow(L, t.id, status, c.update);
    match InsertLogPg(w.store, NewLog(t.id, Simulated(ref, status), Some(Acknowledged), Some(200)), c.log)
    case DuplicateLogId => RouteResult(w.store, Refusal(500, INTERNAL_ERROR), None)
    case LogInserted(logged) => RouteResult(logged, Simulated200(ref, status), None)
  }

  /** The handler. */
  function Simulate(L: Store, body: SimulateBody, c: Clocks): (r: RouteResult)
    ensures r.request.None?
    ensures !Truthy(body.orderReference) || !Truthy(body.status) ==>
      r == Untouched(L, Refusal(400, MISSING_REFERENCE_OR_STATUS))
    ensures Truthy(body.orderReference) && Truthy(body.status) && ParseStatus(body.status.value).None? ==>
      r == Untouched(L, Refusal(400, INVALID_STATUS))
    ensures Truthy(body.orderReference) && Truthy(body.status) && ParseStatus(body.status.value).Some? ==>
      var ref := body.orderReference.value;
      var status := ParseStatus(body.status.value).value;
      match FindByOrderReference(L, ref)
      case None => r == Untouched(L, Refusal(404, TRANSACTION_NOT_FOUND))
      case Some(t) => r == Apply(L, t, ref, status, c)
    ensures r.response.httpStatus == 400 <==>
      !Truthy(body.orderReference) || !Truthy(body.status) || ParseStatus(body.status.value).None?
  {
    if !Truthy(body.orderReference) || !Truthy(body.status) then
      Untouched(L, Refusal(400, MISSING_REFERENCE_OR_STATUS))
    else
      match ParseStatus(body.status.value)
      case None => Untouched(L, Refusal(400, INVALID_STATUS))
      case Some(status) =>
        var ref := body.orderReference.value;
        match FindByOrderReference(L, ref)
        case None => Untouched(L, Refusal(404, TRANSACTION_NOT_FOUND))
        case Some(t) => Apply(L, t, ref, status, c)
  }

  /**
   * Applying a simulated status to a stored record sets it, whatever the
   * record held before, keeps the store well formed and leaves every other
   * record as it was.
   */
  lemma ApplySetsStatus(L: Store, t: Transaction, ref: string, status: TransactionStatus, c: Clocks)
    requires Good(L) && t.id in L.txs && L.txs[t.id] == t
    ensures var r := Apply(L, t, ref, status, c).store;
      && Good(r) && r.txs.Keys == L.txs.Keys
      && r.txs[t.id].status == status && SameOrder(t, r.txs[t.id])
      && (status == PAID ==> r.txs[t.id].paidAt == Some(c.update))
      && (status != PAID ==> r.txs[t.id].paidAt == t.paidAt)
      && (forall k :: k in L.txs && k != t.id ==> r.txs[k] == L.txs[k])
  {
    var u := t.(status := status);
    var row := if status == PAID then u.(paidAt := Some(c.update)) else u;
    RowChangeKeepsGood(L, t.id, row);
  }

  /**
   * Exactly the four status names are accepted, each as itself: sending a
   * status's own name for a known order applies it to the record found, and
   * answers with that status unless the log insert is refused.
   */
  lemma SimulateSetsNamedStatus(L: Store, ref: string, status: TransactionStatus, c: Clocks)
    requires ref != "" && FindByOrderReference(L, ref).Some?
    ensures var t := FindByOrderReference(L, ref).value;
      var r := Simulate(L, SimulateBody(Some(ref), Some(StatusName(status))), c);
      && r == Apply(L, t, ref, status, c)
      && (!HasLogId(L.logs, LogId(c.log)) ==>
            r.response.success && r.response.httpStatus == 200 && r.response.status == Some(status))
      && (HasLogId(L.logs, LogId(c.log)) ==> r.response.httpStatus == 500)
  {
    assert StatusName(status) != "";
    assert ParseStatus(StatusName(status)) == Some(status);
  }

  /** Lower-case or unknown names are refused before the ledger is consulted. */
  lemma SimulateRejectsOtherNames(L: Store, ref: string, name: string, c: Clocks)
    requires ref != "" && name != "" && forall s :: StatusName(s) != name
    ensures Simulate(L, SimulateBody(Some(ref), Some(name)), c) == Untouched(L, Refusal(400, INVALID_STATUS))
  {
  }
}

=== FILE: smilepay_client.dfy ===
/**
 * The gateway client's pure parts: construction defaults, the credentials
 * guard in front of every request, and the static helpers for currency codes,
 * order references, status normalisation, method vocabulary and webhook
 * signatures. The HTTP exchange itself is an input: `GatewayReply`.
 */
module SmilePayClient {
  import opened Options
  import opened Text
  import Domain

  datatype Environment = Sandbox | Production

  const SANDBOX_URL: string := "https://zbnet.zb.co.zw/wallet_sandbox_api"
  const PRODUCTION_URL: string := "https://zbnet.zb.co.zw/wallet_api"

  function BaseUrl(env: Environment): string {
    match env
    case Sandbox => SANDBOX_URL
    case Production => PRODUCTION_URL
  }

  /** Constructor argument; an absent `environment`/`webhookSecret` is `None`. */
  datatype Config = Config(apiKey: string, apiSecret: string, environment: Option<Environment>, webhookSecret: Option<string>)

  datatype Client = Client(baseUrl: string, apiKey: string, apiSecret: string, webhookSecret: string)

  /**
   * `new SmilePayClient(config)`. Calling it with no argument (`None`) reads
   * `config.environment` on `undefined`, which throws: the result is then `None`.
   */
  function NewClient(config: Option<Config>): (r: Option<Client>)
    ensures r.Some? <==> config.Some?
    ensures r.Some? ==> r.value.apiKey == config.value.apiKey && r.value.apiSecret == config.value.apiSecret
    ensures r.Some? && config.value.environment != Some(Production) ==> r.value.baseUrl == SANDBOX_URL
    ensures r.Some? && config.value.environment == Some(Production) ==> r.value.baseUrl == PRODUCTION_URL
    ensures r.Some? ==> (r.value.webhookSecret == "" <==> config.value.webhookSecret in {None, Some("")})
  {
    match config
    case None => None
    case Some(cfg) =>
      var env := cfg.environment.GetOr(Sandbox);
      Some(Client(BaseUrl(env), cfg.apiKey, cfg.apiSecret, cfg.webhookSecret.GetOr("")))
  }

  /**
   * What the gateway did with one request, in the field names the routes read.
   * `Threw` covers a transport failure, a JSON parse failure and the credentials
   * guard below.
   */
  datatype GatewayReply =
    | Threw
    | Replied(statusCode: Option<string>, statusMessage: Option<string>, paymentUrl: Option<string>,
              transactionReference: Option<string>, redirectHtml: Option<string>)

  const STANDARD_ENDPOINT: string := "/payments-gateway/payments/initiate-transaction"
  const ECOCASH_ENDPOINT: string := "/payments-gateway/payments/express-checkout/ecocash"
  const CARD_ENDPOINT: string := "/payments-gateway/payments/express-checkout/mpgs"

  predicate HasCredentials(c: Client) {
    c.apiKey != "" && c.apiSecret != ""
  }

  /** One call through `makeRequest`: the URL actually requested (if any) and what came back. */
  datatype Exchange = Exchange(url: Option<string>, reply: GatewayReply)

  /**
   * `makeRequest`: without an API key and secret it throws before building a
   * request; otherwise it requests `baseURL + endpoint` and the transport's
   * reply is what the caller sees.
   */
  function MakeRequest(c: Client, endpoint: string, transport: GatewayReply): (r: Exchange)
    ensures !HasCredentials(c) ==> r.url.None? && r.reply.Threw?
    ensures HasCredentials(c) ==> r.url == Some(c.baseUrl + endpoint) && r.reply == transport
  {
    if c.apiKey == "" || c.apiSecret == "" then Exchange(None, Threw)
    else Exchange(Some(c.baseUrl + endpoint), transport)
  }

  // ---------------------------------------------------------------------------
  // Currency codes
  // ---------------------------------------------------------------------------

  /** ISO 4217 numeric code. */
  function IsoNumeric(c: Domain.CurrencyCode): string {
    match c
    case USD => "840"
    case ZWG => "924"
  }

  function ParseCurrency(s: string): (r: Option<Domain.CurrencyCode>)
    ensures r.Some? ==> Domain.CurrencyName(r.value) == s
    ensures r.None? ==> forall c :: Domain.CurrencyName(c) != s
  {
    if s == "USD" then Some(Domain.USD)
    else if s == "ZWG" then Some(Domain.ZWG)
    else None
  }

  /** `formatCurrencyCode`: the table lookup with "840" as the fallback. */
  function FormatCurrencyCode(currency: string): (r: string)
    ensures r == "840" || r == "924"
    ensures r == "924" <==> currency == "ZWG"
    ensures forall c :: Domain.CurrencyName(c) == currency ==> r == IsoNumeric(c)
  {
    match ParseCurrency(currency)
    case Some(c) => IsoNumeric(c)
    case None => "840"
  }

  // ---------------------------------------------------------------------------
  // Order references
  // ---------------------------------------------------------------------------

  /**
   * `Math.random().toString(36).substring(2, 8)`: `randomText` is the
   * `toString(36)` rendering ("0." followed by fraction digits); `substring`
   * clamps both ends to the length.
   */
  function RandomPart(randomText: string): (r: string)
    ensures |r| <= 6
    ensures |randomText| >= 8 ==> r == randomText[2..8]
  {
    if |randomText| <= 2 then ""
    else if |randomText| <= 8 then randomText[2..]
    else randomText[2..8]
  }

  /** `generateOrderReference`, with the clock reading and the random draw passed in. */
  function GenerateOrderReference(now: nat, randomText: string): (r: string)
    ensures StartsWith(r, "ORD-")
    ensures |r| == 5 + |ToRadix(now, 36)| + |RandomPart(randomText)|
    ensures forall i :: 0 <= i < |r| ==> !('a' <= r[i] <= 'z')
  {
    var raw := "ORD-" + ToRadix(now, 36) + "-" + RandomPart(randomText);
    var r := ToUpper(raw);
    assert r[..4] == ToUpper(raw)[..4];
    r
  }

  /** Upper-casing is injective on base-36 digit strings. */
  lemma {:induction false} ToUpperInjectiveOnDigits(a: string, b: string)
    requires forall i :: 0 <= i < |a| ==> IsRadixDigit(a[i], 36)
    requires forall i :: 0 <= i < |b| ==> IsRadixDigit(b[i], 36)
    requires ToUpper(a) == ToUpper(b)
    ensures a == b
  {
    assert |a| == |b|;
    forall i | 0 <= i < |a|
      ensures a[i] == b[i]
    {
      assert UpperChar(a[i]) == ToUpper(a)[i] == ToUpper(b)[i] == UpperChar(b[i]);
    }
  }

  /** Where the timestamp sits inside an upper-cased reference. */
  lemma ReferenceShape(t: string, p: string)
    ensures var r := ToUpper("ORD-" + t + "-" + p);
      && |r| == 5 + |t| + |p|
      && r[4 + |t|] == '-'
      && r[4..4 + |t|] == ToUpper(t)
  {
    var raw := "ORD-" + t + "-" + p;
    assert raw[4..4 + |t|] == t;
    assert ToUpper(raw)[4..4 + |t|] == ToUpper(raw[4..4 + |t|]);
  }

  /** Equal references have equally long timestamps: a digit is never '-'. */
  lemma {:induction false} SameReferenceSameWidth(t1: string, p1: string, t2: string, p2: string)
    requires forall i :: 0 <= i < |t1| ==> IsRadixDigit(t1[i], 36)
    requires forall i :: 0 <= i < |t2| ==> IsRadixDigit(t2[i], 36)
    requires ToUpper("ORD-" + t1 + "-" + p1) == ToUpper("ORD-" + t2 + "-" + p2)
    ensures |t1| == |t2|
  {
    ReferenceShape(t1, p1);
    ReferenceShape(t2, p2);
  }

  /**
   * References generated at different milliseconds never collide, whatever the
   * random draws: the second '-' marks where the timestamp ends.
   */
  lemma DistinctClocksDistinctReferences(now1: nat, rand1: string, now2: nat, rand2: string)
    requires now1 != now2
    ensures GenerateOrderReference(now1, rand1) != GenerateOrderReference(now2, rand2)
  {
    var t1, t2 := ToRadix(now1, 36), ToRadix(now2, 36);
    var p1, p2 := RandomPart(rand1), RandomPart(rand2);
    if GenerateOrderReference(now1, rand1) == GenerateOrderReference(now2, rand2) {
      SameReferenceSameWidth(t1, p1, t2, p2);
      ReferenceShape(t1, p1);
      ReferenceShape(t2, p2);
      ToUpperInjectiveOnDigits(t1, t2);
      ToRadixInjective(now1, now2, 36);
    }
  }

  // ---------------------------------------------------------------------------
  // Status normalisation
  // ---------------------------------------------------------------------------

  const PAID_WORDS: set<string> := {"SUCCESS", "PAID", "COMPLETED"}
  const FAILED_WORDS: set<string> := {"FAILED", "ERROR"}
  const CANCELLED_WORDS: set<string> := {"CANCELLED", "CANCELED"}

  /** `mapStatusFromSmilePay`: `None` is an absent status. */
  function MapStatus(status: Option<string>): (r: Domain.TransactionStatus)
    ensures r == Domain.PAID <==> status.Some? && ToUpper(status.value) in PAID_WORDS
    ensures r == Domain.FAILED <==> status.Some? && ToUpper(status.value) in FAILED_WORDS
    ensures r == Domain.CANCELLED <==> status.Some? && ToUpper(status.value) in CANCELLED_WORDS
  {
    match status
    case None => Domain.PENDING
    case Some(s) =>
      var u := ToUpper(s);
      if u == "SUCCESS" || u == "PAID" || u == "COMPLETED" then Domain.PAID
      else if u == "FAILED" || u == "ERROR" then Domain.FAILED
      else if u == "CANCELLED" || u == "CANCELED" then Domain.CANCELLED
      else Domain.PENDING
  }

  /** A status the table does not know (or no status) is never terminal. */
  lemma UnknownStatusIsPending(status: Option<string>)
    requires status.None? || ToUpper(status.value) !in PAID_WORDS + FAILED_WORDS + CANCELLED_WORDS
    ensures MapStatus(status) == Domain.PENDING
  {
  }

  lemma {:induction false} ToUpperIdempotent(s: string)
    ensures ToUpper(ToUpper(s)) == ToUpper(s)
  {
    var u := ToUpper(s);
    assert forall i :: 0 <= i < |s| ==> ToUpper(u)[i] == UpperChar(UpperChar(s[i])) == UpperChar(s[i]);
  }

  /** Normalisation ignores case. */
  lemma MapStatusIgnoresCase(s: string)
    ensures MapStatus(Some(s)) == MapStatus(Some(ToUpper(s)))
  {
    ToUpperIdempotent(s);
  }

  /** A local status name maps to itself. */
  lemma MapStatusFixesOwnNames(t: Domain.TransactionStatus)
    ensures MapStatus(Some(Domain.StatusName(t))) == t
  {
    match t
    case PENDING => UpperCaseUnchanged("PENDING");
    case PAID => UpperCaseUnchanged("PAID");
    case FAILED => UpperCaseUnchanged("FAILED");
    case CANCELLED => UpperCaseUnchanged("CANCELLED");
  }

  /** Upper-casing text without lower-case ASCII letters changes nothing. */
  lemma UpperCaseUnchanged(n: string)
    requires forall i :: 0 <= i < |n| ==> 'A' <= n[i] <= 'Z'
    ensures ToUpper(n) == n
  {
    assert forall i :: 0 <= i < |n| ==> UpperChar(n[i]) == n[i];
  }

  // ---------------------------------------------------------------------------
  // Method vocabulary
  // ---------------------------------------------------------------------------

  /** The gateway's payment-option names. */
  datatype GatewayMethod = WALLETPLUS | ECOCASH | GW_INNBUCKS | CARD | GW_OMARI | ONEMONEY

  function GatewayMethodName(g: GatewayMethod): string {
    match g
    case WALLETPLUS => "WALLETPLUS"
    case ECOCASH => "ECOCASH"
    case GW_INNBUCKS => "INNBUCKS"
    case CARD => "CARD"
    case GW_OMARI => "OMARI"
    case ONEMONEY => "ONEMONEY"
  }

  /** `mapPaymentMethodToZbPay`. */
  function MapPaymentMethod(m: Domain.PaymentMethodCode): (r: GatewayMethod)
    ensures r != ONEMONEY
  {
    match m
    case ECO_CASH => ECOCASH
    case VISA_MASTERCARD => CARD
    case INNBUCKS => GW_INNBUCKS
    case OMARI => GW_OMARI
    case SMILE_CASH => WALLETPLUS
  }

  /** The table is injective: different local methods never share a gateway name. */
  lemma MapPaymentMethodInjective(m1: Domain.PaymentMethodCode, m2: Domain.PaymentMethodCode)
    requires GatewayMethodName(MapPaymentMethod(m1)) == GatewayMethodName(MapPaymentMethod(m2))
    ensures m1 == m2
  {
  }

  // ---------------------------------------------------------------------------
  // Webhook signatures
  // ---------------------------------------------------------------------------

  /** `validateWebhookSignature`: plain equality against the shared secret; no secret accepts anything. */
  function ValidateWebhookSignature(c: Client, payload: string, signature: string): (ok: bool)
    ensures c.webhookSecret == "" ==> ok
    ensures c.webhookSecret != "" ==> (ok <==> signature == c.webhookSecret)
  {
    if c.webhookSecret == "" then true else signature == c.webhookSecret
  }

  /** The verdict never depends on the payload. */
  lemma SignatureIgnoresPayload(c: Client, p1: string, p2: string, signature: string)
    ensures ValidateWebhookSignature(c, p1, signature) == ValidateWebhookSignature(c, p2, signature)
  {
  }
}

=== FILE: sorting.dfy ===
/**
 * Sequence filtering and the newest-first ordering used by every listing:
 * `Array.prototype.filter` and a stable `sort((a, b) => key(b) - key(a))`.
 */
module Sorting {

  /** `r` is what is left of `s` after dropping some elements: the rest keep their order. */
  ghost predicate Subsequence<T>(r: seq<T>, s: seq<T>)
    decreases |s|
  {
    |r| == 0 || (|s| > 0 && ((r[0] == s[0] && Subsequence(r[1..], s[1..])) || Subsequence(r, s[1..])))
  }

  /** `r` holds every element of `s` that passes `keep` exactly as often as `s` does, and nothing else. */
  ghost predicate CopiesKept<T>(r: seq<T>, s: seq<T>, keep: T -> bool) {
    && multiset(r) <= multiset(s)
    && forall i :: 0 <= i < |s| ==> multiset(r)[s[i]] == if keep(s[i]) then multiset(s)[s[i]] else 0
  }

  /** Reordering a sequence keeps how often it holds each element. */
  lemma CopiesKeptPermuted<T>(a: seq<T>, b: seq<T>, s: seq<T>, keep: T -> bool)
    requires multiset(a) == multiset(b) && CopiesKept(b, s, keep)
    ensures CopiesKept(a, s, keep)
  {
  }

  /** `s.filter(keep)`: the kept elements, in their original order. */
  function Filter<T>(s: seq<T>, keep: T -> bool): (r: seq<T>)
    ensures |r| <= |s|
    ensures forall i :: 0 <= i < |r| ==> r[i] in s && keep(r[i])
    ensures forall i :: 0 <= i < |s| && keep(s[i]) ==> s[i] in r
    ensures CopiesKept(r, s, keep) && Subsequence(r, s)
  {
    if |s| == 0 then []
    else
      assert s == [s[0]] + s[1..];
      if keep(s[0]) then
        var rest := Filter(s[1..], keep);
        assert ([s[0]] + rest)[1..] == rest;
        [s[0]] + rest
      else Filter(s[1..], keep)
  }

  /** Filtering distributes over concatenation. */
  lemma {:induction false} FilterAppend<T>(a: seq<T>, b: seq<T>, keep: T -> bool)
    ensures Filter(a + b, keep) == Filter(a, keep) + Filter(b, keep)
  {
    if |a| > 0 {
      assert (a + b)[1..] == a[1..] + b;
      FilterAppend(a[1..], b, keep);
    } else {
      assert a + b == b;
    }
  }

  /** Every key is at least as large as every later key. */
  predicate SortedDesc<T>(s: seq<T>, key: T -> int) {
    forall i, j :: 0 <= i < j < |s| ==> key(s[i]) >= key(s[j])
  }

  /**
   * Places `x` before the first element that is not newer than it, so that `x`,
   * which came earlier in the input, stays ahead of equal keys (stability).
   */
  function InsertDesc<T>(x: T, s: seq<T>, key: T -> int): (r: seq<T>)
    ensures multiset(r) == multiset(s) + multiset{x}
    ensures |r| == |s| + 1
    decreases |s|
  {
    if |s| == 0 then [x]
    else if key(s[0]) <= key(x) then [x] + s
    else
      assert s == [s[0]] + s[1..];
      [s[0]] + InsertDesc(x, s[1..], key)
  }

  /** Inserting into a sorted sequence keeps it sorted. */
  lemma {:induction false} InsertDescSorted<T>(x: T, s: seq<T>, key: T -> int)
    requires SortedDesc(s, key)
    ensures SortedDesc(InsertDesc(x, s, key), key)
    decreases |s|
  {
    if |s| > 0 && key(s[0]) > key(x) {
      var rest := InsertDesc(x, s[1..], key);
      InsertDescSorted(x, s[1..], key);
      forall y | y in multiset(rest)
        ensures key(y) <= key(s[0])
      {
        assert y in multiset(s[1..]) + multiset{x};
        if y in multiset(s[1..]) {
          var j :| 0 <= j < |s[1..]| && s[1..][j] == y;
          assert s[j + 1] == y;
        }
      }
      assert forall i :: 0 <= i < |rest| ==> rest[i] in multiset(rest);
    }
  }

  /** The listing order: newest first, ties in input order. */
  function SortDesc<T>(s: seq<T>, key: T -> int): (r: seq<T>)
    ensures SortedDesc(r, key)
    ensures multiset(r) == multiset(s)
    ensures |r| == |s|
    decreases |s|
  {
    if |s| == 0 then []
    else
      assert s == [s[0]] + s[1..];
      var rest := SortDesc(s[1..], key);
      InsertDescSorted(s[0], rest, key);
      InsertDesc(s[0], rest, key)
  }

  /** The test "has key `k`". */
  function KeyIs<T>(key: T -> int, k: int): T -> bool {
    x => key(x) == k
  }

  /** The elements of `s` whose key is `k`, in their order. */
  function WithKey<T>(s: seq<T>, key: T -> int, k: int): seq<T>
    decreases |s|
  {
    if |s| == 0 then [] else (if key(s[0]) == k then [s[0]] else []) + WithKey(s[1..], key, k)
  }

  /** `WithKey` is the filter on `KeyIs`. */
  lemma {:induction false} WithKeyIsFilter<T>(s: seq<T>, key: T -> int, k: int)
    ensures WithKey(s, key, k) == Filter(s, KeyIs(key, k))
    decreases |s|
  {
    if |s| > 0 {
      WithKeyIsFilter(s[1..], key, k);
    }
  }

  /** `x` lands ahead of every element with the same key, and those keep their order. */
  lemma {:induction false} InsertDescTies<T>(x: T, s: seq<T>, key: T -> int, k: int)
    ensures WithKey(InsertDesc(x, s, key), key, k) == (if key(x) == k then [x] else []) + WithKey(s, key, k)
    decreases |s|
  {
    if |s| == 0 {
      assert [x][1..] == [];
    } else if key(s[0]) <= key(x) {
      assert ([x] + s)[1..] == s;
    } else {
      InsertDescTies(x, s[1..], key, k);
      InsertDescTiesPast(x, s[0], s[1..], key, k);
      assert s == [s[0]] + s[1..];
    }
  }

  /** The step past a newer head `h`: its key differs from `x`'s, so it stays in front. */
  lemma InsertDescTiesPast<T>(x: T, h: T, t: seq<T>, key: T -> int, k: int)
    requires key(h) > key(x)
    requires WithKey(InsertDesc(x, t, key), key, k) == (if key(x) == k then [x] else []) + WithKey(t, key, k)
    ensures WithKey(InsertDesc(x, [h] + t, key), key, k)
         == (if key(x) == k then [x] else []) + WithKey([h] + t, key, k)
  {
    var rest := InsertDesc(x, t, key);
    assert InsertDesc(x, [h] + t, key) == [h] + rest by {
      assert ([h] + t)[0] == h && ([h] + t)[1..] == t;
    }
    var head := if key(h) == k then [h] else [];
    assert WithKey([h] + rest, key, k) == head + WithKey(rest, key, k) by {
      assert ([h] + rest)[0] == h && ([h] + rest)[1..] == rest;
    }
    assert WithKey([h] + t, key, k) == head + WithKey(t, key, k) by {
      assert ([h] + t)[0] == h && ([h] + t)[1..] == t;
    }
    if key(x) == k {
      assert head == [];
      assert head + WithKey(rest, key, k) == WithKey(rest, key, k);
      assert head + WithKey(t, key, k) == WithKey(t, key, k);
    } else {
      assert WithKey(rest, key, k) == WithKey(t, key, k);
    }
  }

  /**
   * Stability: for every key, the elements carrying it come out in the
   * order they went in.
   */
  lemma {:induction false} SortDescStable<T>(s: seq<T>, key: T -> int, k: int)
    ensures Filter(SortDesc(s, key), KeyIs(key, k)) == Filter(s, KeyIs(key, k))
  {
    SortDescKeepsTies(s, key, k);
    WithKeyIsFilter(s, key, k);
    WithKeyIsFilter(SortDesc(s, key), key, k);
  }

  /** The elements with any one key keep their relative order through the sort. */
  lemma {:induction false} SortDescKeepsTies<T>(s: seq<T>, key: T -> int, k: int)
    ensures WithKey(SortDesc(s, key), key, k) == WithKey(s, key, k)
    decreases |s|
  {
    if |s| > 0 {
      SortDescKeepsTies(s[1..], key, k);
      InsertDescTies(s[0], SortDesc(s[1..], key), key, k);
    }
  }

  /** Sorting neither loses nor invents elements. */
  lemma SortDescMembers<T>(s: seq<T>, key: T -> int)
    ensures var r := SortDesc(s, key);
      && (forall i :: 0 <= i < |r| ==> r[i] in s)
      && (forall i :: 0 <= i < |s| ==> s[i] in r)
  {
    var r := SortDesc(s, key);
    assert forall i :: 0 <= i < |r| ==> r[i] in multiset(r);
    assert forall i :: 0 <= i < |s| ==> s[i] in multiset(s);
  }

  /** An element no older than the head goes in front. */
  lemma InsertDescFront<T>(x: T, s: seq<T>, key: T -> int)
    requires |s| == 0 || key(s[0]) <= key(x)
    ensures InsertDesc(x, s, key) == [x] + s
  {
  }

  /** A sequence that is already in order is left exactly as it is. */
  lemma {:induction false} SortDescOfSorted<T>(s: seq<T>, key: T -> int)
    requires SortedDesc(s, key)
    ensures SortDesc(s, key) == s
    decreases |s|
  {
    if |s| > 0 {
      var t := s[1..];
      assert SortedDesc(t, key) by {
        forall i, j | 0 <= i < j < |t|
          ensures key(t[i]) >= key(t[j])
        {
          assert t[i] == s[i + 1] && t[j] == s[j + 1];
        }
      }
      SortDescOfSorted(t, key);
      assert SortDesc(s, key) == InsertDesc(s[0], t, key);
      assert |t| > 0 ==> t[0] == s[1];
      InsertDescFront(s[0], t, key);
      assert s == [s[0]] + t;
    }
  }
}

=== FILE: text.dfy ===
/** Option type used for JavaScript's `undefined`/`null` and for "key absent". */
module Options {

  datatype Option<+T> = None | Some(value: T) {

    /** The value if present, otherwise `default` (JavaScript's `x ?? d`). */
    function GetOr(default: T): T {
      match this
      case Some(v) => v
      case None => default
    }
  }
}

/**
 * Character classes and string helpers standing in for the regular expressions,
 * `String.prototype` methods and `Number.prototype.toString(radix)` the checkout
 * code uses. Strings are sequences of UTF-16 code units modelled as `char`.
 */
module Text {

  /** ECMAScript `\s`: the WhiteSpace and LineTerminator code points. */
  predicate IsSpace(c: char) {
    || c == '\t' || c == '\n' || c == '\U{000B}' || c == '\U{000C}' || c == '\r'
    || c == ' ' || c == '\U{00A0}' || c == '\U{1680}'
    || ('\U{2000}' <= c <= '\U{200A}')
    || c == '\U{2028}' || c == '\U{2029}' || c == '\U{202F}' || c == '\U{205F}'
    || c == '\U{3000}' || c == '\U{FEFF}'
  }

  /** `[0-9]` and `\d` (both ASCII-only in JavaScript). */
  predicate IsDigit(c: char) {
    '0' <= c <= '9'
  }

  predicate AllDigits(s: string) {
    forall i :: 0 <= i < |s| ==> IsDigit(s[i])
  }

  /** `!s.trim()`: the string is empty once leading and trailing `\s` are removed. */
  predicate IsBlank(s: string) {
    forall i :: 0 <= i < |s| ==> IsSpace(s[i])
  }

  predicate StartsWith(s: string, prefix: string) {
    |prefix| <= |s| && s[..|prefix|] == prefix
  }

  /** `s.replace(/\s/g, '')`: every whitespace code unit removed. */
  function StripSpaces(s: string): (r: string)
    ensures |r| <= |s|
    ensures forall i :: 0 <= i < |r| ==> !IsSpace(r[i])
    ensures (forall i :: 0 <= i < |s| ==> !IsSpace(s[i])) ==> r == s
  {
    if |s| == 0 then ""
    else if IsSpace(s[0]) then StripSpaces(s[1..])
    else [s[0]] + StripSpaces(s[1..])
  }

  /** Stripping twice strips nothing more. */
  lemma StripSpacesIdempotent(s: string)
    ensures StripSpaces(StripSpaces(s)) == StripSpaces(s)
  {
  }

  /** Stripping distributes over concatenation. */
  lemma {:induction false} StripSpacesAppend(a: string, b: string)
    ensures StripSpaces(a + b) == StripSpaces(a) + StripSpaces(b)
  {
    if |a| == 0 {
      assert a + b == b;
    } else {
      assert (a + b)[1..] == a[1..] + b;
      StripSpacesAppend(a[1..], b);
    }
  }

  /** ASCII upper-casing of one code unit. */
  function UpperChar(c: char): char {
    if 'a' <= c <= 'z' then (c as int - 32) as char else c
  }

  /** `s.toUpperCase()` restricted to the ASCII letters. */
  function ToUpper(s: string): (r: string)
    ensures |r| == |s|
    ensures forall i :: 0 <= i < |s| ==> r[i] == UpperChar(s[i])
  {
    if |s| == 0 then "" else [UpperChar(s[0])] + ToUpper(s[1..])
  }

  lemma ToUpperAppend(a: string, b: string)
    ensures ToUpper(a + b) == ToUpper(a) + ToUpper(b)
  {
  }

  // ---------------------------------------------------------------------------
  // Number.prototype.toString(radix) for non-negative integers, and its inverse.
  // ---------------------------------------------------------------------------

  /** The digit for `d` in "0123456789abcdefghijklmnopqrstuvwxyz". */
  function DigitChar(d: nat): char
    requires d < 36
  {
    if d < 10 then ('0' as int + d) as char else ('a' as int + d - 10) as char
  }

  lemma DivMod(n: nat, radix: nat)
    requires 2 <= radix
    ensures n == (n / radix) * radix + n % radix
    ensures 0 <= n % radix < radix
    ensures n >= radix ==> 0 < n / radix < n
  {
  }

  predicate IsRadixDigit(c: char, radix: nat) {
    ('0' <= c <= '9' && (c as int - '0' as int) < radix)
    || ('a' <= c <= 'z' && (c as int - 'a' as int) + 10 < radix)
  }

  function DigitValue(c: char): nat {
    if '0' <= c <= '9' then c as int - '0' as int
    else if 'a' <= c <= 'z' then c as int - 'a' as int + 10
    else 0
  }

  lemma DigitCharValue(d: nat, radix: nat)
    requires d < radix <= 36
    ensures DigitValue(DigitChar(d)) == d
    ensures IsRadixDigit(DigitChar(d), radix)
  {
  }

  /** `n.toString(radix)`: most significant digit first, lower-case letters, no leading zeros. */
  function ToRadix(n: nat, radix: nat): (r: string)
    requires 2 <= radix <= 36
    ensures |r| >= 1
    ensures forall i :: 0 <= i < |r| ==> IsRadixDigit(r[i], radix)
    ensures n > 0 ==> r[0] != '0'
    decreases n
  {
    DivMod(n, radix);
    DigitCharValue(n % radix, radix);
    if n < radix then [DigitChar(n)]
    else ToRadix(n / radix, radix) + [DigitChar(n % radix)]
  }

  /** Reads a digit string back into its value (the partner of ToRadix). */
  function FromRadix(s: string, radix: nat): nat
  {
    if |s| == 0 then 0
    else FromRadix(s[..|s| - 1], radix) * radix + DigitValue(s[|s| - 1])
  }

  /** Reading back what ToRadix wrote gives the number again. */
  lemma {:induction false} FromToRadix(n: nat, radix: nat)
    requires 2 <= radix <= 36
    ensures FromRadix(ToRadix(n, radix), radix) == n
    decreases n
  {
    DivMod(n, radix);
    DigitCharValue(n % radix, radix);
    if n < radix {
      var s := ToRadix(n, radix);
      assert s[..|s| - 1] == "";
    } else {
      var s := ToRadix(n, radix);
      var hi := ToRadix(n / radix, radix);
      assert s == hi + [DigitChar(n % radix)];
      assert s[..|s| - 1] == hi;
      FromToRadix(n / radix, radix);
    }
  }

  /** ToRadix is injective: distinct numbers render as distinct strings. */
  lemma ToRadixInjective(m: nat, n: nat, radix: nat)
    requires 2 <= radix <= 36
    requires ToRadix(m, radix) == ToRadix(n, radix)
    ensures m == n
  {
    FromToRadix(m, radix);
    FromToRadix(n, radix);
  }

  /** `String(n)` for a non-negative integer. */
  function Decimal(n: nat): (r: string)
    ensures |r| >= 1 && AllDigits(r)
  {
    var r := ToRadix(n, 10);
    assert forall i :: 0 <= i < |r| ==> IsRadixDigit(r[i], 10);
    r
  }
}

=== FILE: webhook_route.dfy ===
/**
 * `POST /api/webhooks/smilepay`: the gateway's callback. After the
 * signature check, the transaction with the callback's order reference takes
 * the mapped status (whatever status it had) and the callback's reference,
 * and every callback, matched or not, is logged.
 */
module WebhookRoute {
  import opened Options
  import opened Text
  import opened Domain
  import opened MockStore
  import opened PostgresStore
  import opened Api
  import SmilePayClient

  const INVALID_SIGNATURE: string := "Invalid webhook signature"
  const PROCESSED: string := "Webhook processed successfully"

  /** `request.headers.get('X-Webhook-Signature') || ''`. */
  function HeaderSignature(header: Option<string>): (r: string)
    ensures Truthy(header) ==> r == header.value
    ensures !Truthy(header) ==> r == ""
  {
    if Truthy(header) then header.value else ""
  }

  /** The answer to a processed callback. */
  function Processed(body: WebhookBody): (r: Response)
    ensures r.httpStatus == 200 && r.success && r.message == PROCESSED
    ensures r.orderReference == Some(body.orderReference)
    ensures r.status == Some(SmilePayClient.MapStatus(body.transactionStatus))
  {
    Response(200, true, PROCESSED, None, Some(body.orderReference), None, None,
             Some(SmilePayClient.MapStatus(body.transactionStatus)), None)
  }

  /**
   * A matched callback: update the record, then insert the delivery as
   * acknowledged. When the insert is refused the outer handler answers 500,
   * but the update has already been written.
   */
  function Apply(L: Store, t: Transaction, body: WebhookBody, c: Clocks): (r: RouteResult)
    ensures r.request.None?
    ensures r.store.order == L.order && r.store.merchants == L.merchants && r.store.methods == L.methods
    ensures t.id !in L.txs ==> r.store.txs == L.txs
    ensures t.id in L.txs ==>
      var status := SmilePayClient.MapStatus(body.transactionStatus);
      var u := L.txs[t.id].(status := status, transactionReference := Or(body.transactionReference, t.transactionReference));
      r.store.txs == L.txs[t.id := if status == PAID then u.(paidAt := Some(c.update)) else u]
    ensures HasLogId(L.logs, LogId(c.log)) ==>
      r.store.logs == L.logs && r.response == Refusal(500, INTERNAL_ERROR)
    ensures !HasLogId(L.logs, LogId(c.log)) ==>
      && |r.store.logs| == |L.logs| + 1 && r.store.logs[..|L.logs|] == L.logs
      && Describes(r.store.logs[|L.logs|], NewLog(t.id, Delivered(body), Some(Acknowledged), Some(200)), c.log)
      && r.response == Processed(body)
  {
    var status := SmilePayClient.MapStatus(body.transactionStatus);
    var ref := Or(body.transactionReference, t.transactionReference);
    var w := UpdatePg(L, t.id, [SetStatus(status), SetTransactionReference(ref)], c.update);
    UpdatePgStatusReferenceAnyRow(L, t.id, status, ref, c.update);
    match InsertLogPg(w.store, NewLog(t.id, Delivered(body), Some(Acknowledged), Some(200)), c.log)
    case DuplicateLogId => RouteResult(w.store, Refusal(500, INTERNAL_ERROR), None)
    case LogInserted(logged) => RouteResult(logged, Processed(body), None)
  }

  /**
   * An unmatched callback is inserted against "unknown" and answered 404; a
   * refused insert is answered 500 and leaves everything as it was.
   */
  function LogUnknown(L: Store, body: WebhookBody, c: Clocks): (r: RouteResult)
    ensures HasLogId(L.logs, LogId(c.log)) ==> r == Untouched(L, Refusal(500, INTERNAL_ERROR))
    ensures !HasLogId(L.logs, LogId(c.log)) ==>
      && r.request.None? && r.response == Refusal(404, TRANSACTION_NOT_FOUND)
      && |r.store.logs| == |L.logs| + 1 && r.store.logs[..|L.logs|] == L.logs
      && Describes(r.store.logs[|L.logs|], NewLog("unknown", Delivered(body), Some(NotFoundError), Some(404)), c.log)
      && r.store.txs == L.txs && r.store.order == L.order
      && r.store.merchants == L.merchants && r.store.methods == L.methods
  {
    match InsertLogPg(L, NewLog("unknown", Delivered(body), Some(NotFoundError), Some(404)), c.log)
    case DuplicateLogId => Untouched(L, Refusal(500, INTERNAL_ERROR))
    case LogInserted(logged) => RouteResult(logged, Refusal(404, TRANSACTION_NOT_FOUND), None)
  }

  /**
   * The handler, given the client it validates with. `bodyText` is the
   * callback serialised again as JSON, which the check receives but ignores.
   */
  function Receive(L: Store, client: SmilePayClient.Client, body: WebhookBody, bodyText: string,
                   header: Option<string>, c: Clocks): (r: RouteResult)
    ensures r.request.None?
    ensures !SmilePayClient.ValidateWebhookSignature(client, bodyText, HeaderSignature(header)) ==>
      r == Untouched(L, Refusal(401, INVALID_SIGNATURE))
    ensures SmilePayClient.ValidateWebhookSignature(client, bodyText, HeaderSignature(header)) ==>
      match FindByOrderReference(L, body.orderReference)
      case None => r == LogUnknown(L, body, c)
      case Some(t) => r == Apply(L, t, body, c)
    ensures SmilePayClient.ValidateWebhookSignature(client, bodyText, HeaderSignature(header)) ==>
      (r.response.httpStatus == 500 <==> HasLogId(L.logs, LogId(c.log)))
  {
    if !SmilePayClient.ValidateWebhookSignature(client, bodyText, HeaderSignature(header)) then
      Untouched(L, Refusal(401, INVALID_SIGNATURE))
    else
      match FindByOrderReference(L, body.orderReference)
      case None => LogUnknown(L, body, c)
      case Some(t) => Apply(L, t, body, c)
  }

  /**
   * The handler as written: it builds its own client with no configuration,
   * the constructor fails reading the missing configuration, and the outer
   * handler answers 500 without touching the ledger.
   */
  function ReceiveAsWritten(L: Store, body: WebhookBody, bodyText: string, header: Option<string>,
                            c: Clocks): (r: RouteResult)
    ensures r == Untouched(L, Refusal(500, INTERNAL_ERROR))
  {
    match SmilePayClient.NewClient(None)
    case None => Untouched(L, Refusal(500, INTERNAL_ERROR))
    case Some(client) => Receive(L, client, body, bodyText, header, c)
  }

  /** Whatever the callback says, the handler as written answers 500 and changes nothing, not even the log. */
  lemma EveryCallbackFailsAsWritten(L: Store, body: WebhookBody, bodyText: string, header: Option<string>, c: Clocks)
    ensures var r := ReceiveAsWritten(L, body, bodyText, header, c);
      r.response.httpStatus == 500 && r.store == L
  {
  }

  /**
   * A well-formed callback for a known order: the handler as written fails
   * while the handler with the configured client records the payment.
   */
  lemma ConfiguredClientRecordsPayment(L: Store, client: SmilePayClient.Client, body: WebhookBody,
                                        bodyText: string, c: Clocks)
    requires client.webhookSecret == "" && Good(L)
    requires FindByOrderReference(L, body.orderReference).Some?
    requires body.transactionStatus == Some("SUCCESS")
    ensures var fixed := Receive(L, client, body, bodyText, None, c);
      var t := FindByOrderReference(L, body.orderReference).value;
      && (fixed.response.httpStatus == 200 <==> !HasLogId(L.logs, LogId(c.log)))
      && fixed.store.txs[t.id].status == PAID
      && fixed.store.txs[t.id].paidAt == Some(c.update)
      && ReceiveAsWritten(L, body, bodyText, None, c).response.httpStatus == 500
  {
    var t := FindByOrderReference(L, body.orderReference).value;
    assert t.id in L.txs;
    assert ToUpper("SUCCESS") == "SUCCESS";
  }

  /**
   * Applying a callback to a stored record sets the mapped status whatever
   * the record held, keeps or replaces the gateway reference, keeps the
   * store well formed and leaves every other record as it was.
   */
  lemma ApplyOverridesStatus(L: Store, t: Transaction, body: WebhookBody, c: Clocks)
    requires Good(L) && t.id in L.txs && L.txs[t.id] == t
    ensures var r := Apply(L, t, body, c).store;
      var status := SmilePayClient.MapStatus(body.transactionStatus);
      && Good(r) && r.txs.Keys == L.txs.Keys
      && r.txs[t.id].status == status && SameOrder(t, r.txs[t.id])
      && r.txs[t.id].transactionReference == Or(body.transactionReference, t.transactionReference)
      && (status == PAID ==> r.txs[t.id].paidAt == Some(c.update))
      && (status != PAID ==> r.txs[t.id].paidAt == t.paidAt)
      && (forall k :: k in L.txs && k != t.id ==> r.txs[k] == L.txs[k])
  {
    var status := SmilePayClient.MapStatus(body.transactionStatus);
    var u := t.(status := status, transactionReference := Or(body.transactionReference, t.transactionReference));
    var row := if status == PAID then u.(paidAt := Some(c.update)) else u;
    RowChangeKeepsGood(L, t.id, row);
  }

  /**
   * The matched record takes the mapped status whatever its status was,
   * terminal or not, and every other record is left as it was.
   */
  lemma CallbackOverridesStatus(L: Store, client: SmilePayClient.Client, body: WebhookBody, bodyText: string,
                                header: Option<string>, c: Clocks)
    requires Good(L) && SmilePayClient.ValidateWebhookSignature(client, bodyText, HeaderSignature(header))
    requires FindByOrderReference(L, body.orderReference).Some?
    ensures var t := FindByOrderReference(L, body.orderReference).value;
      var r := Receive(L, client, body, bodyText, header, c);
      var status := SmilePayClient.MapStatus(body.transactionStatus);
      && t.id in L.txs && L.txs[t.id] == t
      && Good(r.store) && r.store.txs.Keys == L.txs.Keys
      && r.store.txs[t.id].status == status
      && r.store.txs[t.id].transactionReference == Or(body.transactionReference, t.transactionReference)
      && (status == PAID ==> r.store.txs[t.id].paidAt == Some(c.update))
      && (status != PAID ==> r.store.txs[t.id].paidAt == t.paidAt)
      && (forall k :: k in L.txs && k != t.id ==> r.store.txs[k] == L.txs[k])
      && (r.response.success <==> !HasLogId(L.logs, LogId(c.log)))
      && (r.response.success ==> r.response.status == Some(status))
  {
    var t := FindByOrderReference(L, body.orderReference).value;
    FoundIsStored(L, body.orderReference);
    ApplyOverridesStatus(L, t, body, c);
  }

  /** After a callback, looking up its order reference finds the record it just rewrote. */
  lemma CallbackRecordFoundAgain(L: Store, client: SmilePayClient.Client, body: WebhookBody, bodyText: string,
                                 header: Option<string>, c: Clocks)
    requires Good(L) && SmilePayClient.ValidateWebhookSignature(client, bodyText, HeaderSignature(header))
    requires FindByOrderReference(L, body.orderReference).Some?
    ensures var t := FindByOrderReference(L, body.orderReference).value;
      var r := Receive(L, client, body, bodyText, header, c);
      && t.id in r.store.txs && Good(r.store)
      && FindByOrderReference(r.store, body.orderReference) == Some(r.store.txs[t.id])
  {
    var ref := body.orderReference;
    var t := FindByOrderReference(L, ref).value;
    FoundIsStored(L, ref);
    ApplyOverridesStatus(L, t, body, c);
    var r := Receive(L, client, body, bodyText, header, c);
    var once := r.store.txs[t.id];
    var mid := L.(txs := L.txs[t.id := once]);
    assert r.store == mid.(logs := r.store.logs);
    FindAfterRowChange(L, t.id, once, ref);
    assert FindByOrderReference(r.store, ref) == FindByOrderReference(mid, ref);
  }

  /**
   * Delivering the same callback again leaves the same record, except that
   * PAID stamps `paid_at` afresh, and gives the same answer when both log
   * inserts go through.
   */
  lemma ReplayedCallbackRestampsOnly(L: Store, client: SmilePayClient.Client, body: WebhookBody, bodyText: string,
                                     header: Option<string>, c1: Clocks, c2: Clocks)
    requires Good(L) && SmilePayClient.ValidateWebhookSignature(client, bodyText, HeaderSignature(header))
    requires FindByOrderReference(L, body.orderReference).Some?
    ensures var t := FindByOrderReference(L, body.orderReference).value;
      var r1 := Receive(L, client, body, bodyText, header, c1);
      var r2 := Receive(r1.store, client, body, bodyText, header, c2);
      var once := r1.store.txs[t.id];
      && t.id in r1.store.txs && r2.store.txs.Keys == r1.store.txs.Keys
      && (!HasLogId(L.logs, LogId(c1.log)) && !HasLogId(r1.store.logs, LogId(c2.log)) ==> r2.response == r1.response)
      && r2.store.txs[t.id] == (if once.status == PAID then once.(paidAt := Some(c2.update)) else once)
  {
    var t := FindByOrderReference(L, body.orderReference).value;
    CallbackRecordFoundAgain(L, client, body, bodyText, header, c1);
    var r1 := Receive(L, client, body, bodyText, header, c1);
    var once := r1.store.txs[t.id];
    assert once.id == t.id;
    ApplyOverridesStatus(r1.store, once, body, c2);
  }

  /** Two deliveries in different milliseconds, neither already in the log, leave two entries behind. */
  lemma CallbacksInDistinctMillisecondsLogTwice(L: Store, client: SmilePayClient.Client, body: WebhookBody,
                                                bodyText: string, header: Option<string>, c1: Clocks, c2: Clocks)
    requires SmilePayClient.ValidateWebhookSignature(client, bodyText, HeaderSignature(header))
    requires c1.log != c2.log
    requires !HasLogId(L.logs, LogId(c1.log)) && !HasLogId(L.logs, LogId(c2.log))
    ensures var r1 := Receive(L, client, body, bodyText, header, c1);
      var r2 := Receive(r1.store, client, body, bodyText, header, c2);
      && |r2.store.logs| == |L.logs| + 2 && r2.store.logs[..|L.logs|] == L.logs
  {
    var r1 := Receive(L, client, body, bodyText, header, c1);
    LogIdInjective(c1.log, c2.log);
    assert r1.store.logs[|L.logs|].id == LogId(c1.log);
    StillFreeAfterAppend(L.logs, r1.store.logs, LogId(c2.log));
    var r2 := Receive(r1.store, client, body, bodyText, header, c2);
    assert r2.store.logs[..|r1.store.logs|][..|L.logs|] == r2.store.logs[..|L.logs|];
  }

  /**
   * A second delivery in the same millisecond is answered 500: its log
   * insert is refused, so the log keeps only the first entry, although the
   * record has already taken the mapped status again.
   */
  lemma SameMillisecondCallbackRefused(L: Store, client: SmilePayClient.Client, body: WebhookBody,
                                       bodyText: string, header: Option<string>, c1: Clocks, c2: Clocks)
    requires Good(L) && SmilePayClient.ValidateWebhookSignature(client, bodyText, HeaderSignature(header))
    requires FindByOrderReference(L, body.orderReference).Some?
    requires c1.log == c2.log && !HasLogId(L.logs, LogId(c1.log))
    ensures var t := FindByOrderReference(L, body.orderReference).value;
      var r1 := Receive(L, client, body, bodyText, header, c1);
      var r2 := Receive(r1.store, client, body, bodyText, header, c2);
      && r1.response.httpStatus == 200
      && r2.response == Refusal(500, INTERNAL_ERROR)
      && r2.store.logs == r1.store.logs
      && t.id in r2.store.txs && r2.store.txs[t.id].status == SmilePayClient.MapStatus(body.transactionStatus)
  {
    var t := FindByOrderReference(L, body.orderReference).value;
    CallbackRecordFoundAgain(L, client, body, bodyText, header, c1);
    var r1 := Receive(L, client, body, bodyText, header, c1);
    assert r1.store.logs[|L.logs|].id == LogId(c1.log);
    var once := r1.store.txs[t.id];
    assert once.id == t.id;
    ApplyOverridesStatus(r1.store, once, body, c2);
  }
}
